=== FILE: README.md ===
# Origins asset-dump pipeline, modelled in Dafny

This project models the decision and parsing logic of the Habbo Origins
asset-dump tools in the `shroom` renderer, plus two self-contained
algorithms. The outside world is passed in as data: file reads, directory
listings, subprocess outcomes and the clock are all parameters.

The dump tools:

- **External variables.** They read the `external_variables` text of an
  Origins client. Lines are split into `key=value` pairs, `${name}`
  references are resolved over a bounded number of passes, and the
  download URLs and cast groups are extracted.
- **Asset discovery.** The client directory is walked to a fixed depth.
  `.dcr` and `.cct` files are collected and classified as
  figure / furniture / room / other assets.
- **ProjectorRays.** The decompiler is fetched, built and then run on one
  file.
- **Per-file dumps.** Each file is dumped to a directory. The extracted
  images and XML/binary files are partitioned, and a failure note is
  written when extraction yields nothing.
- **Figure bundles.** An Origins figure dump is turned into a `.shroom`
  bundle, with its sprite-name metadata.
- **Figure converter.** The `origins-figure-to-shroom` converter covers:
  - the part-image file-name grammar and the part-type table;
  - the quote-aware CSV splitter for `Members.csv`;
  - the XML manifest;
  - the per-directory conversion rules;
  - the white-background flood fill.

Alongside the dump tools, the model covers:

- **Async utilities,** run sequentially:
  - `batchLoad`: chunking, per-item accounting and progress reports;
  - the `ProgressTracker`;
  - `retryAsync`: attempts and back-off delays, as a trace;
  - the TTL `AsyncCache`, with an explicit clock.
- **Hit maps.** The hit map of `HitTexture`: alpha thresholds packed into
  32-bit words, and the index arithmetic `hits` uses to read them back,
  including JavaScript's truncating `%` and `| 0`.

## Modules

| file | module | what it holds |
|---|---|---|
| `core.dfy` | `Core` | `Option`, `Result`, `Outcome`, bytes, small sequence facts |
| `text.dfy` | `Text` | `trim`, `indexOf`, `includes`, `split`/`join` on one character, ASCII `toLowerCase`, digit runs |
| `paths.dfy` | `Paths` | POSIX `basename`, `extname`, `dirname` and the two-argument `join` the tools use |
| `ordered_maps.dfy` | `OrderedMaps` | a JavaScript `Map` as an insertion-ordered association list |
| `external_variables.dfy` | `ExternalVariables` | the parser, resolver, extractor and URL validator |
| `async_utils.dfy` | `AsyncUtils` | `ProgressTracker`, `batchLoad`, `retryAsync`, `AsyncCache` |
| `asset_discovery.dfy` | `AssetDiscovery`, `AssetDiscoveryExamples` | classification and the directory walk, with concrete vectors |
| `projector_rays.dfy` | `ProjectorRays` | `ensureAvailable` and `extractFile` |
| `dump_steps.dfy` | `DumpSteps` | `dumpDCR` and `dumpCCT`, one definition parameterised by file type |
| `origins_figure.dfy` | `OriginsFigure` | `dumpOriginsFigure` bundle entries and `createOriginsMetadata` sprites |
| `figure_to_shroom.dfy` | `FigureToShroom` | part-image names, part types, bundle and asset names |
| `members_csv.dfy` | `MembersCsv` | the `Members.csv` line splitter |
| `figure_bundles.dfy` | `FigureBundles` | the manifest and `processDirectory` |
| `flood_fill.dfy` | `FloodFill` | `removeWhiteBackground`'s edge-seeded flood fill |
| `hit_texture.dfy` | `HitTexture` | `generateHitMap`, `_getHitMap`, `hits` |

## Where the model follows the code rather than the description

- **Repeated keys.** A repeated external-variables key keeps the position
  of its first assignment and takes the value of its last, as
  `Map.set` does.
- **Resolution order.** Resolution runs exactly one pass per key. Each
  pass sees the values rewritten earlier in the same pass. A reference
  cycle such as `a=${b}`, `b=${a}` therefore settles on `a=${a}`, `b=${a}`
  rather than failing.
- **Manifest asset names.** The code cuts the asset name from the file
  name after removing the first `.png`, wherever that `.png` is. The model
  keeps this as `FigureToShroom.AssetNameAsWritten`. The manifest
  (`FigureBundles.AssetFor`) uses the evidently meant name instead: the
  bundle entry name without its `.png` ending (see Findings). The two agree
  whenever `.png` occurs in the file name only as its ending.
- **Hit-map reads.** `hits` reads whatever word its index lands in.
  - An index past the map reads nothing.
  - An index between -31 and -1 reads a bit of word 0, because of `| 0`
    and the 5-bit shift count.
  - There is no column check.
- **Repository handling.** When a broken repository directory cannot be
  replaced, the outer handler catches the failure and clones.
  - If the removal failed, the re-clone never ran, so the handler's clone
    is the only one.
  - If the removal succeeded but the re-clone failed, the handler clones a
    second time.
- **Progress reports.** `ProgressTracker` reports once on construction, so
  a batch of `n` items produces `n + 1` progress reports.

## Model

| member | source | states |
|---|---|---|
| ExternalVariables.ParseLine | src/tools/dump/parseOriginsExternalVariables.ts:5-17 | a line yields no pair exactly when, trimmed, it is empty, starts with `#` or has no `=`; otherwise the pair is the trimmed text before and after the line's first `=`, so the key holds no `=`, and key and value are both trimmed |
| ExternalVariables.ParseLineRoundTrip | src/tools/dump/parseOriginsExternalVariables.ts:5-17 | `key=value` with any white space around key, `=` and value, for a trimmed key without `=` or leading `#` and a trimmed value, parses back to exactly (key, value), so values may contain `=` |
| ExternalVariables.SetAllLookup | src/tools/dump/parseOriginsExternalVariables.ts:18 | after setting every pair, a key's value is the value of its last assignment, or the original value when it is never assigned |
| ExternalVariables.SetAllKeysPrefix | src/tools/dump/parseOriginsExternalVariables.ts:18 | setting pairs keeps every existing key at its position, and the keys afterwards are the old keys plus the assigned ones |
| ExternalVariables.FirstAssignmentOrder | src/tools/dump/parseOriginsExternalVariables.ts:18 | a key first assigned before another key's first assignment comes earlier in the map's iteration order |
| ExternalVariables.SetAllDistinct | src/tools/dump/parseOriginsExternalVariables.ts:18 | the map built from any pairs never holds a key twice |
| ExternalVariables.Replacement | src/tools/dump/parseOriginsExternalVariables.ts:25-27 | a reference becomes the named value when that value is present and non-empty, and stays as the verbatim `${name}` text otherwise |
| ExternalVariables.SubstituteReference | src/tools/dump/parseOriginsExternalVariables.ts:25-27 | a `${name}` reference after text without `$` is replaced in place and the scan continues after its `}` |
| ExternalVariables.SubstituteNoReference | src/tools/dump/parseOriginsExternalVariables.ts:24-27 | a value without `${` is left unchanged by substitution |
| ExternalVariables.Visit | src/tools/dump/parseOriginsExternalVariables.ts:23-29 | visiting one entry rewrites at most that entry's value, keeps all keys, leaves a value without `${` as it is, and replaces a value holding `${` by its substitution against the current map |
| ExternalVariables.PassFrom | src/tools/dump/parseOriginsExternalVariables.ts:23-30 | a pass over the entries from a position on keeps all keys and leaves earlier entries and reference-free values unchanged |
| ExternalVariables.Resolve | src/tools/dump/parseOriginsExternalVariables.ts:22-31 | resolution neither adds nor removes keys and leaves every value without `${` unchanged |
| ExternalVariables.PassFromReplaces | src/tools/dump/parseOriginsExternalVariables.ts:23-30 | a value that is exactly `${name}`, where `name` holds a non-empty reference-free value, becomes that value in the pass that reaches it |
| ExternalVariables.ResolveReplaces | src/tools/dump/parseOriginsExternalVariables.ts:22-31 | after resolution, a value that was exactly `${name}` is the value of `name`, when that value is non-empty and reference-free |
| ExternalVariables.ResolveKeepsMissing | src/tools/dump/parseOriginsExternalVariables.ts:22-31 | a reference to a name that is no key is left as it is by resolution |
| ExternalVariables.ParseOriginsExternalVariables | src/tools/dump/parseOriginsExternalVariables.ts:1-34 | the parsed map has pairwise distinct keys, exactly those of the assignment lines |
| ExternalVariables.ReferenceResolved | src/tools/dump/parseOriginsExternalVariables.ts:1-34 | a key whose last assignment is `${name}` maps to the last value of `name` in the parsed map, when that value is non-empty and reference-free |
| ExternalVariables.ParsedKeys | src/tools/dump/parseOriginsExternalVariables.ts:2-18 | a key is in the result exactly when some line of the text assigns it |
| ExternalVariables.PlainValueKept | src/tools/dump/parseOriginsExternalVariables.ts:18-31 | a key whose last assigned value has no `${` maps to exactly that value after resolution |
| ExternalVariables.ExampleResolve | src/tools/dump/parseOriginsExternalVariables.ts:22-31 | the assignments `a=1`, `b=${a}-2` resolve to `a=1`, `b=1-2` |
| ExternalVariables.ExampleCycle | src/tools/dump/parseOriginsExternalVariables.ts:22-31 | the cycle `a=${b}`, `b=${a}` terminates with `a=${a}`, `b=${a}` |
| ExternalVariables.GroupKeysFrom | src/tools/dump/parseOriginsExternalVariables.ts:51-58 | every key of a prefix group is the rest of a variable key that carries the prefix |
| ExternalVariables.PrefixesExclusive | src/tools/dump/parseOriginsExternalVariables.ts:52-57 | no key starts with both `cast.entry.` and `room.cast.`, so an entry lands in at most one group |
| ExternalVariables.ExtractGroups | src/tools/dump/parseOriginsExternalVariables.ts:46-70 | `castEntries` and `roomCasts` are the entries under `cast.entry.` and `room.cast.`, re-keyed by the suffix, in map order |
| ExternalVariables.GetOriginsExternalVariableUrls | src/tools/dump/getOriginsExternalVariableUrls.ts:11-22 | success exactly when both required URLs are present and non-empty, returning the extracted variables unchanged; a missing flash URL fails with its message first, then a missing figure-part-list URL with its own |
| AsyncUtils.Percentage | src/util/AsyncUtils.ts:56 | no percentage for a zero total; otherwise the nearest integer to 100·loaded/total, within 0..100 while loaded ≤ total |
| AsyncUtils.NewTracker | src/util/AsyncUtils.ts:33-37 | a new tracker starts at 0 loaded and, with a listener, has already reported once |
| AsyncUtils.Increment | src/util/AsyncUtils.ts:39-43 | an increment counts one more item, records the item and appends exactly one report of the new state |
| AsyncUtils.Report | src/util/AsyncUtils.ts:50-59 | a report appends one record of loaded, total, current item and percentage when a listener exists, and changes nothing else |
| AsyncUtils.ChunksFlatten | src/util/AsyncUtils.ts:81-84 | the chunks concatenate back to the items |
| AsyncUtils.Chunks | src/util/AsyncUtils.ts:81-84 | every chunk is non-empty and at most `concurrency` long, and every chunk but the last is exactly `concurrency` long |
| AsyncUtils.BatchAccounting | src/util/AsyncUtils.ts:87-107 | every item ends in exactly one of `loaded` and `failed` |
| AsyncUtils.BatchOutcomes | src/util/AsyncUtils.ts:87-107 | `loaded` holds every success and `failed` every failure, as multisets, whatever the completion order within chunks |
| AsyncUtils.BatchChunksInOrder | src/util/AsyncUtils.ts:87-105 | items are settled chunk by chunk: no item of a later chunk settles before one of an earlier chunk |
| AsyncUtils.BatchReports | src/util/AsyncUtils.ts:76-107 | with a listener a batch of n items reports n + 1 times, the j-th report with loaded = j and the item count as total |
| AsyncUtils.SchedulePermutes | src/util/AsyncUtils.ts:87-105 | the settle order is a permutation of the item indices |
| AsyncUtils.RetryAsync | src/util/AsyncUtils.ts:113-149 | at most maxRetries + 1 calls; success is the first successful call; after all fail, the last error; one retry notice (1, 2, …) and one sleep per failed non-final attempt, with the back-off delays; a negative maxRetries throws without calling |
| AsyncUtils.DelayClosedForm | src/util/AsyncUtils.ts:132-143 | the j-th delay (j ≥ 1) is min(initialDelay · factor^j, maxDelay) |
| AsyncUtils.Get | src/util/AsyncUtils.ts:178-195 | the factory is skipped exactly when not forced, the key is present and the entry is within its TTL (or there is none); otherwise the new value is stored with the current time |
| AsyncUtils.Delete | src/util/AsyncUtils.ts:201-203 | delete removes exactly one key and keeps every other entry |
| AsyncUtils.Clear | src/util/AsyncUtils.ts:197-199 | clear removes every entry |
| AsyncUtils.DeleteThenGet | src/util/AsyncUtils.ts:178-203 | after deleting a key, the next get always calls the factory |
| AsyncUtils.GetTwiceSameInstant | src/util/AsyncUtils.ts:186-193 | a second get at the same instant is served from the cache unless the TTL is negative and the first get did not serve it |
| AssetDiscovery.DetermineAssetTypeCases | src/tools/dump/findOriginsDCRs.ts:122-156 | figure exactly on a figure cue; furniture exactly on a furniture cue without a figure cue; room and other likewise down the precedence |
| AssetDiscovery.DetermineAssetTypeIgnoresCase | src/tools/dump/findOriginsDCRs.ts:123-124 | classification does not depend on letter case |
| AssetDiscovery.FurniInside | src/tools/dump/findOriginsDCRs.ts:137-141 | the `furniture` and `hh_furni` tests are subsumed by the `furni` test |
| AssetDiscovery.Describe | src/tools/dump/findOriginsDCRs.ts:69-95 | a file is reported exactly when its lower-cased name ends in `.dcr` or `.cct`, with the joined path, the matching file type and the classification of its base name and path |
| AssetDiscovery.DescribeUpperSuffix | src/tools/dump/findOriginsDCRs.ts:73-74 | a `.DCR` file is reported as dcr but keeps its whole name as base name |
| AssetDiscovery.DescribeLowerSuffix | src/tools/dump/findOriginsDCRs.ts:73-74 | a `.dcr` file's base name is its name without `.dcr` |
| AssetDiscovery.FileReported | src/tools/dump/findOriginsDCRs.ts:64-97 | a reportable file contributes its descriptor between those of its earlier and later siblings |
| AssetDiscovery.UnreadableSkipped | src/tools/dump/findOriginsDCRs.ts:98-100 | an unreadable subdirectory contributes nothing and its siblings are still visited |
| AssetDiscovery.FindAssetsDepthLimit | src/tools/dump/findOriginsDCRs.ts:57-59 | nothing more than 10 levels below the root affects the result |
| AssetDiscovery.FindAssetsSound | src/tools/dump/findOriginsDCRs.ts:56-97 | every reported asset is the descriptor of a file the walk reaches through readable directories within the depth limit |
| AssetDiscovery.FindAssetsComplete | src/tools/dump/findOriginsDCRs.ts:56-97 | every `.dcr` or `.cct` file reachable through readable directories within the depth limit is reported |
| AssetDiscovery.FindOriginsAssetsMembers | src/tools/dump/findOriginsDCRs.ts:56-97 | an asset is reported exactly when it describes a reachable `.dcr` or `.cct` file |
| AssetDiscovery.FindOriginsDCRs | src/tools/dump/findOriginsDCRs.ts:38-48 | one record per discovered asset, dcr and cct alike, without the file type |
| AssetDiscovery.RecursivelyFindDCRs | src/tools/dump/findOriginsDCRs.ts:104-120 | the records found are appended after the existing ones |
| AssetDiscovery.DcrOnlyMembers | src/tools/dump/findOriginsDCRs.ts:113-119 | the legacy list holds exactly the records of the dcr assets |
| AssetDiscoveryExamples.ExampleFigure | src/tools/dump/findOriginsDCRs.ts:127-133 | `figure_hair` is a figure asset |
| AssetDiscoveryExamples.ExampleFurniture | src/tools/dump/findOriginsDCRs.ts:137-143 | `hh_furni_chair` is a furniture asset |
| AssetDiscoveryExamples.ExampleRoom | src/tools/dump/findOriginsDCRs.ts:147-151 | `tile_room.cct` is a room asset |
| AssetDiscoveryExamples.ExampleOther | src/tools/dump/findOriginsDCRs.ts:155 | `misc.dcr` on a neutral path is other |
| ProjectorRays.NewManager | src/tools/dump/ProjectorRaysManager.ts:12-17 | a new manager is not initialized |
| ProjectorRays.EnsureAvailable | src/tools/dump/ProjectorRaysManager.ts:26-102 | the manager ends initialized exactly when setup passes, and every setup failure carries the `ProjectorRays setup failed: ` prefix |
| ProjectorRays.EnsureAvailableInitialized | src/tools/dump/ProjectorRaysManager.ts:27-29 | an initialized manager does nothing |
| ProjectorRays.EnsureAvailableIdempotent | src/tools/dump/ProjectorRaysManager.ts:27-36 | after a successful setup, a second call does nothing in any environment |
| ProjectorRays.ExecutableFound | src/tools/dump/ProjectorRaysManager.ts:33-36 | an existing executable initializes the manager with no clone, install or build |
| ProjectorRays.RepositoryHandling | src/tools/dump/ProjectorRaysManager.ts:43-60 | a valid repository is reused, a missing one cloned, a broken one removed and then re-cloned |
| ProjectorRays.HomebrewRequired | src/tools/dump/ProjectorRaysManager.ts:64-68 | without Homebrew setup fails with the Homebrew message and neither installs nor builds |
| ProjectorRays.InstallIgnored | src/tools/dump/ProjectorRaysManager.ts:74-86 | the outcome of the dependency install, timeout included, changes nothing |
| ProjectorRays.InitializedWhen | src/tools/dump/ProjectorRaysManager.ts:31-101 | setup succeeds exactly when the executable exists, or fetching, Homebrew, make and the post-build check all pass |
| ProjectorRays.ExtractFile | src/tools/dump/ProjectorRaysManager.ts:104-163 | a setup failure propagates before any command runs; otherwise the `decompile` command on the resolved paths runs and success means a non-empty file list |
| ProjectorRays.ExtractFileOutcome | src/tools/dump/ProjectorRaysManager.ts:118-162 | extraction succeeds exactly when the command passes and the output directory lists a regular file, and then returns exactly those files; otherwise `{false, []}` |
| ProjectorRays.RegularFilesMembers | src/tools/dump/ProjectorRaysManager.ts:139-145 | the extracted list holds exactly the joined paths of the regular files |
| ProjectorRays.CommandShape | src/tools/dump/ProjectorRaysManager.ts:113 | the command changes into the tool directory, runs `./projectorrays decompile` on the quoted input and passes the quoted output with `-o` |
| DumpSteps.DumpNamesOf | src/tools/dump/dumpDCR.ts:13-15 | for `dir/name.dcr` the base name is `name` and the dump location `dir/name` |
| DumpSteps.UpperCaseExtensionKept | src/tools/dump/dumpDCR.ts:14-15 | a name not ending in the lower-case extension is kept whole as base name |
| DumpSteps.PartitionFiles | src/tools/dump/dumpDCR.ts:37-48 | the loop collects exactly the image paths and the data paths of the listing, in order |
| DumpSteps.SelectedMembers | src/tools/dump/dumpDCR.ts:37-48 | a path is listed exactly when some regular file of that kind joins to it |
| DumpSteps.PartitionDisjoint | src/tools/dump/dumpDCR.ts:42-46 | no path is both an image and a data file |
| DumpSteps.ClassifyIgnoresCase | src/tools/dump/dumpDCR.ts:40 | the extension test ignores letter case |
| DumpSteps.ManifestIgnored | src/tools/dump/dumpDCR.ts:26-46 | the failure note never appears in either list |
| DumpSteps.ManifestText | src/tools/dump/dumpDCR.ts:28 | the note starts with the file type, holds the source path verbatim between that heading and the ProjectorRays URL, and ends with the URL |
| DumpSteps.DumpFile | src/tools/dump/dumpDCR.ts:12-55 | the note is written exactly when extraction reports no files; the callback runs exactly when every earlier step passes, with the base name, location and both lists |
| DumpSteps.DumpRethrows | src/tools/dump/dumpDCR.ts:17-54 | the dump passes exactly when no step fails, and otherwise fails with the first step's error unchanged |
| DumpSteps.FailedExtractionStillCalls | src/tools/dump/dumpDCR.ts:24-50 | after a failed extraction the note is written and the callback still runs, without the note in its lists |
| OriginsFigure.ReadAll | src/tools/dump/dumpOriginsFigure.ts:11-21 | reading succeeds exactly when every file reads, giving their contents in order, and otherwise fails with one file's error |
| OriginsFigure.DumpOriginsFigure | src/tools/dump/dumpOriginsFigure.ts:5-42 | the bundle holds every image, then every data file, in input order, each under its base name, and is written to the dump location plus `.shroom` |
| OriginsFigure.EntryNamesOfListing | src/tools/dump/dumpOriginsFigure.ts:26-35 | entries made from paths joined under one directory carry exactly the listed names |
| OriginsFigure.ParseSpriteName | src/tools/dump/dumpOriginsFigure.ts:67-82 | a recognised sprite keeps the full file name and has a `[hs]+` size, non-empty action and part, and zero registration point |
| OriginsFigure.SpriteNameComplete | src/tools/dump/dumpOriginsFigure.ts:67-82 | every name of the sprite shape is recognised, with its six groups |
| OriginsFigure.SpriteNameSound | src/tools/dump/dumpOriginsFigure.ts:67-82 | every recognised name is the join of six pieces of the sprite shape |
| OriginsFigure.SpriteNumbersRoundTrip | src/tools/dump/dumpOriginsFigure.ts:69-77 | the id, direction and frame parse back to the numbers spelled in the name |
| OriginsFigure.CreateOriginsMetadata | src/tools/dump/dumpOriginsFigure.ts:53-59 | the metadata has type `origins_figure`, the base name and the given creation time |
| OriginsFigure.SpritesLookup | src/tools/dump/dumpOriginsFigure.ts:62-84 | a stem has a sprite exactly when some image of that stem is recognised, and then the last such image's sprite |
| FigureToShroom.ParsePngFilename | src/tools/dump/origins-figure-to-shroom.ts:21-39 | an accepted name ends in `.png`, its part type is a non-empty `_`-free token and its part id a digit run |
| FigureToShroom.PngNameComplete | src/tools/dump/origins-figure-to-shroom.ts:23-38 | every spelling of well-formed groups is accepted with exactly those groups |
| FigureToShroom.PngNameSound | src/tools/dump/origins-figure-to-shroom.ts:23-38 | every accepted name is the spelling of its well-formed groups |
| FigureToShroom.FrameTakesAllDigits | src/tools/dump/origins-figure-to-shroom.ts:23 | with no underscore before `.png` the frame takes every trailing digit and there is no effect |
| FigureToShroom.GetPartTypeName | src/tools/dump/origins-figure-to-shroom.ts:42-70 | a listed code maps to its name and any other code comes back unchanged |
| FigureToShroom.PartTypeNameListed | src/tools/dump/origins-figure-to-shroom.ts:43-67 | each of the 23 codes maps to the name on its own row |
| FigureToShroom.GetPartTypeNameAsWritten | src/tools/dump/origins-figure-to-shroom.ts:69 | the lookup as written yields an inherited object member exactly for the unlisted codes that name one |
| FigureToShroom.PartTypeNameInherited | src/tools/dump/origins-figure-to-shroom.ts:69 | the part type `constructor` yields the inherited constructor instead of itself |
| FigureToShroom.EntryName | src/tools/dump/origins-figure-to-shroom.ts:156 | a bundle entry is named by the end of its file name after the first underscore |
| FigureToShroom.AssetName | src/tools/dump/origins-figure-to-shroom.ts:251 | the asset name plus `.png` is the bundle entry name |
| FigureToShroom.AsWrittenCutsFirstPng | src/tools/dump/origins-figure-to-shroom.ts:251 | as written the asset name is the entry name with the first `.png` of the file name cut out |
| FigureToShroom.AssetNameMismatch | src/tools/dump/origins-figure-to-shroom.ts:251 | an accepted name exists whose asset name as written differs from the entry name without `.png` |
| MembersCsv.SplitCsvLine | src/tools/dump/origins-figure-to-shroom.ts:208-217 | the loop yields the trimmed fields: one more than the commas outside quotes, each trimmed and free of quotes |
| MembersCsv.QuotedField | src/tools/dump/origins-figure-to-shroom.ts:211-215 | a quoted field keeps its commas and loses its quotes |
| MembersCsv.FieldsJoin | src/tools/dump/origins-figure-to-shroom.ts:208-217 | trimmed fields without quotes or commas, joined with commas, split back into themselves |
| FigureBundles.AcceptedMembers | src/tools/dump/origins-figure-to-shroom.ts:248-250 | the names the manifest lists are exactly the parsable ones among the files |
| FigureBundles.AssetFor | src/tools/dump/origins-figure-to-shroom.ts:251-253 | each manifest asset is named by its bundle entry name without `.png` (the evidently meant name; see Findings) |
| FigureBundles.AssetForAsWritten | src/tools/dump/origins-figure-to-shroom.ts:251-253 | when `.png` occurs only as the file name's ending, the asset has the name the code computes and the registration under that name, or `0,0` |
| FigureToShroom.AssetNamesAgree | src/tools/dump/origins-figure-to-shroom.ts:251 | when `.png` occurs only as the file name's ending, the name as written equals the evidently meant one |
| FigureBundles.AssetOffsets | src/tools/dump/origins-figure-to-shroom.ts:253-255 | an asset's offset is its registration point, or 0,0 when there is none |
| FigureBundles.ManifestHoldsAssets | src/tools/dump/origins-figure-to-shroom.ts:240-265 | the manifest contains the `<asset>` block of every parsable name |
| FigureBundles.GenerateManifest | src/tools/dump/origins-figure-to-shroom.ts:241-262 | the manifest opens with the XML declaration and library header and closes with the fixed footer |
| FigureBundles.HumanDirectoriesMembers | src/tools/dump/origins-figure-to-shroom.ts:77-80 | the part directories are exactly the listed directories named `hh_human_…` |
| FigureBundles.DiscoverDirectories | src/tools/dump/origins-figure-to-shroom.ts:73-85 | a failed listing gives no directories |
| FigureBundles.PngFiles | src/tools/dump/origins-figure-to-shroom.ts:113-115 | only regular files ending in `.png` are taken |
| FigureBundles.PngFilesMembers | src/tools/dump/origins-figure-to-shroom.ts:113-115 | a name is taken exactly when it is a regular file whose name ends in `.png` |
| FigureBundles.ImagesMembers | src/tools/dump/origins-figure-to-shroom.ts:145-161 | every parsable image that reads is added under its entry name |
| FigureBundles.ImagesSound | src/tools/dump/origins-figure-to-shroom.ts:145-161 | every image entry comes from a parsable image that reads |
| FigureBundles.ImagesEmpty | src/tools/dump/origins-figure-to-shroom.ts:145-168 | no image is added exactly when no parsable image reads |
| FigureBundles.ProcessDirectory | src/tools/dump/origins-figure-to-shroom.ts:88-194 | a missing directory fails with its path; a converted directory gives the output file under the figure output directory and a bundle of images plus the manifest |
| FigureBundles.Package | src/tools/dump/origins-figure-to-shroom.ts:163-186 | packaging succeeds exactly when mkdir and write pass, with the images followed by the manifest entry holding the generated manifest |
| FigureBundles.ProcessDirectoryOutcome | src/tools/dump/origins-figure-to-shroom.ts:100-186 | a directory converts exactly when it is accessible and listed, its first `.png` parses, some parsable image reads, and mkdir and write pass; the part type is the first name's |
| FloodFill.Fill | src/tools/dump/origins-figure-to-shroom.ts:347-373 | one fill keeps the cleared set sound and closed under white neighbours, only grows it, and clears a white start pixel |
| FloodFill.FillRows | src/tools/dump/origins-figure-to-shroom.ts:377-380 | filling from the top and bottom rows seeds every white pixel of those rows |
| FloodFill.FillColumns | src/tools/dump/origins-figure-to-shroom.ts:383-386 | filling from the left and right columns seeds every white pixel of all four edges |
| FloodFill.FillsCoverBackground | src/tools/dump/origins-figure-to-shroom.ts:347-386 | a sound, closed, edge-seeded set is exactly the white pixels connected to the border |
| FloodFill.RemoveWhiteBackground | src/tools/dump/origins-figure-to-shroom.ts:330-386 | exactly the white pixels 4-connected to the border through white pixels get alpha 0; every other channel and pixel is unchanged |
| HitTexture.GenerateHitMap | src/objects/hitdetection/HitTexture.ts:177-186 | the map has ceil(w·h/32) words, bit i mod 32 of word i/32 is set exactly for pixels with alpha ≥ 25, and bits past the last pixel are clear |
| HitTexture.SetBit | src/objects/hitdetection/HitTexture.ts:182 | setting a bit changes only that bit |
| HitTexture.JsRem32 | src/objects/hitdetection/HitTexture.ts:91 | JavaScript's `% 32`: the remainder has the sign of the index and index = 32·quotient + remainder |
| HitTexture.ToInt32 | src/objects/hitdetection/HitTexture.ts:92 | `| 0` keeps values in the 32-bit range unchanged |
| HitTexture.HitMapRoundTrip | src/objects/hitdetection/HitTexture.ts:88-93 | reading a pixel inside the image returns exactly whether that pixel is solid |
| HitTexture.HitIndexPastEnd | src/objects/hitdetection/HitTexture.ts:92-93 | an index past the map never hits |
| HitTexture.HitIndexJustBelow | src/objects/hitdetection/HitTexture.ts:90-93 | an index from -31 to -1 reads bit index + 32 of word 0 |
| HitTexture.HitIndexFarBelow | src/objects/hitdetection/HitTexture.ts:90-93 | an index above -2^36 and at most -32 never hits; further below, the `\| 0` on the word index wraps, and the lemma does not cover that range |
| HitTexture.GetHitMap | src/objects/hitdetection/HitTexture.ts:96-104 | the map is generated on first use and the cached one returned afterwards |
| HitTexture.Hits | src/objects/hitdetection/HitTexture.ts:73-94 | `hits` tests the bit at origin + offset (mirrored about the origin when asked) + row · width in the cached map |
| HitTexture.HitsPixel | src/objects/hitdetection/HitTexture.ts:79-93 | for a point inside the frame, `hits` is exactly the solidity of that pixel |
| Paths.BasenameStripsSuffix | src/tools/dump/dumpDCR.ts:14 | `basename(dir/name, ext)` for a name ending in ext gives the name without it |
| Paths.DirnameJoin | src/tools/dump/dumpDCR.ts:13 | `dirname(join(d, n))` is d |
| Paths.ExtnameOf | src/tools/dump/dumpDCR.ts:40 | `extname` of a path is its last dotted extension |
| OrderedMaps.Set | src/tools/dump/parseOriginsExternalVariables.ts:18 | `Map.set` keeps existing keys in place, appends a new key at the end, and the key then maps to the value |
| OrderedMaps.SetOther | src/tools/dump/parseOriginsExternalVariables.ts:18 | `Map.set` leaves every other key's value unchanged |
| Text.Trim | src/tools/dump/parseOriginsExternalVariables.ts:6 | the result has no white space at either end and is no longer than the input |
| Text.TrimTrimmed | src/tools/dump/parseOriginsExternalVariables.ts:6 | text with no white space at either end is left unchanged |
| Text.TrimFramed | src/tools/dump/parseOriginsExternalVariables.ts:6 | the result is a slice of the input with only white space before and after it |
| Text.TrimSpaces | src/tools/dump/parseOriginsExternalVariables.ts:6 | trimmed text with any white space around it trims back to itself |
| Text.SplitJoin | src/tools/dump/parseOriginsExternalVariables.ts:2 | splitting the join of separator-free pieces gives the pieces back |
| Text.ToLowerIdempotent | src/tools/dump/findOriginsDCRs.ts:123-124 | lower-casing twice is lower-casing once |

## Left out

- I/O is not modelled. The file system, `fetch`, `exec`, git, Homebrew, make and sharp PNG decoding and encoding appear only as their outcomes, passed in as data. Logging is dropped.
- Real concurrency is not modelled. `Promise.allSettled` interleavings are an arbitrary permutation within each chunk. Concurrent `ensureAvailable` callers are out, since the code has no lock. `withTimeout` and `promisify` are out.
- Timers and clocks are parameters. The current time is an input, and `setTimeout` sleeps are recorded as delays in a trace.
- The bundle container's serialiser (`ShroomAssetBundle`) is not part of this model. A bundle is the ordered list of its entries, and no byte format is claimed.
- `parseMembersCsv` is modelled only as far as its line splitter. The registration points reach the manifest as an input map, because the rest of the row reads `parseInt` values that may be `NaN`.
- `generateFigureMap` and the converter's `main` loop are left out: they are console reporting around `processDirectory`.
- `FloodFill.RemoveWhiteBackground`: the model assumes the decoded raw data has 4 channels (RGBA). The code steps through pixels by sharp's `channels` (src/tools/dump/origins-figure-to-shroom.ts:330, 343), but reads r, g, b and writes alpha at fixed offsets +0 to +3 (lines 360-362, 368). After `ensureAlpha()` an RGB image has 4 channels, and then the two agree. A greyscale image gets 2 channels. The code then reads the pixel's own alpha as green and the next pixel's grey as blue, and writes the "alpha" of 0 into the next pixel's grey byte. The model's contract does not cover that case.
- `removeWhiteBackground`'s catch returns the original buffer when decoding fails. It is modelled as an opaque `clean` function on the bytes; the flood fill itself is modelled on a decoded pixel grid.
- The `HitTexture` canvas loading, the 2×2 test fallback and float resolution scaling in `hits` are left out. `hits` is modelled with resolution 1 and integer coordinates, so `Math.round` is the identity.
- `createOriginsMetadata` ignores its xml paths, and so does the model. The empty `parts` record is not modelled.
- `AsyncUtils.Percentage`: rounds the exact quotient 100·loaded/total, while the code rounds the floating-point product, which can land on the other side of .5 for some inputs.
- `AsyncUtils.RetryAsync`: the delays are real numbers, not IEEE doubles, and the wrapping of non-`Error` throws in `new Error(String(error))` is not modelled. The contract holds only when `onRetry` returns normally. The code calls `onRetry` inside the `catch` block (src/util/AsyncUtils.ts:139). If it throws, `retryAsync` rejects with that error, not the operation's, after `attempt + 1` calls and before the sleep.
- `AsyncUtils.Get`: the cached value is the factory's result, not a promise. A rejected promise stays cached in the code just as a value does in the model.
- `AsyncUtils.SetCurrentItem`: states the counters and the report count, not the content of the appended report.
- `AsyncUtils.Chunks` and the batch members require a concurrency of at least 1. With `concurrency <= 0`, the chunking loop `for (i = 0; i < items.length; i += concurrency)` (src/util/AsyncUtils.ts:81-83) never finishes on non-empty input, and a non-terminating run has no result to model. On empty input it yields no chunks, which the model does not state for `concurrency <= 0`.
- `AsyncUtils.Settle`: `onItemComplete` and `onItemError` callbacks are not modelled; `String(item)` is a parameter. The model assumes every callback returns normally.
- `AsyncUtils.BatchAccounting`: holds only when the callbacks return normally. If `onItemComplete` or `onProgress` throws after a load succeeds, the catch block also records the item as failed, so it sits in both `loaded` and `failed` (src/util/AsyncUtils.ts:90-101).
- `AsyncUtils.BatchReports`: holds only when the callbacks return normally. A throwing `onItemComplete` or `onProgress` makes the catch block increment the tracker a second time for the item. A throwing `onItemError` skips the catch block's increment, so fewer than n + 1 reports are made.
- `FigureBundles.AssetFor`: names assets by the evidently meant name, not by the name the code computes (`FigureToShroom.AssetNameAsWritten`); the two differ only when `.png` occurs before the file name's ending (see Findings and `FigureBundles.AssetForAsWritten`).
- `Text.ToLower`: only ASCII letters are lower-cased; JavaScript's `toLowerCase` also maps other Unicode letters.
- `Paths.Join`: joins two non-empty segments with `/` and drops an empty or `.` first argument; it does not normalise `..`, `.` or repeated slashes inside the arguments.
- `Paths.Dirname`: the POSIX rules only; Windows paths are out.
- `ProjectorRays.Resolve`: `path.resolve` is modelled for absolute paths and as joining onto the working directory otherwise, without normalisation.
- `OriginsFigure.SpriteNumbersRoundTrip`: `parseInt` is exact here; JavaScript loses precision above 2^53.
- `OriginsFigure.CreateOriginsMetadata`: the timestamp is an input string rather than `new Date().toISOString()`.
- `FigureBundles.GenerateManifest`: states the header and footer and, through `ManifestHoldsAssets`, each asset block; the exact concatenation is the function body.

## Findings

| source | as written | input that shows it | evidently intended | confidence | as-written member | corrected member |
|---|---|---|---|---|---|---|
| src/tools/dump/origins-figure-to-shroom.ts:69 | the part type is looked up on a plain object literal, so member names inherited from `Object.prototype` are found and their (truthy) values returned | the part type `constructor`, e.g. file `1_std_h_constructor_1_0_0.png` | any code outside the 23 listed ones comes back unchanged | high, not executed | FigureToShroom.PartTypeNameInherited | FigureToShroom.GetPartTypeName |
| src/tools/dump/origins-figure-to-shroom.ts:251 | the first `.png` of the file name is removed, then the text is cut at the first underscore's index in the original name | `1_a.png_b_c_2_3_4.png` (accepted: `a.png` is a valid group) gives `a_b_c_2_3_4.png` instead of `a.png_b_c_2_3_4` | the asset name is the bundle entry name without its `.png` ending | high, not executed | FigureToShroom.AssetNameMismatch | FigureToShroom.AssetName |

=== FILE: asset_discovery.dfy ===
/**
 * Finding the Origins client's Director files: the depth-bounded walk over
 * the client directory, the per-file descriptor and the name-based
 * classification into figure, furniture, room and other assets.
 */
module AssetDiscovery {
  import opened Core
  import opened Text
  import Paths

  datatype AssetType = Figure | Furniture | Room | Other
  datatype FileType = Dcr | Cct

  /** `OriginsAssetInfo`. */
  datatype AssetInfo = AssetInfo(path: string, baseName: string, assetType: AssetType, fileType: FileType)

  /** The legacy `OriginsDCRInfo`: an asset without its file type. */
  datatype DcrInfo = DcrInfo(path: string, baseName: string, assetType: AssetType)

  /**
   * A directory entry as `readdir` with file types reports it: a regular
   * file, a directory with what reading it gives, or anything else
   * (a link, a socket, ...), which the walk ignores.
   */
  datatype Entry = File(name: string) | Dir(name: string, listing: Listing) | Special(name: string)

  /** Reading a directory either lists its entries in order or fails. */
  datatype Listing = Readable(entries: seq<Entry>) | Unreadable

  /** The deepest level below the root whose directories are still read. */
  const MaxDepth: nat := 10

  /*
   * Classification
   */

  /** The figure cues: in the lower-cased base name or the lower-cased path. */
  predicate FigureCue(name: string, path: string) {
    Contains(name, "figure") || Contains(name, "avatar") || Contains(name, "head") || Contains(name, "body")
    || Contains(path, "figure") || Contains(path, "avatar")
  }

  /** The furniture cues, with the ones implied by `furni` left out. */
  predicate FurnitureCue(name: string, path: string) {
    Contains(name, "furni") || Contains(path, "furni") || Contains(name, "hh_cat_gfx")
  }

  predicate RoomCue(name: string, path: string) {
    Contains(name, "room") || Contains(name, "tile") || Contains(path, "room") || Contains(path, "tile")
  }

  /** `determineAssetType(baseName, fullPath)`, every test in the order it is made. */
  function DetermineAssetType(baseName: string, fullPath: string): AssetType {
    var name := ToLower(baseName);
    var path := ToLower(fullPath);
    if Contains(name, "figure") || Contains(name, "avatar") || Contains(name, "head") || Contains(name, "body")
       || Contains(path, "figure") || Contains(path, "avatar") then Figure
    else if Contains(name, "furni") || Contains(name, "furniture") || Contains(path, "furni")
       || Contains(path, "furniture") || Contains(name, "hh_furni") || Contains(name, "hh_cat_gfx") then Furniture
    else if Contains(name, "room") || Contains(name, "tile") || Contains(path, "room") || Contains(path, "tile") then Room
    else Other
  }

  /** `furniture` and `hh_furni` both contain `furni`. */
  lemma FurniInside(s: string)
    ensures Contains(s, "furniture") || Contains(s, "hh_furni") ==> Contains(s, "furni")
  {
    assert OccursAt("furniture", "furni", 0);
    assert OccursAt("hh_furni", "furni", 3);
    if Contains(s, "furniture") {
      ContainsTransitive(s, "furniture", "furni");
    }
    if Contains(s, "hh_furni") {
      ContainsTransitive(s, "hh_furni", "furni");
    }
  }

  /**
   * The classification, case-insensitively: figure cues win over furniture
   * cues, which win over room cues; no cue at all gives `Other`.
   */
  lemma DetermineAssetTypeCases(baseName: string, fullPath: string)
    ensures var name, path, t := ToLower(baseName), ToLower(fullPath), DetermineAssetType(baseName, fullPath);
      (t == Figure <==> FigureCue(name, path))
      && (t == Furniture <==> !FigureCue(name, path) && FurnitureCue(name, path))
      && (t == Room <==> !FigureCue(name, path) && !FurnitureCue(name, path) && RoomCue(name, path))
      && (t == Other <==> !FigureCue(name, path) && !FurnitureCue(name, path) && !RoomCue(name, path))
  {
    FurniInside(ToLower(baseName));
    FurniInside(ToLower(fullPath));
  }

  /** Upper and lower case make no difference to the classification. */
  lemma DetermineAssetTypeIgnoresCase(baseName: string, fullPath: string)
    ensures DetermineAssetType(ToLower(baseName), ToLower(fullPath)) == DetermineAssetType(baseName, fullPath)
  {
    ToLowerIdempotent(baseName);
    ToLowerIdempotent(fullPath);
  }

  /*
   * One file
   */

  /**
   * The descriptor of the regular file `name` in directory `dir`: a `.dcr`
   * or `.cct` name in any case is reported; the base name drops the
   * extension only when it is written in lower case.
   */
  function Describe(dir: string, name: string): (r: Option<AssetInfo>)
    ensures r.Some? <==> EndsWith(ToLower(name), ".dcr") || EndsWith(ToLower(name), ".cct")
    ensures r.Some? ==> r.value.path == Paths.Join(dir, name)
    ensures r.Some? ==> (r.value.fileType == Dcr <==> EndsWith(ToLower(name), ".dcr"))
    ensures r.Some? ==> r.value.assetType == DetermineAssetType(r.value.baseName, r.value.path)
  {
    var lower := ToLower(name);
    var path := Paths.Join(dir, name);
    if EndsWith(lower, ".dcr") then
      var baseName := Paths.Basename(name, ".dcr");
      Some(AssetInfo(path, baseName, DetermineAssetType(baseName, path), Dcr))
    else if EndsWith(lower, ".cct") then
      var baseName := Paths.Basename(name, ".cct");
      Some(AssetInfo(path, baseName, DetermineAssetType(baseName, path), Cct))
    else None
  }

  /** A name ending in a lower-case `.dcr` has the base name in front of it. */
  lemma DescribeLowerSuffix(dir: string, name: string)
    requires '/' !in name && EndsWith(name, ".dcr")
    ensures Describe(dir, name).Some? && Describe(dir, name).value.fileType == Dcr
    ensures Describe(dir, name).value.baseName + ".dcr" == name
  {
    var lower := ToLower(name);
    assert lower[|lower| - 4..] == ".dcr" by {
      assert forall i :: |name| - 4 <= i < |name| ==> lower[i] == name[i];
    }
    Paths.BasenameStripsSuffixName(name, ".dcr");
  }

  /** A name whose `.dcr` is not in lower case (`A.DCR`) keeps the extension in its base name. */
  lemma DescribeUpperSuffix(dir: string, name: string)
    requires '/' !in name && EndsWith(ToLower(name), ".dcr") && !EndsWith(name, ".dcr")
    ensures Describe(dir, name).Some? && Describe(dir, name).value.fileType == Dcr
    ensures Describe(dir, name).value.baseName == name
  {
    Paths.BasenameKeepsOtherName(name, ".dcr");
  }

  /*
   * The walk
   */

  /** What `entry` contributes when met in `dir` at `depth`: a descriptor, or its subdirectory's assets. */
  function FindEntry(dir: string, e: Entry, depth: nat): seq<AssetInfo>
    decreases e, 1
  {
    match e
    case File(name) => (match Describe(dir, name) case Some(a) => [a] case None => [])
    case Dir(name, listing) => FindAssets(Paths.Join(dir, name), listing, depth + 1)
    case Special(_) => []
  }

  /**
   * `recursivelyFindAssets(dir, ..., depth)` given what reading `dir`
   * gives: nothing below the depth limit or for an unreadable directory,
   * otherwise the entries' contributions in entry order.
   */
  function FindAssets(dir: string, listing: Listing, depth: nat): seq<AssetInfo>
    decreases listing
  {
    if depth > MaxDepth then []
    else
      match listing
      case Unreadable => []
      case Readable(es) => FindEntries(dir, es, depth)
  }

  function FindEntries(dir: string, es: seq<Entry>, depth: nat): seq<AssetInfo>
    decreases es
  {
    if |es| == 0 then [] else FindEntry(dir, es[0], depth) + FindEntries(dir, es[1..], depth)
  }

  /** `findOriginsAssets(clientDir)`: the walk from the root at depth 0. */
  function FindOriginsAssets(clientDir: string, listing: Listing): seq<AssetInfo> {
    FindAssets(clientDir, listing, 0)
  }

  /** The entries' contributions come in entry order, whatever the split. */
  lemma {:induction false} FindEntriesAppend(dir: string, a: seq<Entry>, b: seq<Entry>, depth: nat)
    ensures FindEntries(dir, a + b, depth) == FindEntries(dir, a, depth) + FindEntries(dir, b, depth)
    decreases |a|
  {
    if |a| == 0 {
      assert a + b == b;
    } else {
      assert (a + b)[0] == a[0];
      assert (a + b)[1..] == a[1..] + b;
      FindEntriesAppend(dir, a[1..], b, depth);
    }
  }

  /** An unreadable subdirectory contributes nothing; its siblings are still visited. */
  lemma UnreadableSkipped(dir: string, before: seq<Entry>, name: string, after: seq<Entry>, depth: nat)
    ensures FindEntries(dir, before + [Dir(name, Unreadable)] + after, depth)
         == FindEntries(dir, before, depth) + FindEntries(dir, after, depth)
  {
    var x := [Dir(name, Unreadable)];
    assert FindEntries(dir, x, depth) == [] by {
      assert FindEntry(dir, x[0], depth) == [];
      assert FindEntries(dir, x, depth) == FindEntry(dir, x[0], depth) + FindEntries(dir, x[1..], depth);
    }
    assert FindEntries(dir, before + x, depth) == FindEntries(dir, before, depth) by {
      FindEntriesAppend(dir, before, x, depth);
    }
    FindEntriesAppend(dir, before + x, after, depth);
  }

  /** A matching file in a directory that is read is reported, in place among its siblings. */
  lemma FileReported(dir: string, before: seq<Entry>, name: string, after: seq<Entry>, depth: nat)
    requires depth <= MaxDepth && Describe(dir, name).Some?
    ensures FindAssets(dir, Readable(before + [File(name)] + after), depth)
         == FindEntries(dir, before, depth) + [Describe(dir, name).value] + FindEntries(dir, after, depth)
  {
    var x := [File(name)];
    assert FindEntries(dir, x, depth) == [Describe(dir, name).value] by {
      assert FindEntry(dir, x[0], depth) == [Describe(dir, name).value];
      assert FindEntries(dir, x, depth) == FindEntry(dir, x[0], depth) + FindEntries(dir, x[1..], depth);
    }
    assert FindEntries(dir, before + x, depth) == FindEntries(dir, before, depth) + FindEntries(dir, x, depth) by {
      FindEntriesAppend(dir, before, x, depth);
    }
    FindEntriesAppend(dir, before + x, after, depth);
  }

  /*
   * The files the walk can reach
   */

  /**
   * The regular file `n` sits in directory `d` of the tree read from `dir`
   * at `depth`, no deeper than the limit, reached only through directories
   * that could be read.
   */
  predicate FileIn(dir: string, listing: Listing, depth: nat, d: string, n: string)
    decreases listing
  {
    depth <= MaxDepth && listing.Readable? && FileAmong(dir, listing.entries, depth, d, n)
  }

  predicate FileAmong(dir: string, es: seq<Entry>, depth: nat, d: string, n: string)
    decreases es
  {
    |es| > 0 && (FileAt(dir, es[0], depth, d, n) || FileAmong(dir, es[1..], depth, d, n))
  }

  /** The entry is that file, or a directory holding it. */
  predicate FileAt(dir: string, e: Entry, depth: nat, d: string, n: string)
    decreases e, 1
  {
    match e
    case File(name) => d == dir && n == name
    case Dir(name, listing) => FileIn(Paths.Join(dir, name), listing, depth + 1, d, n)
    case Special(_) => false
  }

  /** Every descriptor the walk reports describes a file it can reach. */
  lemma {:induction false} FindAssetsSound(dir: string, listing: Listing, depth: nat, a: AssetInfo)
    requires a in FindAssets(dir, listing, depth)
    ensures exists d, n :: FileIn(dir, listing, depth, d, n) && Describe(d, n) == Some(a)
    decreases listing
  {
    match listing
    case Readable(es) =>
      FindEntriesSound(dir, es, depth, a);
      var d, n :| FileAmong(dir, es, depth, d, n) && Describe(d, n) == Some(a);
      assert FileIn(dir, listing, depth, d, n);
  }

  lemma {:induction false} FindEntriesSound(dir: string, es: seq<Entry>, depth: nat, a: AssetInfo)
    requires depth <= MaxDepth && a in FindEntries(dir, es, depth)
    ensures exists d, n :: FileAmong(dir, es, depth, d, n) && Describe(d, n) == Some(a)
    decreases es
  {
    if a in FindEntry(dir, es[0], depth) {
      match es[0]
      case File(name) =>
        assert FileAt(dir, es[0], depth, dir, name);
        assert FileAmong(dir, es, depth, dir, name) && Describe(dir, name) == Some(a);
      case Dir(name, listing) =>
        FindAssetsSound(Paths.Join(dir, name), listing, depth + 1, a);
        var d, n :| FileIn(Paths.Join(dir, name), listing, depth + 1, d, n) && Describe(d, n) == Some(a);
        assert FileAt(dir, es[0], depth, d, n);
        assert FileAmong(dir, es, depth, d, n);
    } else {
      FindEntriesSound(dir, es[1..], depth, a);
      var d, n :| FileAmong(dir, es[1..], depth, d, n) && Describe(d, n) == Some(a);
      assert FileAmong(dir, es, depth, d, n);
    }
  }

  /** Every `.dcr` or `.cct` file the walk can reach is reported. */
  lemma {:induction false} FindAssetsComplete(dir: string, listing: Listing, depth: nat, d: string, n: string)
    requires FileIn(dir, listing, depth, d, n) && Describe(d, n).Some?
    ensures Describe(d, n).value in FindAssets(dir, listing, depth)
    decreases listing
  {
    FindEntriesComplete(dir, listing.entries, depth, d, n);
  }

  lemma {:induction false} FindEntriesComplete(dir: string, es: seq<Entry>, depth: nat, d: string, n: string)
    requires depth <= MaxDepth && FileAmong(dir, es, depth, d, n) && Describe(d, n).Some?
    ensures Describe(d, n).value in FindEntries(dir, es, depth)
    decreases es
  {
    var a := Describe(d, n).value;
    assert FindEntries(dir, es, depth) == FindEntry(dir, es[0], depth) + FindEntries(dir, es[1..], depth);
    if FileAt(dir, es[0], depth, d, n) {
      match es[0]
      case File(name) =>
        assert a in FindEntry(dir, es[0], depth);
      case Dir(name, listing) =>
        FindAssetsComplete(Paths.Join(dir, name), listing, depth + 1, d, n);
        assert a in FindEntry(dir, es[0], depth);
    } else {
      FindEntriesComplete(dir, es[1..], depth, d, n);
    }
  }

  /**
   * `findOriginsAssets` reports exactly the descriptors of the `.dcr` and
   * `.cct` files reachable from the client directory.
   */
  lemma FindOriginsAssetsMembers(clientDir: string, listing: Listing, a: AssetInfo)
    ensures a in FindOriginsAssets(clientDir, listing)
        <==> exists d, n :: FileIn(clientDir, listing, 0, d, n) && Describe(d, n) == Some(a)
  {
    if a in FindOriginsAssets(clientDir, listing) {
      FindAssetsSound(clientDir, listing, 0, a);
    }
    if exists d, n :: FileIn(clientDir, listing, 0, d, n) && Describe(d, n) == Some(a) {
      var d, n :| FileIn(clientDir, listing, 0, d, n) && Describe(d, n) == Some(a);
      FindAssetsComplete(clientDir, listing, 0, d, n);
    }
  }

  /**
   * `listing` with every directory more than `levels` levels below it made
   * unreadable: what is left is all a walk `levels` levels above the limit
   * can see.
   */
  function Prune(listing: Listing, levels: nat): Listing
    decreases listing
  {
    match listing
    case Unreadable => Unreadable
    case Readable(es) => Readable(PruneEntries(es, levels))
  }

  function PruneEntries(es: seq<Entry>, levels: nat): (r: seq<Entry>)
    ensures |r| == |es|
    decreases es
  {
    if |es| == 0 then []
    else
      var e := match es[0]
        case Dir(name, l) => Dir(name, if levels == 0 then Unreadable else Prune(l, levels - 1))
        case other => other;
      [e] + PruneEntries(es[1..], levels)
  }

  /** Directories more than ten levels below the root are never read. */
  lemma {:induction false} FindAssetsDepthLimit(dir: string, listing: Listing, depth: nat)
    requires depth <= MaxDepth
    ensures FindAssets(dir, Prune(listing, MaxDepth - depth), depth) == FindAssets(dir, listing, depth)
    decreases listing
  {
    match listing
    case Unreadable =>
    case Readable(es) => FindEntriesDepthLimit(dir, es, depth);
  }

  lemma {:induction false} FindEntriesDepthLimit(dir: string, es: seq<Entry>, depth: nat)
    requires depth <= MaxDepth
    ensures FindEntries(dir, PruneEntries(es, MaxDepth - depth), depth) == FindEntries(dir, es, depth)
    decreases es
  {
    if |es| > 0 {
      var pruned := PruneEntries(es, MaxDepth - depth);
      assert pruned[1..] == PruneEntries(es[1..], MaxDepth - depth);
      FindEntriesDepthLimit(dir, es[1..], depth);
      FindEntryDepthLimit(dir, es[0], depth);
      assert FindEntries(dir, pruned, depth) == FindEntry(dir, pruned[0], depth) + FindEntries(dir, pruned[1..], depth);
    }
  }

  lemma {:induction false} FindEntryDepthLimit(dir: string, e: Entry, depth: nat)
    requires depth <= MaxDepth
    ensures FindEntry(dir, PruneEntries([e], MaxDepth - depth)[0], depth) == FindEntry(dir, e, depth)
    decreases e
  {
    var k := MaxDepth - depth;
    var p := PruneEntries([e], k)[0];
    match e
    case Dir(name, l) =>
      assert p == Dir(name, if k == 0 then Unreadable else Prune(l, k - 1));
      if k > 0 {
        FindAssetsDepthLimit(Paths.Join(dir, name), l, depth + 1);
      }
    case File(_) =>
      assert p == e;
    case Special(_) =>
      assert p == e;
  }

  /*
   * The legacy projections
   */

  function ToDcrInfo(a: AssetInfo): DcrInfo {
    DcrInfo(a.path, a.baseName, a.assetType)
  }

  /** `findOriginsDCRs(clientDir)`: every asset, `.cct` ones included, without its file type. */
  function FindOriginsDCRs(clientDir: string, listing: Listing): (r: seq<DcrInfo>)
    ensures |r| == |FindOriginsAssets(clientDir, listing)|
    ensures forall i :: 0 <= i < |r| ==> r[i] == ToDcrInfo(FindOriginsAssets(clientDir, listing)[i])
  {
    var assets := FindOriginsAssets(clientDir, listing);
    seq(|assets|, i requires 0 <= i < |assets| => ToDcrInfo(assets[i]))
  }

  /** The `.dcr` assets in order, without their file type. */
  function DcrOnly(assets: seq<AssetInfo>): (r: seq<DcrInfo>)
    ensures |r| <= |assets|
  {
    if |assets| == 0 then []
    else (if assets[0].fileType == Dcr then [ToDcrInfo(assets[0])] else []) + DcrOnly(assets[1..])
  }

  /** `recursivelyFindDCRs(dir, dcrFiles, depth)`: `dcrFiles` with the `.dcr` assets of the walk appended. */
  function RecursivelyFindDCRs(dir: string, listing: Listing, dcrFiles: seq<DcrInfo>, depth: nat): (r: seq<DcrInfo>)
    ensures |dcrFiles| <= |r| && r[..|dcrFiles|] == dcrFiles
  {
    dcrFiles + DcrOnly(FindAssets(dir, listing, depth))
  }

  /** The `.dcr` projection keeps exactly the `.dcr` assets. */
  lemma {:induction false} DcrOnlyMembers(assets: seq<AssetInfo>, d: DcrInfo)
    ensures d in DcrOnly(assets) <==> exists a :: a in assets && a.fileType == Dcr && ToDcrInfo(a) == d
    decreases |assets|
  {
    if |assets| > 0 {
      DcrOnlyMembers(assets[1..], d);
      if exists a :: a in assets[1..] && a.fileType == Dcr && ToDcrInfo(a) == d {
        var a :| a in assets[1..] && a.fileType == Dcr && ToDcrInfo(a) == d;
        assert a in assets;
      }
      if exists a :: a in assets && a.fileType == Dcr && ToDcrInfo(a) == d {
        var a :| a in assets && a.fileType == Dcr && ToDcrInfo(a) == d;
        if a != assets[0] {
          assert a in assets[1..];
        }
      }
    }
  }

  /** Dropping the `.cct` assets after the walk keeps the rest in walk order. */
  lemma {:induction false} DcrOnlyAppend(a: seq<AssetInfo>, b: seq<AssetInfo>)
    ensures DcrOnly(a + b) == DcrOnly(a) + DcrOnly(b)
    decreases |a|
  {
    if |a| == 0 {
      assert a + b == b;
    } else {
      ConsAppend(a, b);
      DcrOnlyAppend(a[1..], b);
      var h := if a[0].fileType == Dcr then [ToDcrInfo(a[0])] else [];
      AppendAssoc(h, DcrOnly(a[1..]), DcrOnly(b));
    }
  }
}
/** The classification on the file names the walk typically meets. */
module AssetDiscoveryExamples {
  import opened Text
  import opened AssetDiscovery

  /** A pattern with a character the text lacks does not occur in it. */
  lemma AbsentChar(s: string, sub: string, j: nat)
    requires j < |sub| && sub[j] !in s
    ensures !Contains(s, sub)
  {
  }

  lemma ExampleFigure()
    ensures DetermineAssetType("figure_hair", "c/figure_hair.dcr") == Figure
  {
    assert ToLower("figure_hair") == "figure_hair";
    assert OccursAt("figure_hair", "figure", 0);
  }

  lemma ExampleFurniture()
    ensures DetermineAssetType("hh_furni_chair", "c/hh_furni_chair.dcr") == Furniture
  {
    var n, p := "hh_furni_chair", "c/hh_furni_chair.dcr";
    FurnitureNames();
    FurnitureNotFigure();
    assert OccursAt(n, "furni", 3);
  }

  lemma FurnitureNames()
    ensures ToLower("hh_furni_chair") == "hh_furni_chair" && ToLower("c/hh_furni_chair.dcr") == "c/hh_furni_chair.dcr"
  {
  }

  lemma FurnitureNotFigure()
    ensures !Contains("hh_furni_chair", "figure") && !Contains("hh_furni_chair", "avatar")
    ensures !Contains("hh_furni_chair", "head") && !Contains("hh_furni_chair", "body")
    ensures !Contains("c/hh_furni_chair.dcr", "figure") && !Contains("c/hh_furni_chair.dcr", "avatar")
  {
    FurnitureNameNotFigure();
    FurniturePathNotFigure();
  }

  lemma FurnitureNameNotFigure()
    ensures !Contains("hh_furni_chair", "figure") && !Contains("hh_furni_chair", "avatar")
    ensures !Contains("hh_furni_chair", "head") && !Contains("hh_furni_chair", "body")
  {
    var n := "hh_furni_chair";
    AbsentChar(n, "figure", 2);
    AbsentChar(n, "avatar", 1);
    AbsentChar(n, "head", 1);
    AbsentChar(n, "body", 0);
  }

  lemma FurniturePathNotFigure()
    ensures !Contains("c/hh_furni_chair.dcr", "figure") && !Contains("c/hh_furni_chair.dcr", "avatar")
  {
    var p := "c/hh_furni_chair.dcr";
    AbsentChar(p, "figure", 2);
    AbsentChar(p, "avatar", 1);
  }

  lemma ExampleRoom()
    ensures DetermineAssetType("tile_room", "c/tile_room.cct") == Room
  {
    var n, p := "tile_room", "c/tile_room.cct";
    assert ToLower(n) == n && ToLower(p) == p;
    AbsentChar(n, "figure", 2);
    AbsentChar(p, "figure", 2);
    AbsentChar(n, "avatar", 1);
    AbsentChar(p, "avatar", 1);
    AbsentChar(n, "head", 0);
    AbsentChar(n, "body", 0);
    AbsentChar(n, "furni", 0);
    AbsentChar(n, "furniture", 0);
    AbsentChar(p, "furni", 0);
    AbsentChar(p, "furniture", 0);
    AbsentChar(n, "hh_furni", 0);
    AbsentChar(n, "hh_cat_gfx", 0);
    assert OccursAt(n, "room", 5);
  }

  lemma ExampleOther()
    ensures DetermineAssetType("misc", "c/misc.dcr") == Other
  {
    var n, p := "misc", "c/misc.dcr";
    assert ToLower(n) == n && ToLower(p) == p;
    AbsentChar(n, "figure", 0);
    AbsentChar(p, "figure", 0);
    AbsentChar(n, "avatar", 1);
    AbsentChar(p, "avatar", 1);
    AbsentChar(n, "head", 0);
    AbsentChar(n, "body", 0);
    AbsentChar(n, "furni", 0);
    AbsentChar(n, "furniture", 0);
    AbsentChar(p, "furni", 0);
    AbsentChar(p, "furniture", 0);
    AbsentChar(n, "hh_furni", 0);
    AbsentChar(n, "hh_cat_gfx", 0);
    AbsentChar(n, "room", 1);
    AbsentChar(n, "tile", 0);
    AbsentChar(p, "room", 1);
    AbsentChar(p, "tile", 0);
  }
}

=== FILE: async_utils.dfy ===
/**
 * The async helpers, run sequentially: the progress tracker and its
 * percentage, `batchLoad` as chunks settled one after another (the order
 * inside a chunk is given as input), `retryAsync` as a trace of attempts
 * and sleeps, and `AsyncCache` with the clock passed in.
 */
module AsyncUtils {
  import opened Core

  /*
   * Progress
   */

  /**
   * `Math.round(loaded / total * 100)` in exact arithmetic: half-way cases
   * round up. With no items the division is not a number (`NaN` or
   * `Infinity`), which is `None` here.
   */
  function Percentage(loaded: nat, total: nat): (p: Option<int>)
    ensures p.None? <==> total == 0
    ensures p.Some? ==> (2 * p.value - 1) * total <= 200 * loaded < (2 * p.value + 1) * total
    ensures p.Some? && loaded <= total ==> 0 <= p.value <= 100
  {
    if total == 0 then None
    else
      var q := (200 * loaded + total) / (2 * total);
      DivBounds(200 * loaded + total, 2 * total, q);
      assert (2 * q - 1) * total == 2 * total * q - total;
      assert (2 * q + 1) * total == 2 * total * q + total;
      RoundBounded(loaded, total, q);
      Some(q)
  }

  lemma DivBounds(a: nat, b: nat, q: int)
    requires b > 0 && q == a / b
    ensures b * q <= a < b * q + b
  {
  }

  lemma RoundBounded(loaded: nat, total: nat, q: int)
    requires 0 < total
    requires 2 * total * q - total <= 200 * loaded < 2 * total * q + total
    ensures loaded <= total ==> 0 <= q <= 100
  {
    var t2 := 2 * total;
    MulStep(0, q, t2);
    MulStep(q, 100, t2);
  }

  /** Multiplying by a non-negative `c` keeps `<=`. */
  lemma MulMono(a: int, b: int, c: int)
    requires c >= 0
    ensures a <= b ==> a * c <= b * c
  {
  }

  /** A strictly larger factor gives at least one more `c`. */
  lemma MulStep(a: int, b: int, c: int)
    requires c >= 0
    ensures a > b ==> a * c >= b * c + c
  {
    if a > b {
      MulMono(b + 1, a, c);
      assert (b + 1) * c == b * c + c;
    }
  }

  /** One `onProgress` payload. */
  datatype Progress = Progress(loaded: nat, total: nat, currentItem: Option<string>, percentage: Option<int>)

  /** A `ProgressTracker`; `reports` lists the payloads handed to `onProgress`, if one was given. */
  datatype Tracker = Tracker(loaded: nat, total: nat, currentItem: Option<string>, reporting: bool, reports: seq<Progress>)

  function Report(t: Tracker): (r: Tracker)
    ensures r.loaded == t.loaded && r.total == t.total && r.currentItem == t.currentItem && r.reporting == t.reporting
    ensures |r.reports| == |t.reports| + (if t.reporting then 1 else 0)
    ensures r.reports[..|t.reports|] == t.reports
    ensures t.reporting ==> r.reports[|t.reports|] == Progress(t.loaded, t.total, t.currentItem, Percentage(t.loaded, t.total))
  {
    if t.reporting then
      t.(reports := t.reports + [Progress(t.loaded, t.total, t.currentItem, Percentage(t.loaded, t.total))])
    else t
  }

  /** The constructor reports once, before anything has loaded. */
  function NewTracker(total: nat, reporting: bool): (t: Tracker)
    ensures t.loaded == 0 && t.total == total && t.reporting == reporting
    ensures t.reports == if reporting then [Progress(0, total, None, Percentage(0, total))] else []
  {
    Report(Tracker(0, total, None, reporting, []))
  }

  /** `increment(itemName)`: one more item loaded, and a report. */
  function Increment(t: Tracker, item: Option<string>): (r: Tracker)
    ensures r.loaded == t.loaded + 1 && r.total == t.total && r.currentItem == item && r.reporting == t.reporting
    ensures |r.reports| == |t.reports| + (if t.reporting then 1 else 0)
    ensures r.reports[..|t.reports|] == t.reports
    ensures t.reporting ==> r.reports[|t.reports|] == Progress(r.loaded, r.total, item, Percentage(r.loaded, r.total))
  {
    Report(t.(loaded := t.loaded + 1, currentItem := item))
  }

  /** `setCurrentItem(itemName)`: a report without progress. */
  function SetCurrentItem(t: Tracker, item: string): (r: Tracker)
    ensures r.loaded == t.loaded && r.currentItem == Some(item)
    ensures |r.reports| == |t.reports| + (if t.reporting then 1 else 0)
  {
    Report(t.(currentItem := Some(item)))
  }

  /*
   * Chunks
   */

  /** `items.slice(i, i + c)` for `i = 0, c, 2c, ...`. */
  function Chunks<T>(items: seq<T>, c: nat): (cs: seq<seq<T>>)
    requires c >= 1
    ensures forall k :: 0 <= k < |cs| ==> 0 < |cs[k]| <= c
    ensures forall k :: 0 <= k < |cs| - 1 ==> |cs[k]| == c
    decreases |items|
  {
    if |items| == 0 then []
    else if |items| <= c then [items]
    else [items[..c]] + Chunks(items[c..], c)
  }

  function Flatten<T>(xss: seq<seq<T>>): seq<T> {
    if |xss| == 0 then [] else xss[0] + Flatten(xss[1..])
  }

  /** The chunks put back together are the items. */
  lemma {:induction false} ChunksFlatten<T>(items: seq<T>, c: nat)
    requires c >= 1
    ensures Flatten(Chunks(items, c)) == items
    decreases |items|
  {
    if |items| > c {
      var cs := Chunks(items, c);
      ChunksFlatten(items[c..], c);
      assert cs[1..] == Chunks(items[c..], c);
      assert items == items[..c] + items[c..];
    } else if |items| > 0 {
      assert Chunks(items, c)[1..] == [];
    }
  }

  /** The number of chunks: `ceil(|items| / c)`. */
  function NumChunks(n: nat, c: nat): nat
    requires c >= 1
  {
    (n + c - 1) / c
  }

  /** The size of chunk `k`: `c`, except for a shorter last chunk. */
  function ChunkSize(n: nat, c: nat, k: nat): nat
    requires c >= 1
  {
    if n <= k * c then 0 else if n - k * c < c then n - k * c else c
  }

  /** Chunk `k` is exactly the slice of the items from `k * c` on. */
  lemma {:induction false} ChunkAt<T>(items: seq<T>, c: nat, k: nat)
    requires c >= 1 && k < |Chunks(items, c)|
    ensures k * c + ChunkSize(|items|, c, k) <= |items|
    ensures Chunks(items, c)[k] == items[k * c..k * c + ChunkSize(|items|, c, k)]
    decreases k
  {
    if k > 0 {
      assert |items| > c;
      assert Chunks(items, c)[k] == Chunks(items[c..], c)[k - 1];
      ChunkSizeShift(|items|, c, k);
      ChunkAt(items[c..], c, k - 1);
      var prev: nat, s := (k - 1) * c, ChunkSize(|items|, c, k);
      SliceOfSuffix(items, c, prev, prev + s);
    }
  }

  /** Chunk `k` of `n` items is chunk `k - 1` of the items after the first chunk. */
  lemma ChunkSizeShift(n: nat, c: nat, k: nat)
    requires c >= 1 && k >= 1 && n > c
    ensures (k - 1) * c >= 0 && c + (k - 1) * c == k * c
    ensures ChunkSize(n - c, c, k - 1) == ChunkSize(n, c, k)
  {
  }

  /** A slice of a suffix is a slice of the whole, shifted. */
  lemma SliceOfSuffix<T>(s: seq<T>, c: nat, a: nat, b: nat)
    requires c + b <= |s| && a <= b
    ensures s[c..][a..b] == s[c + a..c + b]
  {
  }

  /** There are `ceil(|items| / c)` chunks. */
  lemma {:induction false} ChunksCount<T>(items: seq<T>, c: nat)
    requires c >= 1
    ensures |Chunks(items, c)| == NumChunks(|items|, c)
    decreases |items|
  {
    var n := |items|;
    if n == 0 {
      assert (c - 1) / c == 0;
    } else if n <= c {
      DivOne(n + c - 1, c);
    } else {
      ChunksCount(items[c..], c);
      DivShift(n - c + c - 1, c);
      assert n + c - 1 == (n - c + c - 1) + c;
    }
  }

  lemma DivOne(a: nat, c: nat)
    requires c >= 1 && c <= a < 2 * c
    ensures a / c == 1
  {
    DivUnique(a, c, 1, a - c);
  }

  lemma DivShift(a: nat, c: nat)
    requires c >= 1
    ensures (a + c) / c == a / c + 1
  {
    DivBounds(a, c, a / c);
    DivUnique(a + c, c, a / c + 1, a - c * (a / c));
  }

  /** Division by `c` is determined by the quotient-remainder split. */
  lemma DivUnique(x: int, c: int, k: int, o: int)
    requires c >= 1 && 0 <= o < c && x == k * c + o
    ensures x / c == k
  {
    var q := x / c;
    assert q * c + x % c == x;
    MulStep(q, k, c);
    MulStep(k, q, c);
  }

  /*
   * Batch load
   */

  /** `lo, lo + 1, ..., hi - 1`. */
  function Range(lo: nat, hi: nat): (r: seq<nat>)
    ensures |r| == if lo <= hi then hi - lo else 0
    ensures forall i :: 0 <= i < |r| ==> r[i] == lo + i
    decreases hi - lo
  {
    if lo >= hi then [] else [lo] + Range(lo + 1, hi)
  }

  /** `o` lists `0, ..., n - 1`, each once, in some order. */
  predicate IsPermutationOf(o: seq<nat>, n: nat) {
    multiset(o) == multiset(Range(0, n))
  }

  /**
   * The completion order inside every chunk: `orders[k]` lists the
   * positions inside chunk `k` in the order their loads settled.
   */
  predicate ValidOrders(n: nat, c: nat, orders: seq<seq<nat>>)
    requires c >= 1
  {
    |orders| == NumChunks(n, c)
    && forall k :: 0 <= k < |orders| ==> IsPermutationOf(orders[k], ChunkSize(n, c, k))
  }

  /** What each item's load produced, picked out by a function of the item index. */
  function Collect<X>(s: seq<nat>, f: nat -> Option<X>): seq<X> {
    if |s| == 0 then []
    else (match f(s[0]) case Some(x) => [x] case None => []) + Collect(s[1..], f)
  }

  lemma {:induction false} CollectAppend<X>(a: seq<nat>, b: seq<nat>, f: nat -> Option<X>)
    ensures Collect(a + b, f) == Collect(a, f) + Collect(b, f)
    decreases |a|
  {
    if |a| > 0 {
      assert (a + b)[0] == a[0];
      assert (a + b)[1..] == a[1..] + b;
      CollectAppend(a[1..], b, f);
    } else {
      assert a + b == b;
    }
  }

  /** Collecting over a rearrangement of the same indices collects the same things. */
  lemma {:induction false} CollectPermutation<X>(a: seq<nat>, b: seq<nat>, f: nat -> Option<X>)
    requires multiset(a) == multiset(b)
    ensures multiset(Collect(a, f)) == multiset(Collect(b, f))
    decreases |a|
  {
    if |a| == 0 {
      assert |b| == |multiset(b)| == 0;
    } else {
      var x := a[0];
      assert x in multiset(b);
      var j :| 0 <= j < |b| && b[j] == x;
      PickOut(b, j);
      PickOut(a, 0);
      assert a[..0] + a[1..] == a[1..];
      CollectPermutation(a[1..], b[..j] + b[j + 1..], f);
      CollectPicked(a, b, j, f);
    }
  }

  /** Taking out the element at `j` leaves the others, one fewer of it. */
  lemma PickOut(b: seq<nat>, j: nat)
    requires j < |b|
    ensures b == b[..j] + [b[j]] + b[j + 1..]
    ensures multiset(b[..j] + b[j + 1..]) == multiset(b) - multiset{b[j]}
  {
    assert b == b[..j] + [b[j]] + b[j + 1..];
    assert multiset(b) == multiset(b[..j]) + multiset{b[j]} + multiset(b[j + 1..]);
  }

  /** The step of `CollectPermutation`: moving the first index of `a` to position `j` of `b`. */
  lemma CollectPicked<X>(a: seq<nat>, b: seq<nat>, j: nat, f: nat -> Option<X>)
    requires |a| > 0 && j < |b| && b[j] == a[0]
    requires multiset(Collect(a[1..], f)) == multiset(Collect(b[..j] + b[j + 1..], f))
    ensures multiset(Collect(a, f)) == multiset(Collect(b, f))
  {
    var x := a[0];
    CollectFront(a, f);
    CollectAround(b, j, f);
    Rearranged(Collect(a, f), Collect(b, f), Collect([x], f), Collect(a[1..], f), Collect(b[..j], f), Collect(b[j + 1..], f));
  }

  lemma CollectFront<X>(a: seq<nat>, f: nat -> Option<X>)
    requires |a| > 0
    ensures Collect(a, f) == Collect([a[0]], f) + Collect(a[1..], f)
  {
    assert a == [a[0]] + a[1..];
    CollectAppend([a[0]], a[1..], f);
  }

  lemma CollectAround<X>(b: seq<nat>, j: nat, f: nat -> Option<X>)
    requires j < |b|
    ensures Collect(b, f) == Collect(b[..j], f) + Collect([b[j]], f) + Collect(b[j + 1..], f)
    ensures Collect(b[..j] + b[j + 1..], f) == Collect(b[..j], f) + Collect(b[j + 1..], f)
  {
    PickOut(b, j);
    CollectAppend(b[..j] + [b[j]], b[j + 1..], f);
    CollectAppend(b[..j], [b[j]], f);
    CollectAppend(b[..j], b[j + 1..], f);
  }

  /** An element moved into the middle of the rest keeps the multiset. */
  lemma Rearranged<X>(ca: seq<X>, cb: seq<X>, cx: seq<X>, rest: seq<X>, cl: seq<X>, cr: seq<X>)
    requires ca == cx + rest && cb == cl + cx + cr
    requires multiset(rest) == multiset(cl + cr)
    ensures multiset(ca) == multiset(cb)
  {
  }

  /** Chunk `k`'s completion order as item indices. */
  function Shift(o: seq<nat>, base: nat): (r: seq<nat>)
    ensures |r| == |o|
    ensures forall j :: 0 <= j < |o| ==> r[j] == base + o[j]
  {
    seq(|o|, j requires 0 <= j < |o| => base + o[j])
  }

  /** The item indices in the order their loads settle, from chunk `k` on. */
  function Schedule(n: nat, c: nat, orders: seq<seq<nat>>, k: nat): seq<nat>
    requires c >= 1
    decreases |orders| - k
  {
    if k >= |orders| then [] else Shift(orders[k], k * c) + Schedule(n, c, orders, k + 1)
  }

  /** Every chunk in the schedule is a rearrangement of its own index range. */
  lemma ShiftPermutation(o: seq<nat>, size: nat, base: nat)
    requires IsPermutationOf(o, size)
    ensures multiset(Shift(o, base)) == multiset(Range(base, base + size))
  {
    CollectPermutation(o, Range(0, size), Offset(base));
    CollectShift(o, base);
    CollectShift(Range(0, size), base);
    ShiftRange(size, base);
    assert multiset(Shift(o, base)) == multiset(Collect(o, Offset(base)));
    assert multiset(Collect(Range(0, size), Offset(base))) == multiset(Range(base, base + size));
  }

  lemma ShiftRange(size: nat, base: nat)
    ensures Shift(Range(0, size), base) == Range(base, base + size)
  {
    var a, b := Shift(Range(0, size), base), Range(base, base + size);
    assert |a| == |b|;
    forall i | 0 <= i < |a|
      ensures a[i] == b[i]
    {
    }
  }

  function Offset(base: nat): nat -> Option<nat> {
    (i: nat) => Some(base + i)
  }

  lemma {:induction false} CollectShift(o: seq<nat>, base: nat)
    ensures Collect(o, Offset(base)) == Shift(o, base)
    decreases |o|
  {
    if |o| > 0 {
      CollectShift(o[1..], base);
      assert Shift(o, base) == [base + o[0]] + Shift(o[1..], base);
    }
  }

  lemma {:induction false} RangeSplit(lo: nat, mid: nat, hi: nat)
    requires lo <= mid <= hi
    ensures Range(lo, hi) == Range(lo, mid) + Range(mid, hi)
  {
    var a, b := Range(lo, hi), Range(lo, mid) + Range(mid, hi);
    assert |a| == |b|;
    forall i | 0 <= i < |a|
      ensures a[i] == b[i]
    {
      if i >= mid - lo {
        assert b[i] == Range(mid, hi)[i - (mid - lo)];
      }
    }
  }

  /** The schedule from chunk `k` on, which starts at index `lo = k * c`, is a rearrangement of the indices from `lo` on. */
  lemma {:induction false} SchedulePermutation(n: nat, c: nat, orders: seq<seq<nat>>, k: nat, lo: nat)
    requires c >= 1 && ValidOrders(n, c, orders) && k <= |orders| && lo == k * c
    ensures multiset(Schedule(n, c, orders, k)) == multiset(Range(lo, n))
    decreases |orders| - k
  {
    NumChunksCover(n, c, k);
    if k < |orders| {
      SchedulePermutation(n, c, orders, k + 1, lo + c);
      ScheduleStep(n, c, orders, k, lo, lo + c);
    } else {
      ScheduleDone(n, c, orders, k);
    }
  }

  /** Past the last chunk nothing is scheduled and no index is left. */
  lemma ScheduleDone(n: nat, c: nat, orders: seq<seq<nat>>, k: nat)
    requires c >= 1 && ValidOrders(n, c, orders) && k == |orders|
    ensures multiset(Schedule(n, c, orders, k)) == multiset(Range(k * c, n))
  {
    NumChunksCover(n, c, k);
    assert Range(k * c, n) == [];
  }

  lemma ScheduleStep(n: nat, c: nat, orders: seq<seq<nat>>, k: nat, lo: nat, next: nat)
    requires c >= 1 && ValidOrders(n, c, orders) && k < |orders|
    requires lo == k * c && next == (k + 1) * c
    requires multiset(Schedule(n, c, orders, k + 1)) == multiset(Range(next, n))
    ensures multiset(Schedule(n, c, orders, k)) == multiset(Range(lo, n))
  {
    var tail := Schedule(n, c, orders, k + 1);
    var head := Shift(orders[k], lo);
    assert Schedule(n, c, orders, k) == head + tail;
    ChunkRangeSplit(n, c, k);
    ChunkInFront(tail, orders[k], ChunkSize(n, c, k), lo, next, n);
  }

  /** A rearranged chunk of indices in front of a rearrangement of the indices after it. */
  lemma ChunkInFront(tail: seq<nat>, o: seq<nat>, size: nat, lo: nat, next: nat, n: nat)
    requires IsPermutationOf(o, size)
    requires multiset(tail) == multiset(Range(next, n))
    requires Range(lo, n) == Range(lo, lo + size) + Range(next, n)
    ensures multiset(Shift(o, lo) + tail) == multiset(Range(lo, n))
  {
    ShiftPermutation(o, size, lo);
  }

  /** The indices from chunk `k` on are chunk `k`'s followed by those from chunk `k + 1` on. */
  lemma ChunkRangeSplit(n: nat, c: nat, k: nat)
    requires c >= 1 && k < NumChunks(n, c)
    ensures Range(k * c, n) == Range(k * c, k * c + ChunkSize(n, c, k)) + Range((k + 1) * c, n)
  {
    var lo, size, next := k * c, ChunkSize(n, c, k), (k + 1) * c;
    NumChunksCover(n, c, k);
    RangeSplit(lo, lo + size, n);
    if size < c {
      assert lo + size == n && next >= n;
    }
  }

  /** Chunk `k` exists exactly when it starts below `n`; the next one starts `c` later. */
  lemma NumChunksCover(n: nat, c: nat, k: nat)
    requires c >= 1
    ensures k < NumChunks(n, c) ==> k * c < n
    ensures k >= NumChunks(n, c) ==> k * c >= n
    ensures (k + 1) * c == k * c + c
  {
    var m := NumChunks(n, c);
    DivBounds(n + c - 1, c, m);
    MulStep(m, k, c);
    MulMono(m, k, c);
  }

  /** Every item index of chunk `k` lies in that chunk's slice. */
  lemma ShiftInChunk(n: nat, c: nat, orders: seq<seq<nat>>, k: nat, j: nat)
    requires c >= 1 && ValidOrders(n, c, orders) && k < |orders| && j < |orders[k]|
    ensures orders[k][j] < ChunkSize(n, c, k) && orders[k][j] < c
    ensures (k * c + orders[k][j]) / c == k
  {
    var x := orders[k][j];
    assert x in multiset(orders[k]);
    assert x in multiset(Range(0, ChunkSize(n, c, k)));
    DivUnique(k * c + x, c, k, x);
  }

  /** Items of an earlier chunk settle before items of a later chunk. */
  lemma {:induction false} ScheduleChunkOrder(n: nat, c: nat, orders: seq<seq<nat>>, k: nat)
    requires c >= 1 && ValidOrders(n, c, orders) && k <= |orders|
    ensures forall p :: 0 <= p < |Schedule(n, c, orders, k)| ==> Schedule(n, c, orders, k)[p] / c >= k
    ensures forall p, q :: 0 <= p < q < |Schedule(n, c, orders, k)| ==>
      Schedule(n, c, orders, k)[p] / c <= Schedule(n, c, orders, k)[q] / c
    decreases |orders| - k
  {
    if k < |orders| {
      var head := Shift(orders[k], k * c);
      var tail := Schedule(n, c, orders, k + 1);
      ScheduleChunkOrder(n, c, orders, k + 1);
      assert Schedule(n, c, orders, k) == head + tail;
      forall p | 0 <= p < |head|
        ensures head[p] / c == k
      {
        ShiftInChunk(n, c, orders, k, p);
      }
      ChunkOrderConcat(head, tail, c, k);
    }
  }

  /** One chunk's indices in front of indices of later chunks, in chunk order, keep chunk order. */
  lemma ChunkOrderConcat(head: seq<nat>, tail: seq<nat>, c: nat, k: nat)
    requires c >= 1
    requires forall p :: 0 <= p < |head| ==> head[p] / c == k
    requires forall p :: 0 <= p < |tail| ==> tail[p] / c >= k + 1
    requires forall p, q :: 0 <= p < q < |tail| ==> tail[p] / c <= tail[q] / c
    ensures forall p :: 0 <= p < |head + tail| ==> (head + tail)[p] / c >= k
    ensures forall p, q :: 0 <= p < q < |head + tail| ==> (head + tail)[p] / c <= (head + tail)[q] / c
  {
    var s := head + tail;
    forall p | 0 <= p < |s|
      ensures s[p] / c >= k
    {
      if p >= |head| {
        assert s[p] == tail[p - |head|];
      }
    }
    forall p, q | 0 <= p < q < |s|
      ensures s[p] / c <= s[q] / c
    {
      if p >= |head| {
        assert s[p] == tail[p - |head|] && s[q] == tail[q - |head|];
      } else if q >= |head| {
        assert s[q] == tail[q - |head|];
      }
    }
  }

  /** The running state of `batchLoad`. */
  datatype BatchState<T, R, E> = BatchState(loaded: seq<R>, failed: seq<(T, E)>, tracker: Tracker)

  /** One settled load: its result or its failure is recorded, then the tracker moves on. */
  function Settle<T, R, E>(st: BatchState<T, R, E>, item: T, outcome: Result<R, E>, show: T -> string): (r: BatchState<T, R, E>)
    ensures |r.loaded| + |r.failed| == |st.loaded| + |st.failed| + 1
    ensures r.tracker == Increment(st.tracker, Some(show(item)))
  {
    match outcome
    case Success(v) => st.(loaded := st.loaded + [v], tracker := Increment(st.tracker, Some(show(item))))
    case Failure(e) => st.(failed := st.failed + [(item, e)], tracker := Increment(st.tracker, Some(show(item))))
  }

  /** The loads settle in the order `sched` gives. */
  function Run<T, R, E>(items: seq<T>, outcomes: seq<Result<R, E>>, sched: seq<nat>, st: BatchState<T, R, E>, show: T -> string): BatchState<T, R, E>
    requires |outcomes| == |items|
    requires forall p :: 0 <= p < |sched| ==> sched[p] < |items|
    decreases |sched|
  {
    if |sched| == 0 then st
    else Run(items, outcomes, sched[1..], Settle(st, items[sched[0]], outcomes[sched[0]], show), show)
  }

  /** The whole schedule is a rearrangement of all the item indices. */
  lemma SchedulePermutes(n: nat, c: nat, orders: seq<seq<nat>>)
    requires c >= 1 && ValidOrders(n, c, orders)
    ensures multiset(Schedule(n, c, orders, 0)) == multiset(Range(0, n))
  {
    SchedulePermutation(n, c, orders, 0, 0);
    assert 0 * c == 0;
  }

  lemma ScheduleBounded(n: nat, c: nat, orders: seq<seq<nat>>)
    requires c >= 1 && ValidOrders(n, c, orders)
    ensures forall p :: 0 <= p < |Schedule(n, c, orders, 0)| ==> Schedule(n, c, orders, 0)[p] < n
  {
    var s := Schedule(n, c, orders, 0);
    SchedulePermutes(n, c, orders);
    forall p | 0 <= p < |s|
      ensures s[p] < n
    {
      assert s[p] in multiset(s);
      RangeMember(s[p], 0, n);
    }
  }

  lemma RangeMember(x: nat, lo: nat, hi: nat)
    requires x in multiset(Range(lo, hi))
    ensures lo <= x < hi
  {
    var r := Range(lo, hi);
    var i :| 0 <= i < |r| && r[i] == x;
  }

  /**
   * `batchLoad(items, loader, {concurrency, onProgress})`: item `i`'s load
   * gives `outcomes[i]`; chunks run one after another and inside chunk `k`
   * the loads settle in the order `orders[k]`.
   */
  function BatchLoad<T, R, E>(items: seq<T>, outcomes: seq<Result<R, E>>, concurrency: nat, orders: seq<seq<nat>>,
                              show: T -> string, reporting: bool): BatchState<T, R, E>
    requires concurrency >= 1 && |outcomes| == |items|
    requires ValidOrders(|items|, concurrency, orders)
  {
    ScheduleBounded(|items|, concurrency, orders);
    Run(items, outcomes, Schedule(|items|, concurrency, orders, 0), BatchState([], [], NewTracker(|items|, reporting)), show)
  }

  function SuccessAt<R, E>(outcomes: seq<Result<R, E>>): nat -> Option<R> {
    (i: nat) => if i < |outcomes| && outcomes[i].Success? then Some(outcomes[i].value) else None
  }

  function FailureAt<T, R, E>(items: seq<T>, outcomes: seq<Result<R, E>>): nat -> Option<(T, E)> {
    (i: nat) => if i < |outcomes| && i < |items| && outcomes[i].Failure? then Some((items[i], outcomes[i].error)) else None
  }

  /** A run records the results and failures of `sched` in that order. */
  lemma {:induction false} RunCollects<T, R, E>(items: seq<T>, outcomes: seq<Result<R, E>>, sched: seq<nat>, st: BatchState<T, R, E>, show: T -> string)
    requires |outcomes| == |items|
    requires forall p :: 0 <= p < |sched| ==> sched[p] < |items|
    ensures Run(items, outcomes, sched, st, show).loaded == st.loaded + Collect(sched, SuccessAt(outcomes))
    ensures Run(items, outcomes, sched, st, show).failed == st.failed + Collect(sched, FailureAt(items, outcomes))
    decreases |sched|
  {
    if |sched| > 0 {
      var st' := Settle(st, items[sched[0]], outcomes[sched[0]], show);
      RunCollects(items, outcomes, sched[1..], st', show);
    }
  }

  /** A run increments the tracker once per load and reports each time. */
  lemma {:induction false} RunTracker<T, R, E>(items: seq<T>, outcomes: seq<Result<R, E>>, sched: seq<nat>, st: BatchState<T, R, E>, show: T -> string)
    requires |outcomes| == |items|
    requires forall p :: 0 <= p < |sched| ==> sched[p] < |items|
    ensures var t := Run(items, outcomes, sched, st, show).tracker;
      t.loaded == st.tracker.loaded + |sched| && t.total == st.tracker.total && t.reporting == st.tracker.reporting
      && |t.reports| == |st.tracker.reports| + (if st.tracker.reporting then |sched| else 0)
    decreases |sched|
  {
    if |sched| > 0 {
      var st' := Settle(st, items[sched[0]], outcomes[sched[0]], show);
      RunTracker(items, outcomes, sched[1..], st', show);
    }
  }

  /** Reports made before a run are kept. */
  lemma {:induction false} RunReportsKept<T, R, E>(items: seq<T>, outcomes: seq<Result<R, E>>, sched: seq<nat>, st: BatchState<T, R, E>, show: T -> string, j: nat)
    requires |outcomes| == |items|
    requires forall p :: 0 <= p < |sched| ==> sched[p] < |items|
    requires j < |st.tracker.reports|
    ensures j < |Run(items, outcomes, sched, st, show).tracker.reports|
    ensures Run(items, outcomes, sched, st, show).tracker.reports[j] == st.tracker.reports[j]
    decreases |sched|
  {
    if |sched| > 0 {
      var st' := Settle(st, items[sched[0]], outcomes[sched[0]], show);
      assert st'.tracker.reports[j] == st'.tracker.reports[..|st.tracker.reports|][j];
      RunReportsKept(items, outcomes, sched[1..], st', show, j);
    }
  }

  /** The report made for the `i`-th load of a run counts it. */
  lemma {:induction false} RunReportsLoaded<T, R, E>(items: seq<T>, outcomes: seq<Result<R, E>>, sched: seq<nat>, st: BatchState<T, R, E>, show: T -> string, j: nat)
    requires |outcomes| == |items| && st.tracker.reporting
    requires forall p :: 0 <= p < |sched| ==> sched[p] < |items|
    requires |st.tracker.reports| <= j < |st.tracker.reports| + |sched|
    ensures j < |Run(items, outcomes, sched, st, show).tracker.reports|
    ensures Run(items, outcomes, sched, st, show).tracker.reports[j].loaded == st.tracker.loaded + (j - |st.tracker.reports|) + 1
    ensures Run(items, outcomes, sched, st, show).tracker.reports[j].total == st.tracker.total
    decreases |sched|
  {
    var m := |st.tracker.reports|;
    var st' := Settle(st, items[sched[0]], outcomes[sched[0]], show);
    if j == m {
      RunReportsKept(items, outcomes, sched[1..], st', show, j);
    } else {
      RunReportsLoaded(items, outcomes, sched[1..], st', show, j);
    }
  }

  /** Every item ends up either loaded or failed. */
  lemma BatchAccounting<T, R, E>(items: seq<T>, outcomes: seq<Result<R, E>>, concurrency: nat, orders: seq<seq<nat>>,
                                 show: T -> string, reporting: bool)
    requires concurrency >= 1 && |outcomes| == |items|
    requires ValidOrders(|items|, concurrency, orders)
    ensures var r := BatchLoad(items, outcomes, concurrency, orders, show, reporting);
      |r.loaded| + |r.failed| == |items|
  {
    var n := |items|;
    var sched := Schedule(n, concurrency, orders, 0);
    ScheduleBounded(n, concurrency, orders);
    RunCollects(items, outcomes, sched, BatchState([], [], NewTracker(n, reporting)), show);
    ScheduleLength(n, concurrency, orders);
    CollectSizes(items, outcomes, sched);
  }

  lemma ScheduleLength(n: nat, c: nat, orders: seq<seq<nat>>)
    requires c >= 1 && ValidOrders(n, c, orders)
    ensures |Schedule(n, c, orders, 0)| == n
  {
    var sched := Schedule(n, c, orders, 0);
    SchedulePermutes(n, c, orders);
    assert |sched| == |multiset(sched)| == |multiset(Range(0, n))| == n;
  }

  lemma {:induction false} CollectSizes<T, R, E>(items: seq<T>, outcomes: seq<Result<R, E>>, s: seq<nat>)
    requires |outcomes| == |items|
    requires forall p :: 0 <= p < |s| ==> s[p] < |items|
    ensures |Collect(s, SuccessAt(outcomes))| + |Collect(s, FailureAt(items, outcomes))| == |s|
    decreases |s|
  {
    if |s| > 0 {
      CollectSizes(items, outcomes, s[1..]);
    }
  }

  /**
   * Up to the order in which loads settle, `loaded` holds the results of
   * the successful items and `failed` the failing items with their errors.
   */
  lemma BatchOutcomes<T, R, E>(items: seq<T>, outcomes: seq<Result<R, E>>, concurrency: nat, orders: seq<seq<nat>>,
                               show: T -> string, reporting: bool)
    requires concurrency >= 1 && |outcomes| == |items|
    requires ValidOrders(|items|, concurrency, orders)
    ensures var r := BatchLoad(items, outcomes, concurrency, orders, show, reporting);
      multiset(r.loaded) == multiset(Collect(Range(0, |items|), SuccessAt(outcomes)))
      && multiset(r.failed) == multiset(Collect(Range(0, |items|), FailureAt(items, outcomes)))
  {
    var n := |items|;
    var sched := Schedule(n, concurrency, orders, 0);
    ScheduleBounded(n, concurrency, orders);
    RunCollects(items, outcomes, sched, BatchState([], [], NewTracker(n, reporting)), show);
    SchedulePermutes(n, concurrency, orders);
    CollectPermutation(sched, Range(0, n), SuccessAt(outcomes));
    CollectPermutation(sched, Range(0, n), FailureAt(items, outcomes));
  }

  /** All loads of chunk `k` settle before any load of chunk `k + 1`. */
  lemma BatchChunksInOrder(n: nat, concurrency: nat, orders: seq<seq<nat>>)
    requires concurrency >= 1 && ValidOrders(n, concurrency, orders)
    ensures var s := Schedule(n, concurrency, orders, 0);
      forall p, q :: 0 <= p < q < |s| ==> s[p] / concurrency <= s[q] / concurrency
  {
    ScheduleChunkOrder(n, concurrency, orders, 0);
  }

  /** `onProgress` sees `|items| + 1` reports, the `j`-th with `j` of the items loaded. */
  lemma BatchReports<T, R, E>(items: seq<T>, outcomes: seq<Result<R, E>>, concurrency: nat, orders: seq<seq<nat>>,
                              show: T -> string)
    requires concurrency >= 1 && |outcomes| == |items|
    requires ValidOrders(|items|, concurrency, orders)
    ensures var r := BatchLoad(items, outcomes, concurrency, orders, show, true);
      |r.tracker.reports| == |items| + 1
      && (forall j :: 0 <= j < |r.tracker.reports| ==> r.tracker.reports[j].loaded == j && r.tracker.reports[j].total == |items|)
      && r.tracker.reports[0].percentage == Percentage(0, |items|)
  {
    var n := |items|;
    var sched := Schedule(n, concurrency, orders, 0);
    var st := BatchState([], [], NewTracker(n, true));
    ScheduleBounded(n, concurrency, orders);
    ScheduleLength(n, concurrency, orders);
    RunTracker(items, outcomes, sched, st, show);
    var r := Run(items, outcomes, sched, st, show);
    RunReportsKept(items, outcomes, sched, st, show, 0);
    forall j | 0 <= j < |r.tracker.reports|
      ensures r.tracker.reports[j].loaded == j && r.tracker.reports[j].total == n
    {
      if j > 0 {
        RunReportsLoaded(items, outcomes, sched, st, show, j);
      }
    }
  }

  /*
   * Retry
   */

  function Min(a: real, b: real): real {
    if a <= b then a else b
  }

  /** Real multiplication, named so that products are matched as terms. */
  function Times(a: real, b: real): real {
    a * b
  }

  /** The delay after a sleep of `d`: `Math.min(d * backoffFactor, maxDelay)`. */
  function Grow(d: real, factor: real, maxDelay: real): real {
    Min(Times(d, factor), maxDelay)
  }

  /** The sleep before retry `j + 1`: the initial delay, then each one grown from the last. */
  function Delay(initialDelay: real, factor: real, maxDelay: real, j: nat): real {
    if j == 0 then initialDelay else Grow(Delay(initialDelay, factor, maxDelay, j - 1), factor, maxDelay)
  }

  function Pow(x: real, k: nat): real {
    if k == 0 then 1.0 else Times(x, Pow(x, k - 1))
  }

  /** Growing by a factor of at least 1 never shrinks a non-negative amount. */
  lemma ScaleUp(x: real, factor: real)
    requires factor >= 1.0 && x >= 0.0
    ensures Times(x, factor) >= x
  {
    assert x * factor - x == x * (factor - 1.0);
  }

  lemma TimesSwap(a: real, b: real, c: real)
    ensures Times(a, Times(b, c)) == Times(Times(a, c), b)
  {
  }

  lemma TimesOne(a: real)
    ensures Times(a, 1.0) == a
  {
  }

  /**
   * With a factor of at least 1 and a non-negative cap, every delay after
   * the first is `min(initialDelay * factor^j, maxDelay)`; the first is
   * `initialDelay` itself, even above the cap.
   */
  lemma {:induction false} DelayClosedForm(initialDelay: real, factor: real, maxDelay: real, j: nat)
    requires factor >= 1.0 && maxDelay >= 0.0 && j >= 1
    ensures Delay(initialDelay, factor, maxDelay, j) == Min(Times(initialDelay, Pow(factor, j)), maxDelay)
  {
    var p := Pow(factor, j - 1);
    var x := Times(initialDelay, p);
    var prev := Delay(initialDelay, factor, maxDelay, j - 1);
    assert Delay(initialDelay, factor, maxDelay, j) == Min(Times(prev, factor), maxDelay);
    assert Times(initialDelay, Pow(factor, j)) == Times(x, factor) by {
      assert Pow(factor, j) == Times(factor, p);
      TimesSwap(initialDelay, factor, p);
    }
    if j == 1 {
      TimesOne(initialDelay);
      assert prev == initialDelay == x;
    } else {
      DelayClosedForm(initialDelay, factor, maxDelay, j - 1);
      assert prev == Min(x, maxDelay);
      if x > maxDelay {
        ScaleUp(maxDelay, factor);
        ScaleUp(x, factor);
      }
    }
  }

  /** What `retryAsync` did: its result (`None` is the `undefined` it throws with no attempt), the calls, `onRetry` and sleeps. */
  datatype RetryTrace<T, E> = RetryTrace(result: Result<T, Option<E>>, calls: nat, notices: seq<(nat, E)>, sleeps: seq<real>)

  /**
   * `retryAsync(operation, {maxRetries, initialDelay, maxDelay, backoffFactor})`
   * where call `j` of the operation gives `op(j)`.
   */
  method RetryAsync<T, E>(op: nat -> Result<T, E>, maxRetries: int, initialDelay: real, maxDelay: real, factor: real)
    returns (r: RetryTrace<T, E>)
    ensures maxRetries < 0 ==> r == RetryTrace(Failure(None), 0, [], [])
    ensures maxRetries >= 0 ==> 1 <= r.calls <= maxRetries + 1
    ensures forall j :: 0 <= j < r.calls - 1 ==> op(j).Failure?
    ensures r.result.Success? ==> op(r.calls - 1) == Success(r.result.value)
    ensures maxRetries >= 0 && r.result.Failure? ==>
      r.calls == maxRetries + 1 && op(maxRetries).Failure? && r.result.error == Some(op(maxRetries).error)
    ensures r.calls >= 1 ==> |r.sleeps| == r.calls - 1
    ensures |r.notices| == |r.sleeps|
    ensures forall j :: 0 <= j < |r.sleeps| ==> r.sleeps[j] == Delay(initialDelay, factor, maxDelay, j)
    ensures forall j :: 0 <= j < |r.notices| ==> op(j).Failure? && r.notices[j] == (j + 1, op(j).error)
  {
    var lastError: Option<E> := None;
    var delay := initialDelay;
    var notices: seq<(nat, E)> := [];
    var sleeps: seq<real> := [];
    var attempt: nat := 0;
    while attempt <= maxRetries
      invariant maxRetries >= 0 ==> attempt <= maxRetries + 1
      invariant maxRetries < 0 ==> attempt == 0 && lastError.None?
      invariant forall j :: 0 <= j < attempt ==> op(j).Failure?
      invariant attempt > 0 ==> lastError == Some(op(attempt - 1).error)
      invariant |notices| == |sleeps|
      invariant |sleeps| == if attempt <= maxRetries || attempt == 0 then attempt else attempt - 1
      invariant attempt <= maxRetries ==> delay == Delay(initialDelay, factor, maxDelay, attempt)
      invariant forall j :: 0 <= j < |sleeps| ==> sleeps[j] == Delay(initialDelay, factor, maxDelay, j)
      invariant forall j :: 0 <= j < |notices| ==> op(j).Failure? && notices[j] == (j + 1, op(j).error)
      decreases maxRetries + 1 - attempt
    {
      var outcome := op(attempt);
      if outcome.Success? {
        return RetryTrace(Success(outcome.value), attempt + 1, notices, sleeps);
      }
      lastError := Some(outcome.error);
      if attempt < maxRetries {
        notices := notices + [(attempt + 1, outcome.error)];
        sleeps := sleeps + [delay];
        delay := Grow(delay, factor, maxDelay);
      }
      attempt := attempt + 1;
    }
    return RetryTrace(Failure(lastError), attempt, notices, sleeps);
  }

  /*
   * Cache
   */

  /** A cached (possibly failed) result and when it was stored. */
  datatype Entry<V> = Entry(value: V, timestamp: int)

  /** An `AsyncCache`: the optional time-to-live in milliseconds and the stored entries. */
  datatype Cache<K, V> = Cache(ttl: Option<int>, entries: map<K, Entry<V>>)

  /** The stored entry for `key` is served: no time-to-live (unset or 0), or younger than it. */
  predicate Servable<K, V>(c: Cache<K, V>, key: K, now: int) {
    key in c.entries && (c.ttl.None? || c.ttl.value == 0 || now - c.entries[key].timestamp < c.ttl.value)
  }

  /** What `get` did: the cache afterwards, the value returned, and whether the factory ran. */
  datatype CacheGet<K, V> = CacheGet(cache: Cache<K, V>, value: V, calledFactory: bool)

  /** `get(key, factory, forceFresh)` at time `now`, where `produced` is what the factory would return. */
  function Get<K, V>(c: Cache<K, V>, key: K, produced: V, forceFresh: bool, now: int): (r: CacheGet<K, V>)
    ensures !r.calledFactory <==> !forceFresh && Servable(c, key, now)
    ensures !r.calledFactory ==> r.cache == c && r.value == c.entries[key].value
    ensures r.calledFactory ==> r.value == produced && r.cache == Cache(c.ttl, c.entries[key := Entry(produced, now)])
  {
    if !forceFresh && Servable(c, key, now) then CacheGet(c, c.entries[key].value, false)
    else CacheGet(Cache(c.ttl, c.entries[key := Entry(produced, now)]), produced, true)
  }

  /** `delete(key)`. */
  function Delete<K, V>(c: Cache<K, V>, key: K): (r: Cache<K, V>)
    ensures r.ttl == c.ttl && r.entries.Keys == c.entries.Keys - {key}
    ensures forall k :: k in r.entries ==> r.entries[k] == c.entries[k]
  {
    Cache(c.ttl, c.entries - {key})
  }

  /** `clear()`. */
  function Clear<K, V>(c: Cache<K, V>): (r: Cache<K, V>)
    ensures r.ttl == c.ttl && r.entries == map[]
  {
    Cache(c.ttl, map[])
  }

  /** `get` never evicts: every stored key is still stored afterwards, with `key` added. */
  lemma GetKeepsKeys<K, V>(c: Cache<K, V>, key: K, produced: V, forceFresh: bool, now: int)
    ensures Get(c, key, produced, forceFresh, now).cache.entries.Keys == c.entries.Keys + {key}
  {
    if !forceFresh && Servable(c, key, now) {
      assert key in c.entries;
    }
  }

  /**
   * A second `get` of the same key at the same instant is served from the
   * cache unless it forces a fresh value or the time-to-live is negative.
   */
  lemma GetTwiceSameInstant<K, V>(c: Cache<K, V>, key: K, v1: V, v2: V, f1: bool, now: int)
    ensures var first := Get(c, key, v1, f1, now);
      var second := Get(first.cache, key, v2, false, now);
      !second.calledFactory <==> (c.ttl.None? || c.ttl.value >= 0 || (!f1 && Servable(c, key, now)))
  {
  }

  /** After `delete(key)` the next `get` of that key runs the factory. */
  lemma DeleteThenGet<K, V>(c: Cache<K, V>, key: K, produced: V, forceFresh: bool, now: int)
    ensures Get(Delete(c, key), key, produced, forceFresh, now).calledFactory
  {
  }
}

=== FILE: core.dfy ===
/** Shared value types: optional values, results with an error channel, and bytes. */
module Core {

  /** A value that may be absent (JavaScript `undefined`). */
  datatype Option<+T> = None | Some(value: T) {
    function GetOr(default: T): T {
      match this
      case Some(v) => v
      case None => default
    }
  }

  /** The outcome of an operation that can throw: a value or the thrown error. */
  datatype Result<+T, +E> = Success(value: T) | Failure(error: E)

  /** An operation that returns nothing but may fail. */
  datatype Outcome<+E> = Pass | Fail(error: E)

  /** One 8-bit unsigned value, as held by a Node `Buffer` or a `Uint8Array`. */
  type byte = x: int | 0 <= x < 256

  type Bytes = seq<byte>

  /** Cutting a sequence after position `j`, and after the element at `j`. */
  lemma CutAfter<T>(s: seq<T>, j: nat)
    requires j < |s|
    ensures s[..j + 1] == s[..j] + [s[j]]
    ensures s == s[..j + 1] + s[j + 1..]
  {
  }

  /** The head and the tail of a concatenation with a non-empty front. */
  lemma ConsAppend<T>(a: seq<T>, b: seq<T>)
    requires |a| > 0
    ensures (a + b)[0] == a[0] && (a + b)[1..] == a[1..] + b
  {
  }

  lemma AppendAssoc<T>(x: seq<T>, y: seq<T>, z: seq<T>)
    ensures x + (y + z) == (x + y) + z
  {
  }

  lemma AppendEmpty<T>(s: seq<T>)
    ensures s + [] == s && [] + s == s
  {
  }
}

=== FILE: dump_steps.dfy ===
/**
 * `dumpDCR` and `dumpCCT`: extract one Director file into a directory named
 * after it, leave a manifest behind when extraction fails, sort the regular
 * files found there into images and XML/binary data, and hand them to the
 * caller's `onAfter` callback. The two steps differ only in the extension
 * they strip and the word they write into the manifest, so one model,
 * parameterised by the file type, stands for both.
 */
module DumpSteps {
  import opened Core
  import opened Text
  import Paths
  import ProjectorRays
  import AssetDiscovery

  type FileType = AssetDiscovery.FileType
  type Dirent = ProjectorRays.Dirent

  /** The extension `path.basename` strips from the source path. */
  function Extension(t: FileType): string {
    match t
    case Dcr => ".dcr"
    case Cct => ".cct"
  }

  /** The word naming the file type in the failure manifest. */
  function Label(t: FileType): string {
    match t
    case Dcr => "DCR"
    case Cct => "CCT"
  }

  const ImageExtensions: seq<string> := [".png", ".jpg", ".jpeg", ".gif", ".bmp"]
  const DataExtensions: seq<string> := [".xml", ".bin"]
  const ManifestName: string := "extraction_failed.txt"
  const ProjectorRaysUrl: string := "https://github.com/ProjectorRays/ProjectorRays"

  /**
   * The text of the manifest left when extraction of `source` fails: the
   * file type, then the source path verbatim, then the ProjectorRays URL.
   */
  function ManifestText(t: FileType, source: string): (text: string)
    ensures StartsWith(text, Label(t) + " file extraction failed.\nSource: ")
    ensures EndsWith(text, "\nProjectorRays: " + ProjectorRaysUrl)
    ensures |text| == |Label(t) + " file extraction failed.\nSource: "| + |source| + |"\nProjectorRays: " + ProjectorRaysUrl|
    ensures text[|Label(t) + " file extraction failed.\nSource: "|..|text| - |"\nProjectorRays: " + ProjectorRaysUrl|] == source
  {
    var head := Label(t) + " file extraction failed.\nSource: ";
    var tail := "\nProjectorRays: " + ProjectorRaysUrl;
    Framed(head, source, tail);
    head + source + tail
  }

  /** Where a directory entry goes: the image list, the XML/binary list, or nowhere. */
  datatype Kind = Image | Data | Ignored

  /** Regular files are sorted by their lower-cased extension; everything else is ignored. */
  function Classify(e: Dirent): Kind {
    if !e.isFile then Ignored else ExtensionKind(ToLower(Paths.Extname(e.name)))
  }

  /** The list a lower-cased extension selects. */
  function ExtensionKind(ext: string): Kind {
    if ext in ImageExtensions then Image
    else if ext in DataExtensions then Data
    else Ignored
  }

  /** The paths, in listing order, of the entries of kind `k`, joined to `dir`. */
  function Selected(dir: string, entries: seq<Dirent>, k: Kind): (r: seq<string>)
    ensures |r| <= |entries|
    decreases |entries|
  {
    if |entries| == 0 then []
    else
      var last := entries[|entries| - 1];
      Selected(dir, entries[..|entries| - 1], k) + (if Classify(last) == k then [Paths.Join(dir, last.name)] else [])
  }

  /** Selecting from a listing with one more entry at its end. */
  lemma SelectedSnoc(dir: string, entries: seq<Dirent>, e: Dirent, k: Kind)
    ensures Selected(dir, entries + [e], k)
      == Selected(dir, entries, k) + (if Classify(e) == k then [Paths.Join(dir, e.name)] else [])
  {
    assert (entries + [e])[..|entries|] == entries;
  }

  /** The sorting loop over a directory listing: images and XML/binary files, each in listing order. */
  method PartitionFiles(dir: string, entries: seq<Dirent>) returns (images: seq<string>, data: seq<string>)
    ensures images == Selected(dir, entries, Image)
    ensures data == Selected(dir, entries, Data)
  {
    images, data := [], [];
    var i := 0;
    while i < |entries|
      invariant 0 <= i <= |entries|
      invariant images == Selected(dir, entries[..i], Image)
      invariant data == Selected(dir, entries[..i], Data)
    {
      var e := entries[i];
      assert entries[..i + 1] == entries[..i] + [e];
      SelectedSnoc(dir, entries[..i], e, Image);
      SelectedSnoc(dir, entries[..i], e, Data);
      match Classify(e) {
        case Image => images := images + [Paths.Join(dir, e.name)];
        case Data => data := data + [Paths.Join(dir, e.name)];
        case Ignored =>
      }
      i := i + 1;
    }
    assert entries[..i] == entries;
  }

  /** Entry `e` of kind `k` is joined to `dir` to give `p`. */
  predicate Yields(dir: string, e: Dirent, k: Kind, p: string) {
    Classify(e) == k && p == Paths.Join(dir, e.name)
  }

  /** A path is selected exactly when some entry of that kind is joined to give it. */
  lemma SelectedMembers(dir: string, entries: seq<Dirent>, k: Kind, p: string)
    ensures p in Selected(dir, entries, k) <==> exists i :: 0 <= i < |entries| && Yields(dir, entries[i], k, p)
  {
    if p in Selected(dir, entries, k) {
      SelectedSound(dir, entries, k, p);
    }
    if exists i :: 0 <= i < |entries| && Yields(dir, entries[i], k, p) {
      var i :| 0 <= i < |entries| && Yields(dir, entries[i], k, p);
      SelectedComplete(dir, entries, k, i);
    }
  }

  lemma {:induction false} SelectedSound(dir: string, entries: seq<Dirent>, k: Kind, p: string)
    requires p in Selected(dir, entries, k)
    ensures exists i :: 0 <= i < |entries| && Yields(dir, entries[i], k, p)
    decreases |entries|
  {
    var init := entries[..|entries| - 1];
    if p in Selected(dir, init, k) {
      SelectedSound(dir, init, k, p);
      var i :| 0 <= i < |init| && Yields(dir, init[i], k, p);
      assert entries[i] == init[i];
    } else {
      assert Yields(dir, entries[|entries| - 1], k, p);
    }
  }

  lemma {:induction false} SelectedComplete(dir: string, entries: seq<Dirent>, k: Kind, i: nat)
    requires i < |entries| && Classify(entries[i]) == k
    ensures Paths.Join(dir, entries[i].name) in Selected(dir, entries, k)
    decreases |entries|
  {
    var init, last := entries[..|entries| - 1], entries[|entries| - 1];
    var p := Paths.Join(dir, entries[i].name);
    var front, back := Selected(dir, init, k), if Classify(last) == k then [Paths.Join(dir, last.name)] else [];
    assert Selected(dir, entries, k) == front + back;
    if i < |init| {
      assert init[i] == entries[i];
      SelectedComplete(dir, init, k, i);
      assert p in front;
    } else {
      assert i == |entries| - 1;
      assert entries[i] == last;
    }
  }

  /** Only a named file can be sorted into a list: the empty name has no extension. */
  lemma ClassifiedNamed(e: Dirent)
    requires Classify(e) != Ignored
    ensures |e.name| > 0
  {
  }

  /** No path is both an image and an XML/binary file. */
  lemma PartitionDisjoint(dir: string, entries: seq<Dirent>, p: string)
    ensures !(p in Selected(dir, entries, Image) && p in Selected(dir, entries, Data))
  {
    SelectedMembers(dir, entries, Image, p);
    SelectedMembers(dir, entries, Data, p);
    if p in Selected(dir, entries, Image) && p in Selected(dir, entries, Data) {
      var i :| 0 <= i < |entries| && Yields(dir, entries[i], Image, p);
      var j :| 0 <= j < |entries| && Yields(dir, entries[j], Data, p);
      ClassifiedNamed(entries[i]);
      ClassifiedNamed(entries[j]);
      Paths.JoinInjective(dir, entries[i].name, entries[j].name);
    }
  }

  /** Upper-case extensions are sorted like lower-case ones: `a.PNG` is an image. */
  lemma ClassifyIgnoresCase(stem: string, ext: string)
    requires |stem| > 0 && '/' !in stem
    requires |ext| > 1 && ext[0] == '.' && '/' !in ext && '.' !in ext[1..]
    ensures Classify(ProjectorRays.Dirent(stem + ext, true)) == Classify(ProjectorRays.Dirent(stem + ToLower(ext), true))
  {
    var lower := ToLower(ext);
    assert lower[0] == '.';
    assert '/' !in lower && '.' !in lower[1..] by {
      forall j | 0 <= j < |lower|
        ensures lower[j] != '/' && (j > 0 ==> lower[j] != '.')
      {
        assert lower[j] == LowerChar(ext[j]);
        if j > 0 {
          assert ext[j] == ext[1..][j - 1];
        }
      }
    }
    Paths.ExtnameOf("", stem, ext);
    Paths.ExtnameOf("", stem, lower);
    ToLowerIdempotent(ext);
  }

  /** No extension either list takes has `t` as its first letter. */
  lemma NeitherList(ext: string)
    requires |ext| >= 2 && ext[1] == 't'
    ensures ExtensionKind(ext) == Ignored
  {
  }

  /** The manifest's extension is `.txt`, which neither list takes. */
  lemma ManifestClassified()
    ensures Classify(ProjectorRays.Dirent(ManifestName, true)) == Ignored
  {
    var ext := ".txt";
    assert ManifestName == "extraction_failed" + ext;
    Paths.ExtnameOf("", "extraction_failed", ext);
    assert Paths.Extname(ManifestName) == ext;
    var low := ToLower(ext);
    assert low[1] == LowerChar('t') == 't';
    NeitherList(low);
  }

  /** The failure manifest is a `.txt` file and never lands in either list. */
  lemma ManifestIgnored(dir: string, entries: seq<Dirent>)
    ensures Paths.Join(dir, ManifestName) !in Selected(dir, entries, Image)
    ensures Paths.Join(dir, ManifestName) !in Selected(dir, entries, Data)
  {
    ManifestClassified();
    var p := Paths.Join(dir, ManifestName);
    forall k | k != Ignored
      ensures p !in Selected(dir, entries, k)
    {
      SelectedMembers(dir, entries, k, p);
      if p in Selected(dir, entries, k) {
        var i :| 0 <= i < |entries| && Yields(dir, entries[i], k, p);
        ClassifiedNamed(entries[i]);
        Paths.JoinInjective(dir, entries[i].name, ManifestName);
      }
    }
  }

  /** The arguments `onAfter` receives. */
  datatype Callback = Callback(baseName: string, dumpLocation: string, imagePaths: seq<string>, dataPaths: seq<string>)

  /** The manifest file written after a failed extraction. */
  datatype Manifest = Manifest(path: string, text: string)

  /**
   * What the outside world answers, in the order the step asks: creating the
   * dump directory, `extractFile` (its answer, or the setup error it
   * throws), writing the manifest, listing the dump directory, and the
   * caller's callback.
   */
  datatype World = World(
    mkdir: Outcome<string>,
    extraction: Result<ProjectorRays.Extraction, string>,
    writeManifest: Outcome<string>,
    listing: Result<seq<Dirent>, string>,
    onAfter: Outcome<string>)

  /** One dump: where it went, the manifest written (if any), the callback made (if any), and how it ended. */
  datatype Dump = Dump(baseName: string, dumpLocation: string, manifest: Option<Manifest>, callback: Option<Callback>, outcome: Outcome<string>)

  /** The base name and the dump directory of a source path. */
  function DumpNames(t: FileType, path: string): (string, string) {
    var baseName := Paths.Basename(path, Extension(t));
    (baseName, Paths.Join(Paths.Dirname(path), baseName))
  }

  /**
   * `dumpDCR(path, onAfter)` / `dumpCCT(path, onAfter)`. The directory is
   * created before the guarded block; every failure after it is rethrown
   * unchanged, and a failed extraction still reaches the callback.
   */
  function DumpFile(t: FileType, path: string, w: World): (r: Dump)
    ensures (r.baseName, r.dumpLocation) == DumpNames(t, path)
    ensures r.manifest.Some? <==> w.mkdir.Pass? && w.extraction.Success? && !w.extraction.value.success
    ensures r.manifest.Some? ==> r.manifest.value == Manifest(Paths.Join(r.dumpLocation, ManifestName), ManifestText(t, path))
    ensures r.callback.Some? <==>
      w.mkdir.Pass? && w.extraction.Success? && (w.extraction.value.success || w.writeManifest.Pass?) && w.listing.Success?
    ensures r.callback.Some? ==> r.callback.value.baseName == r.baseName && r.callback.value.dumpLocation == r.dumpLocation
    ensures r.callback.Some? ==>
      r.callback.value.imagePaths == Selected(r.dumpLocation, w.listing.value, Image)
      && r.callback.value.dataPaths == Selected(r.dumpLocation, w.listing.value, Data)
    ensures r.outcome.Pass? <==> r.callback.Some? && w.onAfter.Pass?
  {
    var (baseName, dumpLocation) := DumpNames(t, path);
    if w.mkdir.Fail? then Dump(baseName, dumpLocation, None, None, w.mkdir)
    else if w.extraction.Failure? then Dump(baseName, dumpLocation, None, None, Fail(w.extraction.error))
    else
      var manifest :=
        if w.extraction.value.success then None
        else Some(Manifest(Paths.Join(dumpLocation, ManifestName), ManifestText(t, path)));
      if manifest.Some? && w.writeManifest.Fail? then Dump(baseName, dumpLocation, manifest, None, w.writeManifest)
      else if w.listing.Failure? then Dump(baseName, dumpLocation, manifest, None, Fail(w.listing.error))
      else
        var entries := w.listing.value;
        var call := Callback(baseName, dumpLocation, Selected(dumpLocation, entries, Image), Selected(dumpLocation, entries, Data));
        Dump(baseName, dumpLocation, manifest, Some(call), w.onAfter)
  }

  /** The error a failed dump ends with is the first failure the world gave, passed on unchanged. */
  function FirstFailure(w: World): (e: Option<string>) {
    if w.mkdir.Fail? then Some(w.mkdir.error)
    else if w.extraction.Failure? then Some(w.extraction.error)
    else if !w.extraction.value.success && w.writeManifest.Fail? then Some(w.writeManifest.error)
    else if w.listing.Failure? then Some(w.listing.error)
    else if w.onAfter.Fail? then Some(w.onAfter.error)
    else None
  }

  lemma DumpRethrows(t: FileType, path: string, w: World)
    ensures var r := DumpFile(t, path, w);
      (r.outcome.Pass? <==> FirstFailure(w).None?)
      && (r.outcome.Fail? ==> r.outcome.error == FirstFailure(w).value)
  {
  }

  /** A failed extraction still hands the listing to the callback, with the manifest kept out of both lists. */
  lemma FailedExtractionStillCalls(t: FileType, path: string, w: World)
    requires w.mkdir.Pass? && w.extraction.Success? && !w.extraction.value.success
    requires w.writeManifest.Pass? && w.listing.Success?
    ensures var r := DumpFile(t, path, w);
      r.manifest.Some? && r.callback.Some?
      && r.manifest.value.path !in r.callback.value.imagePaths
      && r.manifest.value.path !in r.callback.value.dataPaths
  {
    var r := DumpFile(t, path, w);
    ManifestIgnored(r.dumpLocation, w.listing.value);
  }

  /** The two lists handed to the callback never share a path. */
  lemma CallbackListsDisjoint(t: FileType, path: string, w: World, p: string)
    requires DumpFile(t, path, w).callback.Some?
    ensures var c := DumpFile(t, path, w).callback.value;
      !(p in c.imagePaths && p in c.dataPaths)
  {
    var r := DumpFile(t, path, w);
    PartitionDisjoint(r.dumpLocation, w.listing.value, p);
  }

  /**
   * A file `n + ext` in directory `d` (a plain directory, not `.` or the
   * root) dumps into the sibling directory `d/n`, and `n` is the base name.
   */
  lemma DumpNamesOf(t: FileType, d: string, n: string)
    requires |d| > 0 && d != "." && d[|d| - 1] != '/'
    requires |n| > 0 && '/' !in n
    ensures DumpNames(t, Paths.Join(d, n + Extension(t))) == (n, Paths.Join(d, n))
  {
    var ext := Extension(t);
    var name := n + ext;
    assert '/' !in name by {
      assert forall j :: 0 <= j < |name| ==> name[j] == (if j < |n| then n[j] else ext[j - |n|]);
    }
    assert EndsWith(name, ext) by {
      assert name[|name| - |ext|..] == ext;
    }
    Paths.BasenameStripsSuffix(d, name, ext);
    var b := Paths.Basename(Paths.Join(d, name), ext);
    assert b + ext == n + ext;
    assert b == (b + ext)[..|b|] == (n + ext)[..|n|] == n;
    Paths.DirnameJoin(d, name);
  }

  /**
   * The extension is stripped case-sensitively: a name whose extension is
   * written in capitals (which discovery accepts) keeps it, and its dump
   * directory is the source path itself.
   */
  lemma UpperCaseExtensionKept(t: FileType, d: string, n: string)
    requires |d| > 0 && d != "." && d[|d| - 1] != '/'
    requires |n| > 0 && '/' !in n && !EndsWith(n, Extension(t))
    ensures DumpNames(t, Paths.Join(d, n)) == (n, Paths.Join(d, n))
  {
    Paths.BasenameKeepsOther(d, n, Extension(t));
    Paths.DirnameJoin(d, n);
  }
}

=== FILE: external_variables.dfy ===
/**
 * The Origins `external_variables` text: line-oriented `key=value`
 * assignments, `${name}` references resolved over a bounded number of
 * passes, and the structured view the dump pipeline reads from it.
 */
module ExternalVariables {
  import opened Core
  import opened Text
  import opened OrderedMaps

  type Variables = OMap<string, string>

  /*
   * Parsing
   */

  /** The trimmed text before the first `=` of `line` and the trimmed text after it, if `line` has an `=`. */
  function SplitAtFirstEquals(line: string): Option<(string, string)> {
    match IndexOf(line, '=')
    case None => None
    case Some(p) => Some((Trim(line[..p]), Trim(line[p + 1..])))
  }

  /**
   * One line of the text. Blank lines, `#` comments and lines without `=`
   * carry nothing; otherwise the key is the trimmed text before the first
   * `=` and the value the trimmed text after it (which may hold more `=`).
   */
  function ParseLine(line: string): (r: Option<(string, string)>)
    ensures r.None? <==> (var t := Trim(line); |t| == 0 || t[0] == '#' || '=' !in t)
    ensures r.Some? ==> '=' !in r.value.0 && IsTrimmed(r.value.0) && IsTrimmed(r.value.1)
    ensures r.Some? ==> r == SplitAtFirstEquals(line)
  {
    var t := Trim(line);
    if |t| == 0 || t[0] == '#' then None
    else
      match IndexOf(t, '=')
      case None => None
      case Some(i) =>
        TrimmedSplit(line, i);
        Some((Trim(t[..i]), Trim(t[i + 1..])))
  }

  /** Splitting the trimmed line at its first `=` is splitting the line itself there. */
  lemma TrimmedSplit(line: string, i: nat)
    requires var t := Trim(line); i < |t| && t[i] == '=' && '=' !in t[..i]
    ensures var t := Trim(line); SplitAtFirstEquals(line) == Some((Trim(t[..i]), Trim(t[i + 1..])))
  {
    var a := TrimAt(line);
    FramedSplit(line, a, Trim(line), i);
  }

  /** The first `=` of a slice framed by white space is the first `=` of the whole line. */
  lemma FramedSplit(line: string, a: nat, t: string, i: nat)
    requires a + |t| <= |line| && t == line[a..a + |t|] && AllSpace(line[..a]) && AllSpace(line[a + |t|..])
    requires i < |t| && t[i] == '=' && '=' !in t[..i]
    ensures SplitAtFirstEquals(line) == Some((Trim(t[..i]), Trim(t[i + 1..])))
  {
    SliceStart(line, a, t, i);
    FirstEqualsAt(line, a, a + i);
    SplitAtFound(line, a + i);
    FramedCut(line, a, t, i);
  }

  /** An `=` with only white space and no other `=` in front of it is the line's first `=`. */
  lemma FirstEqualsAt(line: string, a: nat, k: nat)
    requires a <= k < |line| && line[k] == '='
    requires AllSpace(line[..a]) && '=' !in line[a..k]
    ensures IndexOf(line, '=') == Some(k)
  {
    forall j | 0 <= j < k
      ensures line[..k][j] != '='
    {
      if j < a {
        assert IsSpace(line[..a][j]);
      } else {
        assert line[..k][j] == line[a..k][j - a];
      }
    }
    IndexOfFirst(line, '=', k);
  }

  /** A slice of a slice, from its start. */
  lemma SliceStart<T>(s: seq<T>, a: nat, t: seq<T>, i: nat)
    requires a + |t| <= |s| && t == s[a..a + |t|] && i < |t|
    ensures s[a..a + i] == t[..i] && s[a + i] == t[i]
  {
  }

  lemma SplitAtFound(line: string, p: nat)
    requires IndexOf(line, '=') == Some(p)
    ensures SplitAtFirstEquals(line) == Some((Trim(line[..p]), Trim(line[p + 1..])))
  {
  }


  /** The sequence `front`, one element, and `back`, taken apart again. */
  lemma SplitAround<T>(front: seq<T>, c: T, back: seq<T>)
    ensures (front + [c] + back)[|front|] == c
    ensures (front + [c] + back)[..|front|] == front
    ensures (front + [c] + back)[|front| + 1..] == back
  {
  }

  lemma NoEqualsInSpace(w: string)
    requires AllSpace(w)
    ensures '=' !in w
  {
  }

  /** The text of an assignment: the key, `=` and the value, with white space around each. */
  function AssignmentText(w1: string, key: string, w2: string, w3: string, value: string, w4: string): string {
    w1 + key + w2 + "=" + w3 + value + w4
  }

  /**
   * A trimmed, `=`-free key that does not start a comment, `=`, and a
   * trimmed value read back as that assignment, whatever white space
   * surrounds them.
   */
  lemma ParseLineRoundTrip(w1: string, key: string, w2: string, w3: string, value: string, w4: string)
    requires AllSpace(w1) && AllSpace(w2) && AllSpace(w3) && AllSpace(w4)
    requires |key| > 0 && key[0] != '#' && '=' !in key
    requires IsTrimmed(key) && IsTrimmed(value)
    ensures ParseLine(AssignmentText(w1, key, w2, w3, value, w4)) == Some((key, value))
  {
    var front, back := w1 + key + w2, w3 + value + w4;
    AssignmentSplit(w1, key, w2, w3, value, w4);
    NoEqualsInSpace(w1);
    NoEqualsInSpace(w2);
    NotInAppend3('=', w1, key, w2);
    SplitAssignment(front, back);
    AssignmentTrimmed(w1, key, w2, w3, value, w4);
    TrimSpaces(w1, key, w2);
    TrimSpaces(w3, value, w4);
  }

  /** A line with no `=` before a given one splits there. */
  lemma SplitAssignment(front: string, back: string)
    requires '=' !in front
    ensures SplitAtFirstEquals(front + ['='] + back) == Some((Trim(front), Trim(back)))
  {
    var line := front + ['='] + back;
    SplitAround(front, '=', back);
    IndexOfFirst(line, '=', |front|);
    SplitAtFound(line, |front|);
  }

  lemma NotInAppend3<T>(x: T, a: seq<T>, b: seq<T>, c: seq<T>)
    requires x !in a && x !in b && x !in c
    ensures x !in a + b + c
  {
  }

  /** An assignment's text is the text in front of its `=`, the `=`, and the text behind. */
  lemma AssignmentSplit(w1: string, key: string, w2: string, w3: string, value: string, w4: string)
    ensures AssignmentText(w1, key, w2, w3, value, w4) == (w1 + key + w2) + ['='] + (w3 + value + w4)
  {
    var f := w1 + key + w2 + "=";
    AppendAssoc(f, w3 + value, w4);
    AppendAssoc(f, w3, value);
  }

  /** Trimmed, an assignment's text starts with the key and still holds its `=`. */
  lemma AssignmentTrimmed(w1: string, key: string, w2: string, w3: string, value: string, w4: string)
    requires AllSpace(w1)
    requires |key| > 0 && IsTrimmed(key)
    ensures var t := Trim(AssignmentText(w1, key, w2, w3, value, w4));
      |t| > 0 && t[0] == key[0] && '=' in t
  {
    var line := AssignmentText(w1, key, w2, w3, value, w4);
    var front := w1 + key + w2;
    AssignmentSplit(w1, key, w2, w3, value, w4);
    SplitAround(front, '=', w3 + value + w4);
    assert line[..|w1|] == w1 && line[|w1|] == key[0] by {
      assert line[..|front|][..|w1|] == w1 && line[..|front|][|w1|] == key[0];
    }
    TrimKeeps(line, |w1|, |front|);
  }

  /** The assignments the lines carry, in line order. */
  function Assignments(lines: seq<string>): (es: seq<(string, string)>)
    ensures |es| <= |lines|
  {
    if |lines| == 0 then []
    else
      match ParseLine(lines[0])
      case None => Assignments(lines[1..])
      case Some(e) => [e] + Assignments(lines[1..])
  }

  /** Applies the assignments one after another with `Map.set`. */
  function SetAll(m: Variables, es: seq<(string, string)>): Variables
    decreases |es|
  {
    if |es| == 0 then m else SetAll(Set(m, es[0].0, es[0].1), es[1..])
  }

  /** The variable map before any `${name}` is resolved. */
  function ParseAssignments(text: string): Variables {
    SetAll([], Assignments(Split(text, '\n')))
  }

  /** The value the last assignment to `k` gives it, if there is one. */
  function LastValue(es: seq<(string, string)>, k: string): Option<string> {
    if |es| == 0 then None
    else if es[|es| - 1].0 == k then Some(es[|es| - 1].1)
    else LastValue(es[..|es| - 1], k)
  }

  lemma {:induction false} SetAllAppend(m: Variables, es: seq<(string, string)>, e: (string, string))
    ensures SetAll(m, es + [e]) == Set(SetAll(m, es), e.0, e.1)
    decreases |es|
  {
    if |es| > 0 {
      var m' := Set(m, es[0].0, es[0].1);
      assert (es + [e])[0] == es[0];
      assert (es + [e])[1..] == es[1..] + [e];
      assert SetAll(m, es + [e]) == SetAll(m', es[1..] + [e]);
      assert SetAll(m, es) == SetAll(m', es[1..]);
      SetAllAppend(m', es[1..], e);
    } else {
      assert es + [e] == [e];
    }
  }

  lemma {:induction false} SetAllSplit(m: Variables, a: seq<(string, string)>, b: seq<(string, string)>)
    ensures SetAll(m, a + b) == SetAll(SetAll(m, a), b)
    decreases |a|
  {
    if |a| > 0 {
      var m' := Set(m, a[0].0, a[0].1);
      assert (a + b)[0] == a[0];
      assert (a + b)[1..] == a[1..] + b;
      assert SetAll(m, a + b) == SetAll(m', a[1..] + b);
      assert SetAll(m, a) == SetAll(m', a[1..]);
      SetAllSplit(m', a[1..], b);
    } else {
      assert a + b == b;
    }
  }

  /** A repeated key takes the value of its last assignment; keys never assigned keep their old value. */
  lemma {:induction false} SetAllLookup(m: Variables, es: seq<(string, string)>, k: string)
    ensures Get(SetAll(m, es), k) == if LastValue(es, k).Some? then LastValue(es, k) else Get(m, k)
    decreases |es|
  {
    if |es| > 0 {
      var init, e := es[..|es| - 1], es[|es| - 1];
      assert es == init + [e];
      SetAllAppend(m, init, e);
      SetAllLookup(m, init, k);
      if e.0 != k {
        SetOther(SetAll(m, init), e.0, e.1, k);
      }
    }
  }

  /** Applying assignments only appends keys: the earlier keys keep their positions. */
  lemma {:induction false} SetAllKeysPrefix(m: Variables, es: seq<(string, string)>)
    ensures |m| <= |SetAll(m, es)|
    ensures forall i :: 0 <= i < |m| ==> SetAll(m, es)[i].0 == m[i].0
    ensures forall k :: HasKey(SetAll(m, es), k) <==> HasKey(m, k) || HasKey(es, k)
    decreases |es|
  {
    if |es| > 0 {
      var m' := Set(m, es[0].0, es[0].1);
      assert SetAll(m, es) == SetAll(m', es[1..]);
      SetAllKeysPrefix(m', es[1..]);
      forall k
        ensures HasKey(SetAll(m, es), k) <==> HasKey(m, k) || HasKey(es, k)
      {
        HasKeySet(m, es[0].0, es[0].1, k);
        HasKeyCons(es, k);
      }
    }
  }

  lemma {:induction false} SetAllDistinct(m: Variables, es: seq<(string, string)>)
    requires DistinctKeys(m)
    ensures DistinctKeys(SetAll(m, es))
    decreases |es|
  {
    if |es| > 0 {
      SetDistinct(m, es[0].0, es[0].1);
      SetAllDistinct(Set(m, es[0].0, es[0].1), es[1..]);
    }
  }

  /**
   * A repeated key keeps the position of its first assignment: if the
   * first assignment to `k1` comes before the first assignment to `k2`,
   * `k1` comes before `k2` in the parsed map.
   */
  lemma FirstAssignmentOrder(es: seq<(string, string)>, i: nat, j: nat, p: nat, q: nat)
    requires i < j < |es|
    requires !HasKey(es[..j], es[j].0)
    requires p < |SetAll([], es)| && q < |SetAll([], es)|
    requires SetAll([], es)[p].0 == es[i].0 && SetAll([], es)[q].0 == es[j].0
    ensures p < q
  {
    var r := SetAll([], es);
    SetAllDistinct([], es);
    var before := SetAll([], es[..j]);
    SetAllKeysPrefix([], es[..j]);
    assert HasKey(es[..j], es[i].0) by {
      assert es[..j][i].0 == es[i].0;
    }
    var a :| 0 <= a < |before| && before[a].0 == es[i].0;
    SetFresh(before, es[j].0, es[j].1);
    var after := Set(before, es[j].0, es[j].1);
    SetAllAround(es, j);
    SetAllKeysPrefix(after, es[j + 1..]);
    assert r[a].0 == es[i].0;
    assert r[|before|].0 == es[j].0;
  }

  /** Parsing splits around the assignment at `j`. */
  lemma SetAllAround(es: seq<(string, string)>, j: nat)
    requires j < |es|
    ensures SetAll([], es) == SetAll(Set(SetAll([], es[..j]), es[j].0, es[j].1), es[j + 1..])
  {
    CutAfter(es, j);
    SetAllAppend([], es[..j], es[j]);
    SetAllSplit([], es[..j + 1], es[j + 1..]);
  }

  /*
   * Resolution of `${name}` references
   */

  /** What a `${name}` match is replaced with: the current value of `name` when it is non-empty, else the match itself. */
  function Replacement(name: string, m: Variables): (r: string)
    ensures (Get(m, name).Some? && Get(m, name).value != "") ==> r == Get(m, name).value
    ensures (Get(m, name).None? || Get(m, name).value == "") ==> r == "${" + name + "}"
  {
    match Get(m, name)
    case Some(v) => if v != "" then v else "${" + name + "}"
    case None => "${" + name + "}"
  }

  /**
   * `value.replace(/\$\{([^}]+)\}/g, ...)`: a left-to-right scan; at `${`
   * followed by at least one character before the next `}` the whole
   * match is replaced, and scanning continues after it (replacements are
   * not scanned again).
   */
  function Substitute(s: string, m: Variables): string
    decreases |s|
  {
    if |s| == 0 then ""
    else
      match ReferenceAt(s)
      case Some(j) => Replacement(s[2..2 + j], m) + Substitute(s[2 + j + 1..], m)
      case None => [s[0]] + Substitute(s[1..], m)
  }

  /**
   * When `s` starts with a match of `\$\{([^}]+)\}`, the length of the
   * captured name: `s` is `${`, the name, `}`, and the rest.
   */
  function ReferenceAt(s: string): (r: Option<nat>)
    ensures r.Some? ==> 2 + r.value < |s| && r.value >= 1 && s[0] == '$' && s[1] == '{'
  {
    if |s| >= 2 && s[0] == '$' && s[1] == '{' then
      match IndexOf(s[2..], '}')
      case Some(j) => if j >= 1 then Some(j) else None
      case None => None
    else None
  }

  /** Text without `${` comes back unchanged. */
  lemma {:induction false} SubstituteNoReference(s: string, m: Variables)
    requires !Contains(s, "${")
    ensures Substitute(s, m) == s
    decreases |s|
  {
    if |s| > 0 {
      assert ReferenceAt(s).None? by {
        if ReferenceAt(s).Some? {
          assert OccursAt(s, "${", 0);
        }
      }
      assert !Contains(s[1..], "${") by {
        if Contains(s[1..], "${") {
          var i :| 0 <= i <= |s[1..]| - 2 && OccursAt(s[1..], "${", i);
          assert s[i + 1..i + 3] == s[1..][i..i + 2];
          assert OccursAt(s, "${", i + 1);
        }
      }
      SubstituteNoReference(s[1..], m);
    }
  }

  /**
   * Text without `$` is copied, a `${name}` reference (non-empty `name`
   * without `}`) is replaced, and scanning continues after it.
   */
  lemma SubstituteReference(pre: string, name: string, post: string, m: Variables)
    requires '$' !in pre
    requires |name| > 0 && '}' !in name
    ensures Substitute(pre + "${" + name + "}" + post, m) == pre + Replacement(name, m) + Substitute(post, m)
  {
    var ref := "${" + name + "}" + post;
    assert pre + "${" + name + "}" + post == pre + ref;
    SubstitutePrefix(pre, ref, m);
    SubstituteAtReference(name, post, m);
  }

  /** Text without `$` in front of the rest is copied as it is. */
  lemma {:induction false} SubstitutePrefix(pre: string, rest: string, m: Variables)
    requires '$' !in pre
    ensures Substitute(pre + rest, m) == pre + Substitute(rest, m)
    decreases |pre|
  {
    if |pre| == 0 {
      assert pre + rest == rest;
    } else {
      SubstitutePrefix(pre[1..], rest, m);
      ConsConcat(pre, rest);
      SubstitutePlain(pre + rest, m);
      ConsConcat(pre, Substitute(rest, m));
    }
  }

  /** A first character other than `$` is copied. */
  lemma SubstitutePlain(s: string, m: Variables)
    requires |s| > 0 && s[0] != '$'
    ensures Substitute(s, m) == [s[0]] + Substitute(s[1..], m)
  {
  }

  /** A reference at the start of the text is replaced. */
  lemma SubstituteAtReference(name: string, post: string, m: Variables)
    requires |name| > 0 && '}' !in name
    ensures Substitute("${" + name + "}" + post, m) == Replacement(name, m) + Substitute(post, m)
  {
    var s := "${" + name + "}" + post;
    var t := name + "}" + post;
    assert s[2..] == t;
    assert t[..|name|] == name;
    IndexOfFirst(t, '}', |name|);
    assert ReferenceAt(s) == Some(|name|);
    assert s[2..2 + |name|] == name;
    assert s[2 + |name| + 1..] == post;
  }

  /** Whether the resolution loop rewrites a value: it is non-empty and holds `${`. */
  predicate HasReference(v: string) {
    v != "" && Contains(v, "${")
  }

  /** The inner `forEach` body for the entry at index `i`, seeing the map as it is now. */
  function Visit(m: Variables, i: nat): (r: Variables)
    requires i < |m|
    ensures SameKeys(r, m)
    ensures forall j :: 0 <= j < |m| && j != i ==> r[j] == m[j]
    ensures !HasReference(m[i].1) ==> r == m
    ensures HasReference(m[i].1) ==> r[i] == (m[i].0, Substitute(m[i].1, m))
  {
    var v := m[i].1;
    if HasReference(v) then m[i := (m[i].0, Substitute(v, m))] else m
  }

  /** One whole-map pass from index `i` on, each entry seeing the rewrites made before it. */
  function PassFrom(m: Variables, i: nat): (r: Variables)
    requires i <= |m|
    ensures SameKeys(r, m)
    ensures forall j :: 0 <= j < |m| && (j < i || !HasReference(m[j].1)) ==> r[j] == m[j]
    decreases |m| - i
  {
    if i == |m| then m else PassFrom(Visit(m, i), i + 1)
  }

  function Pass(m: Variables): (r: Variables)
    ensures SameKeys(r, m)
    ensures forall j :: 0 <= j < |m| && !HasReference(m[j].1) ==> r[j] == m[j]
  {
    PassFrom(m, 0)
  }

  /** `n` whole-map passes. */
  function Passes(m: Variables, n: nat): (r: Variables)
    ensures SameKeys(r, m)
    ensures forall j :: 0 <= j < |m| && !HasReference(m[j].1) ==> r[j] == m[j]
    decreases n
  {
    if n == 0 then m else Passes(Pass(m), n - 1)
  }

  /**
   * The outer `forEach` runs one pass per key, so a map of `n` keys gets
   * exactly `n` passes; this bounds the work even on cyclic references.
   * No key is added or removed, and a value that holds no reference is
   * never touched.
   */
  function Resolve(m: Variables): (r: Variables)
    ensures SameKeys(r, m)
    ensures forall j :: 0 <= j < |m| && !HasReference(m[j].1) ==> r[j] == m[j]
  {
    Passes(m, |m|)
  }

  /*
   * What resolution does to one reference
   */

  /** A value that is exactly one `${name}` reference. */
  function Ref(name: string): string {
    "${" + name + "}"
  }

  lemma RefHasReference(name: string)
    ensures HasReference(Ref(name))
  {
    assert OccursAt(Ref(name), "${", 0);
  }

  /**
   * A value that is exactly a reference to the key at `a`, whose value is
   * non-empty and holds no reference, becomes that value in the pass that
   * reaches it, and stays so for the rest of the pass.
   */
  lemma {:induction false} PassFromReplaces(m: Variables, i: nat, j: nat, a: nat, name: string)
    requires DistinctKeys(m) && i <= j < |m| && a < |m|
    requires |name| > 0 && '}' !in name
    requires m[j].1 == Ref(name) && m[a].0 == name
    requires m[a].1 != "" && !HasReference(m[a].1)
    ensures PassFrom(m, i)[j].1 == m[a].1
    decreases j - i
  {
    RefHasReference(name);
    var m' := Visit(m, i);
    SameKeysDistinct(m', m);
    assert PassFrom(m, i) == PassFrom(m', i + 1);
    if i == j {
      GetDistinct(m, a);
      SubstituteWhole(name, m);
      assert PassFrom(m', i + 1)[j] == m'[j];
    } else {
      assert m'[a] == m[a];
      PassFromReplaces(m', i + 1, j, a, name);
    }
  }

  /** A reference whose name is no key stays as it is through a pass. */
  lemma {:induction false} PassFromKeepsMissing(m: Variables, i: nat, j: nat, name: string)
    requires i <= |m| && j < |m|
    requires |name| > 0 && '}' !in name
    requires m[j].1 == Ref(name) && !HasKey(m, name)
    ensures PassFrom(m, i)[j].1 == Ref(name)
    decreases |m| - i
  {
    if i < |m| {
      var m' := Visit(m, i);
      SameKeysHasKey(m', m, name);
      if i == j {
        RefHasReference(name);
        SubstituteWhole(name, m);
      }
      PassFromKeepsMissing(m', i + 1, j, name);
    }
  }

  lemma {:induction false} PassesKeepMissing(m: Variables, n: nat, j: nat, name: string)
    requires j < |m| && |name| > 0 && '}' !in name
    requires m[j].1 == Ref(name) && !HasKey(m, name)
    ensures Passes(m, n)[j].1 == Ref(name)
    decreases n
  {
    if n > 0 {
      var p := Pass(m);
      PassFromKeepsMissing(m, 0, j, name);
      assert p[j].1 == Ref(name);
      SameKeysHasKey(p, m, name);
      PassesKeepMissing(p, n - 1, j, name);
      assert Passes(m, n) == Passes(p, n - 1);
    }
  }

  /**
   * Resolution replaces a value that is exactly `${name}` with the value of
   * `name`, when that value is non-empty and holds no reference itself.
   */
  lemma ResolveReplaces(m: Variables, j: nat, name: string)
    requires DistinctKeys(m) && j < |m|
    requires |name| > 0 && '}' !in name && m[j].1 == Ref(name)
    requires Get(m, name).Some? && Get(m, name).value != "" && !HasReference(Get(m, name).value)
    ensures Resolve(m)[j].1 == Get(m, name).value
  {
    var a := GetSome(m, name);
    PassFromReplaces(m, 0, j, a, name);
    var p := Pass(m);
    assert !HasReference(p[j].1);
    assert Resolve(m) == Passes(p, |m| - 1);
  }

  /** Resolution leaves a value that is exactly `${name}` as it is when `name` is no key. */
  lemma ResolveKeepsMissing(m: Variables, j: nat, name: string)
    requires j < |m| && |name| > 0 && '}' !in name
    requires m[j].1 == Ref(name) && !HasKey(m, name)
    ensures Resolve(m)[j].1 == Ref(name)
  {
    PassesKeepMissing(m, |m|, j, name);
  }

  /** `parseOriginsExternalVariables`: parse, then resolve. */
  function ParseOriginsExternalVariables(text: string): (r: Variables)
    ensures DistinctKeys(r)
    ensures SameKeys(r, ParseAssignments(text))
  {
    var m := ParseAssignments(text);
    SetAllDistinct([], Assignments(Split(text, '\n')));
    SameKeysDistinct(Resolve(m), m);
    Resolve(m)
  }

  /*
   * Worked examples
   */

  lemma {:induction false} AssignmentsAppend(a: seq<string>, b: seq<string>)
    ensures Assignments(a + b) == Assignments(a) + Assignments(b)
    decreases |a|
  {
    if |a| > 0 {
      ConsAppend(a, b);
      AssignmentsAppend(a[1..], b);
      match ParseLine(a[0])
      case None =>
      case Some(e) => AppendAssoc([e], Assignments(a[1..]), Assignments(b));
    } else {
      AppendEmpty(b);
    }
  }

  /** A key is defined after parsing exactly when some line assigns it. */
  lemma ParsedKeys(text: string, k: string)
    ensures HasKey(ParseOriginsExternalVariables(text), k) <==> HasKey(Assignments(Split(text, '\n')), k)
  {
    var es := Assignments(Split(text, '\n'));
    SetAllKeysPrefix([], es);
    SameKeysHasKey(ParseOriginsExternalVariables(text), ParseAssignments(text), k);
  }

  /** A key whose last assignment holds no reference keeps that value through resolution. */
  lemma PlainValueKept(text: string, k: string, v: string)
    requires LastValue(Assignments(Split(text, '\n')), k) == Some(v)
    requires !HasReference(v)
    ensures Get(ParseOriginsExternalVariables(text), k) == Some(v)
  {
    var m := ParseAssignments(text);
    var r := ParseOriginsExternalVariables(text);
    SetAllLookup([], Assignments(Split(text, '\n')), k);
    var i := GetSome(m, k);
    assert r[i] == m[i];
    GetDistinct(r, i);
  }

  /**
   * A key whose last assignment is exactly `${name}` ends up with the value
   * of `name`, when that value is non-empty and holds no reference.
   */
  lemma ReferenceResolved(text: string, k: string, name: string, v: string)
    requires |name| > 0 && '}' !in name
    requires LastValue(Assignments(Split(text, '\n')), k) == Some(Ref(name))
    requires LastValue(Assignments(Split(text, '\n')), name) == Some(v)
    requires v != "" && !HasReference(v)
    ensures Get(ParseOriginsExternalVariables(text), k) == Some(v)
  {
    var m := ParseAssignments(text);
    var r := ParseOriginsExternalVariables(text);
    SetAllLookup([], Assignments(Split(text, '\n')), k);
    SetAllLookup([], Assignments(Split(text, '\n')), name);
    var i := GetSome(m, k);
    ResolveReplaces(m, i, name);
    assert r[i] == (k, v);
    GetDistinct(r, i);
  }

  /** A value that is exactly one reference is replaced as a whole. */
  lemma SubstituteWhole(name: string, m: Variables)
    requires |name| > 0 && '}' !in name
    ensures Substitute("${" + name + "}", m) == Replacement(name, m)
  {
    SubstituteAtReference(name, "", m);
    AppendEmpty("${" + name + "}");
    AppendEmpty(Replacement(name, m));
  }

  lemma ExampleFirstPass()
    ensures Pass([("a", "1"), ("b", "${a}-2")]) == [("a", "1"), ("b", "1-2")]
  {
    var m: Variables := [("a", "1"), ("b", "${a}-2")];
    var r: Variables := [("a", "1"), ("b", "1-2")];
    assert !HasReference("1");
    assert Visit(m, 0) == m;
    ExampleSubstitute();
    assert Contains("${a}-2", "${") by {
      assert OccursAt("${a}-2", "${", 0);
    }
    assert Visit(m, 1) == r;
  }

  /** `${a}-2` with `a` set to `1` gives `1-2`. */
  lemma ExampleSubstitute()
    ensures Substitute("${a}-2", [("a", "1"), ("b", "${a}-2")]) == "1-2"
  {
    var m: Variables := [("a", "1"), ("b", "${a}-2")];
    SubstituteReference("", "a", "-2", m);
    ExampleLiterals();
    assert !Contains("-2", "${") by {
      assert !OccursAt("-2", "${", 0);
    }
    SubstituteNoReference("-2", m);
    assert Get(m, "a") == Some("1");
    assert Replacement("a", m) == "1";
  }

  lemma ExampleLiterals()
    ensures "" + "${" + "a" + "}" + "-2" == "${a}-2"
    ensures "" + "1" + "-2" == "1-2"
  {
  }

  lemma ExampleSecondPass()
    ensures Pass([("a", "1"), ("b", "1-2")]) == [("a", "1"), ("b", "1-2")]
  {
    assert !HasReference("1");
    assert !HasReference("1-2") by {
      assert "1-2"[0] == '1' && "1-2"[1] == '-';
    }
  }

  /** A reference to an earlier key is replaced by its value. */
  lemma ExampleResolve()
    ensures Resolve([("a", "1"), ("b", "${a}-2")]) == [("a", "1"), ("b", "1-2")]
  {
    ExampleFirstPass();
    ExampleSecondPass();
    var r: Variables := [("a", "1"), ("b", "1-2")];
    assert Passes(r, 1) == Passes(r, 0);
  }

  lemma ExampleCycleVisitA()
    ensures Visit([("a", "${b}"), ("b", "${a}")], 0) == [("a", "${a}"), ("b", "${a}")]
  {
    var m: Variables := [("a", "${b}"), ("b", "${a}")];
    assert Contains("${b}", "${") by {
      assert OccursAt("${b}", "${", 0);
    }
    SubstituteWhole("b", m);
    assert "${" + "b" + "}" == "${b}";
    assert Get(m, "b") == Some("${a}");
  }

  lemma ExampleCycleVisitB()
    ensures Visit([("a", "${a}"), ("b", "${a}")], 1) == [("a", "${a}"), ("b", "${a}")]
  {
    var m1: Variables := [("a", "${a}"), ("b", "${a}")];
    assert Contains("${a}", "${") by {
      assert OccursAt("${a}", "${", 0);
    }
    SubstituteWhole("a", m1);
    assert "${" + "a" + "}" == "${a}";
    assert Get(m1, "a") == Some("${a}");
  }

  lemma ExampleCycleFirstPass()
    ensures Pass([("a", "${b}"), ("b", "${a}")]) == [("a", "${a}"), ("b", "${a}")]
  {
    ExampleCycleVisitA();
    ExampleCycleVisitB();
  }

  lemma ExampleCycleSecondPass()
    ensures Pass([("a", "${a}"), ("b", "${a}")]) == [("a", "${a}"), ("b", "${a}")]
  {
    var m1: Variables := [("a", "${a}"), ("b", "${a}")];
    assert Contains("${a}", "${") by {
      assert OccursAt("${a}", "${", 0);
    }
    SubstituteWhole("a", m1);
    assert "${" + "a" + "}" == "${a}";
    assert Get(m1, "a") == Some("${a}");
    assert Visit(m1, 0) == m1;
    assert Visit(m1, 1) == m1;
  }

  /**
   * Two keys that refer to each other: the fixed number of passes ends the
   * cycle with both values naming the first key.
   */
  lemma ExampleCycle()
    ensures Resolve([("a", "${b}"), ("b", "${a}")]) == [("a", "${a}"), ("b", "${a}")]
  {
    ExampleCycleFirstPass();
    ExampleCycleSecondPass();
    var m1: Variables := [("a", "${a}"), ("b", "${a}")];
    assert Passes(m1, 1) == Passes(m1, 0);
  }

  /*
   * Structured view
   */

  const CastEntryPrefix := "cast.entry."
  const RoomCastPrefix := "room.cast."

  /** The Origins URLs and indexed cast groups read from the resolved variables. */
  datatype OriginsExternalVariables = OriginsExternalVariables(
    flashDynamicDownloadUrl: Option<string>,
    externalTextsUrl: Option<string>,
    externalFigurepartlistUrl: Option<string>,
    externalOverrideTextsUrl: Option<string>,
    castEntries: OMap<string, string>,
    roomCasts: OMap<string, string>,
    imageLibraryUrl: Option<string>)

  /** The entries whose key starts with `prefix`, re-keyed by the rest of the key, in map order. */
  function Group(vars: Variables, prefix: string): (g: OMap<string, string>)
    ensures |g| <= |vars|
  {
    if |vars| == 0 then []
    else
      var e := vars[|vars| - 1];
      Group(vars[..|vars| - 1], prefix) + (if StartsWith(e.0, prefix) then [(e.0[|prefix|..], e.1)] else [])
  }

  /**
   * The `forEach` that fills `castEntries` and `roomCasts` with `Map.set`,
   * from entry `i` on. `key.replace(prefix, "")` on a key that starts with
   * `prefix` removes exactly that leading occurrence.
   */
  function CollectGroups(vars: Variables, i: nat, castEntries: OMap<string, string>, roomCasts: OMap<string, string>)
    : (OMap<string, string>, OMap<string, string>)
    requires i <= |vars|
    decreases |vars| - i
  {
    if i == |vars| then (castEntries, roomCasts)
    else
      var (k, v) := vars[i];
      if StartsWith(k, CastEntryPrefix) then
        CollectGroups(vars, i + 1, Set(castEntries, k[|CastEntryPrefix|..], v), roomCasts)
      else if StartsWith(k, RoomCastPrefix) then
        CollectGroups(vars, i + 1, castEntries, Set(roomCasts, k[|RoomCastPrefix|..], v))
      else
        CollectGroups(vars, i + 1, castEntries, roomCasts)
  }

  /** `extractOriginsVariables`: the five exact-key lookups and the two prefix groups. */
  function ExtractOriginsVariables(vars: Variables): OriginsExternalVariables {
    var (castEntries, roomCasts) := CollectGroups(vars, 0, [], []);
    OriginsExternalVariables(
      Get(vars, "flash.dynamic.download.url"),
      Get(vars, "external.texts.txt"),
      Get(vars, "external.figurepartlist.txt"),
      Get(vars, "external.override.texts.txt"),
      castEntries,
      roomCasts,
      Get(vars, "image.library.url"))
  }

  /** Every key of a group is the rest of a variable key that carries the prefix. */
  lemma {:induction false} GroupKeysFrom(vars: Variables, prefix: string, s: string)
    requires HasKey(Group(vars, prefix), s)
    ensures HasKey(vars, prefix + s)
    decreases |vars|
  {
    var init := vars[..|vars| - 1];
    var e := vars[|vars| - 1];
    var g := Group(init, prefix);
    var tail: OMap<string, string> := if StartsWith(e.0, prefix) then [(e.0[|prefix|..], e.1)] else [];
    assert Group(vars, prefix) == g + tail;
    var x :| 0 <= x < |g + tail| && (g + tail)[x].0 == s;
    if x < |g| {
      assert g[x].0 == s;
      GroupKeysFrom(init, prefix, s);
      var y :| 0 <= y < |init| && init[y].0 == prefix + s;
      assert vars[y].0 == prefix + s;
    } else {
      assert e.0 == prefix + e.0[|prefix|..];
      assert vars[|vars| - 1].0 == prefix + s;
    }
  }

  lemma GroupStep(vars: Variables, i: nat, prefix: string)
    requires i < |vars|
    ensures Group(vars[..i + 1], prefix) == Group(vars[..i], prefix)
      + (if StartsWith(vars[i].0, prefix) then [(vars[i].0[|prefix|..], vars[i].1)] else [])
  {
    assert vars[..i + 1][..i] == vars[..i];
  }

  /** With distinct keys a prefix group never sees its new key twice, so `Map.set` appends. */
  lemma GroupSetAppends(vars: Variables, i: nat, prefix: string)
    requires DistinctKeys(vars) && i < |vars| && StartsWith(vars[i].0, prefix)
    ensures Set(Group(vars[..i], prefix), vars[i].0[|prefix|..], vars[i].1)
         == Group(vars[..i], prefix) + [(vars[i].0[|prefix|..], vars[i].1)]
  {
    var g := Group(vars[..i], prefix);
    var s := vars[i].0[|prefix|..];
    assert vars[i].0 == prefix + s;
    assert !HasKey(g, s) by {
      if HasKey(g, s) {
        GroupKeysFrom(vars[..i], prefix, s);
        assert false;
      }
    }
    SetFresh(g, s, vars[i].1);
  }

  lemma {:induction false} CollectGroupsIsGroup(vars: Variables, i: nat)
    requires DistinctKeys(vars) && i <= |vars|
    ensures CollectGroups(vars, i, Group(vars[..i], CastEntryPrefix), Group(vars[..i], RoomCastPrefix))
         == (Group(vars, CastEntryPrefix), Group(vars, RoomCastPrefix))
    decreases |vars| - i
  {
    if i == |vars| {
      assert vars[..i] == vars;
    } else {
      CollectGroupsStep(vars, i);
      CollectGroupsIsGroup(vars, i + 1);
    }
  }

  /** One entry of the `forEach` extends the two groups by that entry. */
  lemma CollectGroupsStep(vars: Variables, i: nat)
    requires DistinctKeys(vars) && i < |vars|
    ensures CollectGroups(vars, i, Group(vars[..i], CastEntryPrefix), Group(vars[..i], RoomCastPrefix))
         == CollectGroups(vars, i + 1, Group(vars[..i + 1], CastEntryPrefix), Group(vars[..i + 1], RoomCastPrefix))
  {
    var k := vars[i].0;
    GroupStep(vars, i, CastEntryPrefix);
    GroupStep(vars, i, RoomCastPrefix);
    PrefixesExclusive(k);
    var ce, rc := Group(vars[..i], CastEntryPrefix), Group(vars[..i], RoomCastPrefix);
    if StartsWith(k, CastEntryPrefix) {
      GroupSetAppends(vars, i, CastEntryPrefix);
      assert rc + [] == rc;
    } else if StartsWith(k, RoomCastPrefix) {
      GroupSetAppends(vars, i, RoomCastPrefix);
      assert ce + [] == ce;
    } else {
      assert ce + [] == ce && rc + [] == rc;
    }
  }

  /** No key starts with both prefixes. */
  lemma PrefixesExclusive(k: string)
    ensures !(StartsWith(k, CastEntryPrefix) && StartsWith(k, RoomCastPrefix))
  {
    if StartsWith(k, CastEntryPrefix) {
      assert k[0] == CastEntryPrefix[0] == 'c';
      assert RoomCastPrefix[0] == 'r';
    }
  }

  /**
   * `castEntries` and `roomCasts` hold exactly the `cast.entry.` and
   * `room.cast.` variables, keyed by the rest of the key, in map order.
   */
  lemma ExtractGroups(vars: Variables)
    requires DistinctKeys(vars)
    ensures ExtractOriginsVariables(vars).castEntries == Group(vars, CastEntryPrefix)
    ensures ExtractOriginsVariables(vars).roomCasts == Group(vars, RoomCastPrefix)
  {
    assert vars[..0] == [];
    CollectGroupsIsGroup(vars, 0);
  }

  /*
   * Validation of the required URLs
   */

  const FlashUrlError := "Invalid flash.dynamic.download.url"
  const FigurepartlistUrlError := "Invalid external.figurepartlist.txt url"

  /** A JavaScript truthy string: present and non-empty. */
  predicate Truthy(v: Option<string>) {
    v.Some? && v.value != ""
  }

  /**
   * `getOriginsExternalVariableUrls` once the fetched text is in hand: the
   * structured view when both required URLs are non-empty, else the error
   * for the first one missing.
   */
  function GetOriginsExternalVariableUrls(text: string): (r: Result<OriginsExternalVariables, string>)
    ensures var vars := ParseOriginsExternalVariables(text);
      r.Success? <==> Truthy(Get(vars, "flash.dynamic.download.url")) && Truthy(Get(vars, "external.figurepartlist.txt"))
    ensures r.Success? ==> r.value == ExtractOriginsVariables(ParseOriginsExternalVariables(text))
    ensures var vars := ParseOriginsExternalVariables(text);
      !Truthy(Get(vars, "flash.dynamic.download.url")) ==> r == Failure(FlashUrlError)
    ensures var vars := ParseOriginsExternalVariables(text);
      Truthy(Get(vars, "flash.dynamic.download.url")) && !Truthy(Get(vars, "external.figurepartlist.txt"))
      ==> r == Failure(FigurepartlistUrlError)
  {
    var variables := ExtractOriginsVariables(ParseOriginsExternalVariables(text));
    if !Truthy(variables.flashDynamicDownloadUrl) then Failure(FlashUrlError)
    else if !Truthy(variables.externalFigurepartlistUrl) then Failure(FigurepartlistUrlError)
    else Success(variables)
  }
}

=== FILE: figure_bundles.dfy ===
/**
 * The manifest written into each figure bundle, and the conversion of one
 * directory of part images into a bundle.
 */
module FigureBundles {
  import opened Core
  import opened Text
  import Paths
  import opened OrderedMaps
  import opened FigureToShroom
  import OriginsFigure

  type BundleEntry = OriginsFigure.BundleEntry

  /*
   * The manifest.
   */

  /** Registration points read from `Members.csv`, keyed by asset name. */
  type Registrations = OMap<string, (int, int)>

  /** One `<asset>` of the manifest: its name and its offset. */
  datatype Asset = Asset(name: string, x: int, y: int)

  /** The accepted names among `pngFiles`, in order. */
  function Accepted(pngFiles: seq<string>): (r: seq<string>)
    ensures |r| <= |pngFiles|
    ensures forall i :: 0 <= i < |r| ==> ParsePngFilename(r[i]).Some?
  {
    if |pngFiles| == 0 then []
    else (if ParsePngFilename(pngFiles[0]).Some? then [pngFiles[0]] else []) + Accepted(pngFiles[1..])
  }

  /** The asset of an accepted name: named as its bundle entry without `.png`, offset from the registrations or `0,0`. */
  function AssetFor(pngFile: string, reg: Registrations): (a: Asset)
    requires ParsePngFilename(pngFile).Some?
    ensures a.name + PngSuffix == EntryName(pngFile)
  {
    AcceptedHasAssetName(pngFile);
    var name := AssetName(pngFile);
    var (x, y) := Get(reg, name).GetOr((0, 0));
    Asset(name, x, y)
  }

  /**
   * The asset takes the name the manifest code writes whenever `.png` occurs
   * in the file name only as its ending; its offset is the registration
   * under that name, or `0,0`.
   */
  lemma AssetForAsWritten(pngFile: string, reg: Registrations)
    requires ParsePngFilename(pngFile).Some?
    requires FindFrom(pngFile, PngSuffix, 0) == Some(|pngFile| - |PngSuffix|)
    ensures AssetFor(pngFile, reg).name == AssetNameAsWritten(pngFile)
    ensures var a := AssetFor(pngFile, reg);
      (a.x, a.y) == Get(reg, AssetNameAsWritten(pngFile)).GetOr((0, 0))
  {
    AssetNamesAgree(pngFile);
  }

  /** The manifest's assets: one per accepted name, in order. */
  function ManifestAssets(pngFiles: seq<string>, reg: Registrations): (r: seq<Asset>)
    ensures |r| == |Accepted(pngFiles)|
  {
    var acc := Accepted(pngFiles);
    seq(|acc|, i requires 0 <= i < |acc| => AssetFor(acc[i], reg))
  }

  function ManifestHeader(dirName: string): string {
    "<?xml version=\"1.0\" encoding=\"ISO-8859-1\" ?>\n"
    + "  <library name=\"" + dirName + "\" version=\"0.1\">\n"
    + "    <assets>\n"
  }

  const ManifestFooter: string := "    </assets>\n  </library>\n</manifest>"

  function AssetXml(a: Asset): string {
    "      <asset name=\"" + a.name + "\" mimeType=\"image/png\">\n"
    + "        <param key=\"offset\" value=\"" + IntToString(a.x) + "," + IntToString(a.y) + "\"/>\n"
    + "      </asset>\n"
  }

  /** The asset blocks, one per asset, in order. */
  function RenderAssets(assets: seq<Asset>): string {
    Concat(seq(|assets|, i requires 0 <= i < |assets| => AssetXml(assets[i])))
  }

  /** `generateManifest(dirName, pngFiles)` with the registration points `Members.csv` gave. */
  function GenerateManifest(dirName: string, pngFiles: seq<string>, reg: Registrations): (m: string)
    ensures StartsWith(m, ManifestHeader(dirName))
    ensures EndsWith(m, ManifestFooter)
  {
    var head, body := ManifestHeader(dirName), RenderAssets(ManifestAssets(pngFiles, reg));
    Framed(head, body, ManifestFooter);
    head + body + ManifestFooter
  }

  /** A name is accepted-and-listed exactly when it is listed and accepted; order is kept. */
  lemma {:induction false} AcceptedMembers(pngFiles: seq<string>, f: string)
    ensures f in Accepted(pngFiles) <==> f in pngFiles && ParsePngFilename(f).Some?
    decreases |pngFiles|
  {
    if |pngFiles| > 0 {
      AcceptedMembers(pngFiles[1..], f);
      assert pngFiles == [pngFiles[0]] + pngFiles[1..];
    }
  }

  /** Each asset's offset is its registration point, or `0,0` when its name has none. */
  lemma AssetOffsets(pngFiles: seq<string>, reg: Registrations, i: nat)
    requires i < |ManifestAssets(pngFiles, reg)|
    ensures var a := ManifestAssets(pngFiles, reg)[i];
      (HasKey(reg, a.name) ==> (a.x, a.y) == Get(reg, a.name).value)
      && (!HasKey(reg, a.name) ==> a.x == 0 && a.y == 0)
  {
  }

  /** The manifest holds one block per accepted name. */
  lemma ManifestHoldsAssets(dirName: string, pngFiles: seq<string>, reg: Registrations, i: nat)
    requires i < |ManifestAssets(pngFiles, reg)|
    ensures Contains(GenerateManifest(dirName, pngFiles, reg), AssetXml(ManifestAssets(pngFiles, reg)[i]))
  {
    var assets := ManifestAssets(pngFiles, reg);
    var body := RenderAssets(assets);
    var blocks := seq(|assets|, k requires 0 <= k < |assets| => AssetXml(assets[k]));
    ConcatContains(blocks, i);
    ContainsInfix(ManifestHeader(dirName), body, ManifestFooter);
    ContainsTransitive(GenerateManifest(dirName, pngFiles, reg), body, AssetXml(assets[i]));
  }

  /*
   * One directory.
   */

  const SourceDir: string := "public/habbo_assets/cst/client_163/dump-target"
  const OutputDir: string := "public/habbo_assets/cst-output"
  const FigureOutputDir: string := "public/habbo_assets/cst-output/figure"
  const ManifestEntry: string := "manifest.bin"

  /** What a directory listing says of one entry. */
  datatype EntryKind = RegularFile | Directory | OtherKind
  datatype DirEntry = DirEntry(name: string, kind: EntryKind)

  /** The regular files whose names end in `.png` (case-sensitively), in listing order. */
  function PngFiles(entries: seq<DirEntry>): (r: seq<string>)
    ensures |r| <= |entries|
    ensures forall i :: 0 <= i < |r| ==> EndsWith(r[i], PngSuffix)
  {
    if |entries| == 0 then []
    else
      var e := entries[0];
      (if e.kind == RegularFile && EndsWith(e.name, PngSuffix) then [e.name] else []) + PngFiles(entries[1..])
  }

  /** `.png` files are exactly the regular files whose name ends in `.png`. */
  lemma {:induction false} PngFilesMembers(entries: seq<DirEntry>, n: string)
    ensures n in PngFiles(entries) <==> DirEntry(n, RegularFile) in entries && EndsWith(n, PngSuffix)
    decreases |entries|
  {
    if |entries| > 0 {
      PngFilesMembers(entries[1..], n);
      assert entries == [entries[0]] + entries[1..];
    }
  }

  /** `discoverFigurePartDirectories`: the directories named `hh_human_…`; none when the listing fails. */
  function DiscoverDirectories(listing: Result<seq<DirEntry>, string>): (r: seq<string>)
    ensures listing.Failure? ==> r == []
  {
    if listing.Failure? then [] else HumanDirectories(listing.value)
  }

  function HumanDirectories(entries: seq<DirEntry>): (r: seq<string>)
    ensures |r| <= |entries|
  {
    if |entries| == 0 then []
    else
      var e := entries[0];
      (if e.kind == Directory && StartsWith(e.name, "hh_human_") then [e.name] else []) + HumanDirectories(entries[1..])
  }

  lemma {:induction false} HumanDirectoriesMembers(entries: seq<DirEntry>, n: string)
    ensures n in HumanDirectories(entries) <==> DirEntry(n, Directory) in entries && StartsWith(n, "hh_human_")
    decreases |entries|
  {
    if |entries| > 0 {
      HumanDirectoriesMembers(entries[1..], n);
      assert entries == [entries[0]] + entries[1..];
    }
  }

  /** What the outside world gives while one directory is converted. */
  datatype DirWorld = DirWorld(
    accessible: bool,
    listing: Result<seq<DirEntry>, string>,
    read: string -> Result<Bytes, string>,
    clean: Bytes -> Bytes,
    reg: Registrations,
    utf8: string -> Bytes,
    mkdir: Outcome<string>,
    write: Outcome<string>)

  /** How converting one directory ends. */
  datatype DirResult =
    | Converted(partType: string, fileCount: nat, outputFile: string, bundle: seq<BundleEntry>)
    | Failed(error: string)

  /** The image entries: each accepted name whose file reads, under its entry name, background removed. */
  function Images(sourceDir: string, pngFiles: seq<string>, w: DirWorld): (r: seq<BundleEntry>)
    ensures |r| <= |pngFiles|
  {
    if |pngFiles| == 0 then []
    else ImageOf(sourceDir, pngFiles[0], w) + Images(sourceDir, pngFiles[1..], w)
  }

  /** What file `f` adds to the bundle: its entry when it is stored, else nothing. */
  function ImageOf(sourceDir: string, f: string, w: DirWorld): (r: seq<BundleEntry>)
    ensures |r| <= 1
  {
    if Stored(sourceDir, f, w) then [Entry(sourceDir, f, w)] else []
  }

  /** Image `f` of the directory is converted and stored. */
  predicate Stored(sourceDir: string, f: string, w: DirWorld) {
    ParsePngFilename(f).Some? && w.read(Paths.Join(sourceDir, f)).Success?
  }

  /** The bundle entry of a stored image: its entry name and the file's bytes with the background removed. */
  function Entry(sourceDir: string, f: string, w: DirWorld): BundleEntry
    requires Stored(sourceDir, f, w)
  {
    OriginsFigure.BundleEntry(EntryName(f), w.clean(w.read(Paths.Join(sourceDir, f)).value))
  }

  /** `processDirectory(dirName)`. */
  function ProcessDirectory(dirName: string, w: DirWorld): (r: DirResult)
    ensures r.Converted? ==> r.outputFile == Paths.Join(FigureOutputDir, dirName + ".shroom")
    ensures r.Converted? ==> r.fileCount > 0 && |r.bundle| == r.fileCount + 1
    ensures r.Converted? ==> r.bundle[r.fileCount].name == ManifestEntry
    ensures !w.accessible ==> r == Failed("Directory not found: " + Paths.Join(SourceDir, dirName))
  {
    var sourceDir := Paths.Join(SourceDir, dirName);
    if !w.accessible then Failed("Directory not found: " + sourceDir)
    else if w.listing.Failure? then Failed("Processing failed: " + w.listing.error)
    else
      var pngFiles := PngFiles(w.listing.value);
      if |pngFiles| == 0 then Failed("No PNG files found in directory")
      else if ParsePngFilename(pngFiles[0]).None? then Failed("Invalid PNG filename format: " + pngFiles[0])
      else
        var images := Images(sourceDir, pngFiles, w);
        if |images| == 0 then Failed("No PNG files could be processed")
        else Package(dirName, ParsePngFilename(pngFiles[0]).value.partType, pngFiles, images, w)
  }

  /** The last steps of `processDirectory`: add the manifest, create the output directory, write the bundle. */
  function Package(dirName: string, partType: string, pngFiles: seq<string>, images: seq<BundleEntry>, w: DirWorld): (r: DirResult)
    requires |images| > 0
    ensures r.Converted? <==> w.mkdir.Pass? && w.write.Pass?
    ensures r.Converted? ==> r.partType == partType && r.fileCount == |images| && |r.bundle| == r.fileCount + 1
    ensures r.Converted? ==> r.bundle[..|images|] == images && r.bundle[r.fileCount].name == ManifestEntry
    ensures r.Converted? ==> r.outputFile == Paths.Join(FigureOutputDir, dirName + ".shroom")
    ensures r.Converted? ==> r.bundle[r.fileCount].content == w.utf8(GenerateManifest(dirName, pngFiles, w.reg))
  {
    var manifest := GenerateManifest(dirName, pngFiles, w.reg);
    var bundle := images + [OriginsFigure.BundleEntry(ManifestEntry, w.utf8(manifest))];
    if w.mkdir.Fail? then Failed("Processing failed: " + w.mkdir.error)
    else if w.write.Fail? then Failed("Processing failed: " + w.write.error)
    else Converted(partType, |images|, Paths.Join(FigureOutputDir, dirName + ".shroom"), bundle)
  }

  /** Every stored image is an entry of the bundle. */
  lemma {:induction false} ImagesMembers(sourceDir: string, pngFiles: seq<string>, w: DirWorld, i: nat)
    requires i < |pngFiles| && Stored(sourceDir, pngFiles[i], w)
    ensures Entry(sourceDir, pngFiles[i], w) in Images(sourceDir, pngFiles, w)
    decreases |pngFiles|
  {
    var tail := pngFiles[1..];
    var here, rest := ImageOf(sourceDir, pngFiles[0], w), Images(sourceDir, tail, w);
    assert Images(sourceDir, pngFiles, w) == here + rest;
    if i > 0 {
      assert tail[i - 1] == pngFiles[i];
      ImagesMembers(sourceDir, tail, w, i - 1);
    } else {
      assert here == [Entry(sourceDir, pngFiles[0], w)];
    }
  }

  /** Every image entry comes from a stored image. */
  lemma {:induction false} ImagesSound(sourceDir: string, pngFiles: seq<string>, w: DirWorld, e: BundleEntry)
    requires e in Images(sourceDir, pngFiles, w)
    ensures exists i :: 0 <= i < |pngFiles| && Stored(sourceDir, pngFiles[i], w) && e == Entry(sourceDir, pngFiles[i], w)
    decreases |pngFiles|
  {
    var here, rest := ImageOf(sourceDir, pngFiles[0], w), Images(sourceDir, pngFiles[1..], w);
    assert Images(sourceDir, pngFiles, w) == here + rest;
    if e !in here {
      ImagesSound(sourceDir, pngFiles[1..], w, e);
      var i :| 0 <= i < |pngFiles[1..]| && Stored(sourceDir, pngFiles[1..][i], w) && e == Entry(sourceDir, pngFiles[1..][i], w);
      assert pngFiles[i + 1] == pngFiles[1..][i];
    }
  }

  /** No image entry is stored where none of the images could be: a directory of unreadable or unaccepted files fails. */
  lemma {:induction false} ImagesEmpty(sourceDir: string, pngFiles: seq<string>, w: DirWorld)
    ensures |Images(sourceDir, pngFiles, w)| == 0 <==> forall i :: 0 <= i < |pngFiles| ==> !Stored(sourceDir, pngFiles[i], w)
    decreases |pngFiles|
  {
    if |pngFiles| > 0 {
      ImagesEmpty(sourceDir, pngFiles[1..], w);
      assert forall i :: 1 <= i < |pngFiles| ==> pngFiles[i] == pngFiles[1..][i - 1];
    }
  }

  /**
   * A directory converts exactly when it is there, can be listed, holds a
   * `.png` file, its first `.png` file is accepted, some accepted image
   * reads, and the bundle can be written; the part type is the first
   * file's.
   */
  lemma ProcessDirectoryOutcome(dirName: string, w: DirWorld)
    ensures var r := ProcessDirectory(dirName, w);
      var sourceDir := Paths.Join(SourceDir, dirName);
      r.Converted? <==>
        w.accessible && w.listing.Success?
        && |PngFiles(w.listing.value)| > 0 && ParsePngFilename(PngFiles(w.listing.value)[0]).Some?
        && (exists i :: 0 <= i < |PngFiles(w.listing.value)| && Stored(sourceDir, PngFiles(w.listing.value)[i], w))
        && w.mkdir.Pass? && w.write.Pass?
    ensures var r := ProcessDirectory(dirName, w);
      r.Converted? ==> r.partType == ParsePngFilename(PngFiles(w.listing.value)[0]).value.partType
  {
    if w.accessible && w.listing.Success? {
      ImagesEmpty(Paths.Join(SourceDir, dirName), PngFiles(w.listing.value), w);
    }
  }

  /** A converted directory's bundle holds its stored images in listing order, then the manifest. */
  lemma ProcessDirectoryBundle(dirName: string, w: DirWorld)
    ensures var r := ProcessDirectory(dirName, w);
      r.Converted? ==>
        w.listing.Success?
        && r.bundle[..r.fileCount] == Images(Paths.Join(SourceDir, dirName), PngFiles(w.listing.value), w)
        && r.bundle[r.fileCount] == OriginsFigure.BundleEntry(ManifestEntry, w.utf8(GenerateManifest(dirName, PngFiles(w.listing.value), w.reg)))
  {
  }
}

=== FILE: figure_to_shroom.dfy ===
/**
 * The Origins figure converter: part-image file names
 * (`1_std_h_hd_1_0_0.png`), the part-type names, the names files get in a
 * bundle and in its manifest, and the rules by which one directory of part
 * images becomes one `.shroom` bundle.
 */
module FigureToShroom {
  import opened Core
  import opened Text
  import Paths
  import opened OrderedMaps

  /*
   * File names. A part image must match
   * `^(\d+)_([^_]+)_([^_]+)_([^_]+)_(\d+)_(\d+)_(\d+)_*(\d+)*\.png$`.
   * No group can hold an underscore, so once the final `.png` is cut off
   * a match is a split at underscores: seven pieces of the right shapes,
   * then (after one or more underscores, which split into empty pieces)
   * an optional run of digits. Without an underscore after the seventh
   * group, the seventh group takes every digit up to `.png`.
   */

  /** The eight groups of a part-image name; the effect group may be absent. */
  datatype PartInfo = PartInfo(number: string, dunno: string, action: string, partType: string,
                               partId: string, direction: string, frame: string, effect: Option<string>)

  const PngSuffix: string := ".png"

  /** A `[^_]+` group. */
  predicate IsToken(s: string) {
    |s| > 0 && '_' !in s
  }

  /** A possibly empty run of digits. */
  predicate AllDigits(s: string) {
    forall i :: 0 <= i < |s| ==> IsDigit(s[i])
  }

  /** The first seven pieces have the shapes of the first seven groups. */
  predicate HeadShape(pieces: seq<string>) {
    |pieces| >= 7
    && IsDigits(pieces[0]) && IsToken(pieces[1]) && IsToken(pieces[2]) && IsToken(pieces[3])
    && IsDigits(pieces[4]) && IsDigits(pieces[5]) && IsDigits(pieces[6])
  }

  /** What follows the seventh piece: nothing, or empty pieces and then a possibly empty run of digits. */
  predicate TailShape(pieces: seq<string>) {
    |pieces| == 7
    || (|pieces| > 7
        && (forall k :: 7 <= k < |pieces| - 1 ==> pieces[k] == "")
        && AllDigits(pieces[|pieces| - 1]))
  }

  /** The groups of a name whose pieces have the right shapes. */
  function InfoOf(pieces: seq<string>): PartInfo
    requires |pieces| >= 7
  {
    var last := pieces[|pieces| - 1];
    PartInfo(pieces[0], pieces[1], pieces[2], pieces[3], pieces[4], pieces[5], pieces[6],
             if |pieces| == 7 || last == "" then None else Some(last))
  }

  /** `parsePngFilename(filename)`: the groups, or `None` when the name does not match. */
  function ParsePngFilename(name: string): (r: Option<PartInfo>)
    ensures r.Some? ==> EndsWith(name, PngSuffix)
    ensures r.Some? ==> IsToken(r.value.partType) && IsDigits(r.value.partId)
  {
    if !EndsWith(name, PngSuffix) then None
    else
      var pieces := Split(name[..|name| - |PngSuffix|], '_');
      if HeadShape(pieces) && TailShape(pieces) then Some(InfoOf(pieces)) else None
  }

  /** `n` empty pieces: `n + 1` underscores in a row once joined. */
  function Empties(n: nat): (r: seq<string>)
    ensures |r| == n && forall k :: 0 <= k < n ==> r[k] == ""
  {
    seq(n, _ => "")
  }

  /** The pieces of the name spelling `info` with `k` underscores before the effect digits. */
  function PngPieces(info: PartInfo, k: nat): (r: seq<string>)
    ensures |r| == if k == 0 then 7 else 7 + k
  {
    [info.number, info.dunno, info.action, info.partType, info.partId, info.direction, info.frame]
    + (if k == 0 then [] else Empties(k - 1) + [info.effect.GetOr("")])
  }

  /** The file name spelling `info`, with `k` underscores between the frame and the effect digits. */
  function PngName(info: PartInfo, k: nat): string {
    Join(PngPieces(info, k), '_') + PngSuffix
  }

  /** Groups that a name can carry: an effect needs at least one underscore before it. */
  predicate WellFormed(info: PartInfo, k: nat) {
    IsDigits(info.number) && IsToken(info.dunno) && IsToken(info.action) && IsToken(info.partType)
    && IsDigits(info.partId) && IsDigits(info.direction) && IsDigits(info.frame)
    && (info.effect.Some? ==> k >= 1 && IsDigits(info.effect.value))
  }

  /** Digits hold no underscore. */
  lemma DigitsNoUnderscore(s: string)
    requires AllDigits(s)
    ensures '_' !in s
  {
  }

  /** The pieces of a well-formed spelling come back from splitting it. */
  lemma PngPiecesSplit(info: PartInfo, k: nat)
    requires WellFormed(info, k)
    ensures Split(Join(PngPieces(info, k), '_'), '_') == PngPieces(info, k)
  {
    var pieces := PngPieces(info, k);
    DigitsNoUnderscore(info.number);
    DigitsNoUnderscore(info.partId);
    DigitsNoUnderscore(info.direction);
    DigitsNoUnderscore(info.frame);
    if info.effect.Some? {
      DigitsNoUnderscore(info.effect.value);
    }
    forall j | 0 <= j < |pieces|
      ensures '_' !in pieces[j]
    {
      if j >= 7 {
        assert pieces[j] == "" || pieces[j] == info.effect.GetOr("");
      }
    }
    SplitJoin(pieces, '_');
  }

  /** The pieces of a well-formed spelling have the shapes of the groups, and carry them. */
  lemma PngPiecesShape(info: PartInfo, k: nat)
    requires WellFormed(info, k)
    ensures var pieces := PngPieces(info, k);
      HeadShape(pieces) && TailShape(pieces) && InfoOf(pieces) == info
  {
  }

  /** Every name spelled from well-formed groups is accepted, giving back exactly those groups. */
  lemma PngNameComplete(info: PartInfo, k: nat)
    requires WellFormed(info, k)
    ensures ParsePngFilename(PngName(info, k)) == Some(info)
  {
    var body := Join(PngPieces(info, k), '_');
    PngPiecesSplit(info, k);
    PngPiecesShape(info, k);
    var name := PngName(info, k);
    assert EndsWith(name, PngSuffix) && name[..|name| - |PngSuffix|] == body by {
      assert name == body + PngSuffix;
    }
  }

  /** Every accepted name is the spelling of its groups, for some count of underscores before the effect. */
  lemma PngNameSound(name: string) returns (k: nat)
    requires ParsePngFilename(name).Some?
    ensures WellFormed(ParsePngFilename(name).value, k)
    ensures PngName(ParsePngFilename(name).value, k) == name
  {
    var body := name[..|name| - |PngSuffix|];
    var pieces := Split(body, '_');
    var info := InfoOf(pieces);
    k := |pieces| - 7;
    assert pieces == PngPieces(info, k) by {
      if k > 0 {
        assert pieces == pieces[..7] + pieces[7..|pieces| - 1] + [pieces[|pieces| - 1]];
        assert pieces[7..|pieces| - 1] == Empties(k - 1);
      }
    }
    assert name == body + PngSuffix;
  }

  /** Without an underscore before `.png`, the frame group takes every trailing digit. */
  lemma FrameTakesAllDigits(info: PartInfo)
    requires WellFormed(info, 0)
    ensures var r := ParsePngFilename(PngName(info, 0));
      r.Some? && r.value.frame == info.frame && r.value.effect.None?
  {
    PngNameComplete(info, 0);
  }

  /*
   * Part types.
   */

  /** The 23 part codes and their readable names, in the order listed. */
  const PartTypeTable: seq<(string, string)> := [
    ("hr", "hair"), ("hd", "head"), ("bd", "body"), ("ch", "shirt"), ("lg", "leg"), ("sh", "shoe"),
    ("ha", "hats"), ("he", "head_accessory"), ("ea", "eye_accessory"), ("fa", "face_accessory"),
    ("ca", "chest_accessory"), ("wa", "waist_accessory"), ("fc", "face"), ("ey", "eyes"),
    ("ri", "item"), ("li", "left_item"), ("lh", "left_hand"), ("rh", "right_hand"),
    ("ls", "left_sleeve"), ("rs", "right_sleeve"), ("cc", "chest_print"), ("cp", "chest_patch"),
    ("fx", "effects")]

  /** `getPartTypeName(partType)` as evidently meant: the table's name for a listed code, any other code unchanged. */
  function GetPartTypeName(code: string): (r: string)
    ensures HasKey(PartTypeTable, code) ==> r == Get(PartTypeTable, code).value
    ensures !HasKey(PartTypeTable, code) ==> r == code
  {
    Get(PartTypeTable, code).GetOr(code)
  }

  /** The listed codes are pairwise distinct. */
  lemma PartTypeCodesDistinct()
    ensures DistinctKeys(PartTypeTable)
  {
    var t := PartTypeTable;
    assert |t| == 23;
    forall i, j | 0 <= i < j < |t|
      ensures t[i].0 != t[j].0
    {
      assert |t[i].0| == 2 && |t[j].0| == 2;
      assert t[i].0[0] != t[j].0[0] || t[i].0[1] != t[j].0[1];
    }
  }

  /** Each listed code is named by its own row of the table. */
  lemma PartTypeNameListed(i: nat)
    requires i < |PartTypeTable|
    ensures GetPartTypeName(PartTypeTable[i].0) == PartTypeTable[i].1
  {
    PartTypeCodesDistinct();
    GetDistinct(PartTypeTable, i);
  }

  /**
   * What the table lookup gives in JavaScript: the table is a plain
   * object, so besides its own 23 keys it answers for the members every
   * object inherits, each of which is truthy.
   */
  datatype JsValue = Str(s: string) | Inherited(member: string)

  /** The names of the members a plain object inherits from `Object.prototype`. */
  const PrototypeMembers: seq<string> := [
    "constructor", "__defineGetter__", "__defineSetter__", "hasOwnProperty", "__lookupGetter__",
    "__lookupSetter__", "isPrototypeOf", "propertyIsEnumerable", "toString", "valueOf",
    "__proto__", "toLocaleString"]

  /** `partTypeMap[partType] || partType` exactly as written. */
  function GetPartTypeNameAsWritten(code: string): (r: JsValue)
    ensures r.Inherited? <==> !HasKey(PartTypeTable, code) && code in PrototypeMembers
  {
    if HasKey(PartTypeTable, code) then Str(Get(PartTypeTable, code).value)
    else if code in PrototypeMembers then Inherited(code)
    else Str(code)
  }

  /** Away from the inherited member names, the code as written and the evident meaning agree. */
  lemma PartTypeNameAgrees(code: string)
    requires code !in PrototypeMembers
    ensures GetPartTypeNameAsWritten(code) == Str(GetPartTypeName(code))
  {
  }

  /**
   * The part type `constructor` (a valid `[^_]+` group) is looked up as
   * the inherited constructor function rather than coming back unchanged.
   */
  lemma PartTypeNameInherited()
    ensures GetPartTypeNameAsWritten("constructor") == Inherited("constructor")
    ensures GetPartTypeName("constructor") == "constructor"
  {
    assert !HasKey(PartTypeTable, "constructor") by {
      forall i | 0 <= i < |PartTypeTable|
        ensures PartTypeTable[i].0 != "constructor"
      {
        assert |PartTypeTable[i].0| == 2;
      }
    }
    assert PrototypeMembers[0] == "constructor";
  }

  /*
   * Names inside the bundle.
   */

  /** `substring(indexOf('_') + 1)`: the text after the first underscore, or all of it when there is none. */
  function AfterFirstUnderscore(s: string, name: string): (r: string)
    ensures '_' !in name ==> r == s
  {
    match IndexOf(name, '_')
    case None => s
    case Some(i) => if i + 1 <= |s| then s[i + 1..] else ""
  }

  /** The name a part image is stored under in the bundle: its file name after the first underscore. */
  function EntryName(pngFile: string): (r: string)
    ensures '_' in pngFile ==> |r| < |pngFile| && EndsWith(pngFile, r)
  {
    var r := AfterFirstUnderscore(pngFile, pngFile);
    assert '_' in pngFile ==> pngFile[|pngFile| - |r|..] == r;
    r
  }

  /**
   * The asset name in the manifest as written: the first `.png` is
   * removed, then the text is cut at the position of the first underscore
   * of the original name.
   */
  function AssetNameAsWritten(pngFile: string): string {
    AfterFirstUnderscore(ReplaceFirst(pngFile, PngSuffix, ""), pngFile)
  }

  /** The asset name as evidently meant: the bundle entry name without its `.png` ending. */
  function AssetName(pngFile: string): (r: string)
    requires EndsWith(pngFile, PngSuffix) && '_' in pngFile
    ensures r + PngSuffix == EntryName(pngFile)
  {
    var e := EntryName(pngFile);
    assert EndsWith(e, PngSuffix) by {
      assert e[|e| - |PngSuffix|..] == pngFile[|pngFile| - |PngSuffix|..];
    }
    assert e[..|e| - |PngSuffix|] + PngSuffix == e;
    e[..|e| - |PngSuffix|]
  }

  /** Every accepted name has an underscore and ends in `.png`, so it has an asset name. */
  lemma AcceptedHasAssetName(pngFile: string)
    requires ParsePngFilename(pngFile).Some?
    ensures EndsWith(pngFile, PngSuffix) && '_' in pngFile
  {
    var body := pngFile[..|pngFile| - |PngSuffix|];
    var pieces := Split(body, '_');
    assert Join(pieces, '_') == body;
    assert body == pieces[0] + ['_'] + Join(pieces[1..], '_');
    assert pngFile[|pieces[0]|] == '_';
  }

  /**
   * As written, the asset name is the bundle entry name with the first
   * `.png` of the file name cut out, wherever that occurrence is.
   */
  lemma AsWrittenCutsFirstPng(f: string, u: nat, i: nat)
    requires IndexOf(f, '_') == Some(u) && FindFrom(f, PngSuffix, 0) == Some(i) && u < i
    ensures AssetNameAsWritten(f) == EntryName(f)[..i - u - 1] + EntryName(f)[i - u - 1 + |PngSuffix|..]
  {
    var r := ReplaceFirst(f, PngSuffix, "");
    assert r == f[..i] + f[i + |PngSuffix|..];
    assert AssetNameAsWritten(f) == r[u + 1..];
    assert r[u + 1..] == f[u + 1..i] + f[i + |PngSuffix|..];
    var e := EntryName(f);
    assert e == f[u + 1..];
    assert e[..i - u - 1] == f[u + 1..i];
    assert e[i - u - 1 + |PngSuffix|..] == f[i + |PngSuffix|..];
  }

  /**
   * When the only `.png` in the name is its ending, the name as written and
   * the evidently meant one agree.
   */
  lemma AssetNamesAgree(f: string)
    requires ParsePngFilename(f).Some?
    requires FindFrom(f, PngSuffix, 0) == Some(|f| - |PngSuffix|)
    ensures AssetNameAsWritten(f) == AssetName(f)
  {
    AcceptedHasAssetName(f);
    SingleSuffixAgrees(f);
  }

  lemma SingleSuffixAgrees(f: string)
    requires EndsWith(f, PngSuffix) && '_' in f
    requires FindFrom(f, PngSuffix, 0) == Some(|f| - |PngSuffix|)
    ensures AssetNameAsWritten(f) == AssetName(f)
  {
    var i := |f| - |PngSuffix|;
    var u := IndexOf(f, '_').value;
    SuffixNoUnderscore(f, u);
    AsWrittenCutsFirstPng(f, u, i);
    var e := EntryName(f);
    assert |e| == |f| - u - 1;
    assert e[i - u - 1 + |PngSuffix|..] == [];
  }

  /** The `.png` ending holds no underscore. */
  lemma SuffixNoUnderscore(f: string, j: nat)
    requires EndsWith(f, PngSuffix) && j < |f| && f[j] == '_'
    ensures j < |f| - |PngSuffix|
  {
    var i := |f| - |PngSuffix|;
    forall k | i <= k < |f|
      ensures f[k] != '_'
    {
      assert f[k] == f[i..][k - i];
    }
  }

  /** A part-image name with `.png` inside its second group. */
  const DottedName: string := "1_a.png_b_c_2_3_4.png"

  /** The name is accepted: `a.png` is a valid `[^_]+` group. */
  lemma DottedNameAccepted()
    ensures ParsePngFilename(DottedName) == Some(PartInfo("1", "a.png", "b", "c", "2", "3", "4", None))
  {
    var info := PartInfo("1", "a.png", "b", "c", "2", "3", "4", None);
    DottedJoin();
    assert PngPieces(info, 0) == DottedGroups;
    assert PngName(info, 0) == DottedName;
    assert WellFormed(info, 0) by {
      assert IsToken("a.png") by { assert "a.png"[1] == '.'; }
    }
    PngNameComplete(info, 0);
  }

  /** The seven groups of `DottedName`, joined. */
  lemma DottedJoin()
    ensures Join(DottedGroups, '_') == "1_a.png_b_c_2_3_4"
  {
    var g := DottedGroups;
    JoinTail(g, '_', 5);
    JoinTail(g, '_', 4);
    JoinTail(g, '_', 3);
    JoinTail(g, '_', 2);
    JoinTail(g, '_', 1);
    JoinTail(g, '_', 0);
    DottedJoinSteps();
  }

  const DottedGroups: seq<string> := ["1", "a.png", "b", "c", "2", "3", "4"]

  /** Each group of `DottedName` in front of the join of the ones after it. */
  lemma DottedJoinSteps()
    ensures "3" + ['_'] + "4" == "3_4"
    ensures "2" + ['_'] + "3_4" == "2_3_4"
    ensures "c" + ['_'] + "2_3_4" == "c_2_3_4"
    ensures "b" + ['_'] + "c_2_3_4" == "b_c_2_3_4"
    ensures "a.png" + ['_'] + "b_c_2_3_4" == "a.png_b_c_2_3_4"
    ensures "1" + ['_'] + "a.png_b_c_2_3_4" == "1_a.png_b_c_2_3_4"
  {
  }

  /**
   * The manifest names the asset with the wrong `.png` removed: the bundle
   * entry is `a.png_b_c_2_3_4.png`, so the asset should be
   * `a.png_b_c_2_3_4`, but the code as written cuts the `.png` out of the
   * second group and gives `a_b_c_2_3_4.png`.
   */
  lemma DottedNameMismatch()
    ensures EntryName(DottedName) == "a.png_b_c_2_3_4.png"
    ensures AssetNameAsWritten(DottedName) == EntryName(DottedName)[..1] + EntryName(DottedName)[5..]
    ensures AssetName(DottedName) == "a.png_b_c_2_3_4"
  {
    DottedEntryName();
    DottedAsWritten();
    DottedAssetName();
  }

  /** The bundle entry of `DottedName`: everything after its first underscore. */
  lemma DottedEntryName()
    ensures EntryName(DottedName) == "a.png_b_c_2_3_4.png"
  {
    DottedNamePositions();
  }

  /** As written, the `.png` at offset 3 of `DottedName`, inside the entry's first group, is cut. */
  lemma DottedAsWritten()
    ensures AssetNameAsWritten(DottedName) == EntryName(DottedName)[..1] + EntryName(DottedName)[5..]
  {
    DottedNamePositions();
    AsWrittenCutsFirstPng(DottedName, 1, 3);
  }

  /** As meant, only the final `.png` of the entry is dropped. */
  lemma DottedAssetName()
    ensures AssetName(DottedName) == "a.png_b_c_2_3_4"
  {
    DottedEntryName();
    DropSuffix(AssetName(DottedName), PngSuffix, EntryName(DottedName));
  }

  lemma DropSuffix<T>(a: seq<T>, b: seq<T>, c: seq<T>)
    requires a + b == c
    ensures a == c[..|c| - |b|]
  {
    assert c[..|a|] == a;
  }

  /** In `DottedName` the first underscore is at 1 and the first `.png` at 3. */
  lemma DottedNamePositions()
    ensures IndexOf(DottedName, '_') == Some(1)
    ensures FindFrom(DottedName, PngSuffix, 0) == Some(3)
  {
    var f := DottedName;
    assert f[0] == '1';
    assert f[1] == '_';
    assert f[2] == 'a';
    assert f[3..7] == PngSuffix;
    assert IndexOf(f, '_') == Some(1) by {
      assert f[0] != '_';
    }
    assert FindFrom(f, PngSuffix, 0) == Some(3) by {
      assert !OccursAt(f, PngSuffix, 0) by { assert f[0] != PngSuffix[0]; }
      assert !OccursAt(f, PngSuffix, 1) by { assert f[1] != PngSuffix[0]; }
      assert !OccursAt(f, PngSuffix, 2) by { assert f[2] != PngSuffix[0]; }
      assert OccursAt(f, PngSuffix, 3);
    }
  }

  /**
   * The asset name as evidently meant is the bundle entry name without
   * `.png` for every accepted name; the code as written departs from it
   * on `DottedName`.
   */
  lemma AssetNameMismatch()
    ensures ParsePngFilename(DottedName).Some?
    ensures AssetName(DottedName) + PngSuffix == EntryName(DottedName)
    ensures AssetNameAsWritten(DottedName) != AssetName(DottedName)
  {
    DottedNameAccepted();
    DottedNameMismatch();
    var e, w, a := EntryName(DottedName), AssetNameAsWritten(DottedName), AssetName(DottedName);
    DottedEntryChars();
    assert w[1] == e[5];
    assert a[1] != w[1];
  }

  /** The characters of the entry name where the two asset names part. */
  lemma DottedEntryChars()
    ensures "a.png_b_c_2_3_4.png"[5] == '_' && "a.png_b_c_2_3_4"[1] == '.'
  {
  }
}

=== FILE: flood_fill.dfy ===
/**
 * The white-background removal applied to every figure part image: a flood
 * fill started from every edge pixel makes transparent each pure-white
 * pixel that a path of pure-white pixels joins to the edge of the image.
 * The decoded image is a grid of rows of RGBA pixels.
 */
module FloodFill {
  import opened Core

  datatype Pixel = Pixel(r: byte, g: byte, b: byte, a: byte)

  type Grid = seq<seq<Pixel>>

  /** A point is `(x, y)`: column, then row. */
  type Point = (int, int)

  /** `img` has `height` rows of `width` pixels each. */
  predicate Shaped(img: Grid, width: nat, height: nat) {
    |img| == height && forall y :: 0 <= y < height ==> |img[y]| == width
  }

  /** The colour test: red, green and blue all at 255. */
  predicate IsWhite(px: Pixel) {
    px.r >= 255 && px.g >= 255 && px.b >= 255
  }

  /** `p` lies inside `img` and is white there. */
  predicate WhiteAt(img: Grid, p: Point) {
    0 <= p.1 < |img| && 0 <= p.0 < |img[p.1]| && IsWhite(img[p.1][p.0])
  }

  predicate OnBorder(width: nat, height: nat, p: Point) {
    p.0 == 0 || p.0 == width - 1 || p.1 == 0 || p.1 == height - 1
  }

  /** The four points the fill pushes after visiting `p`, in push order. */
  function Neighbours(p: Point): seq<Point> {
    [(p.0 + 1, p.1), (p.0 - 1, p.1), (p.0, p.1 + 1), (p.0, p.1 - 1)]
  }

  predicate Adjacent(p: Point, q: Point) {
    q in Neighbours(p)
  }

  /** A path of white pixels that starts on the border and moves one step left, right, up or down at a time. */
  ghost predicate IsPath(img: Grid, width: nat, height: nat, path: seq<Point>) {
    |path| >= 1 && OnBorder(width, height, path[0])
    && (forall i :: 0 <= i < |path| ==> WhiteAt(img, path[i]))
    && (forall i :: 0 <= i < |path| - 1 ==> Adjacent(path[i], path[i + 1]))
  }

  /** `p` is joined to the border by white pixels: the background the fill removes. */
  ghost predicate Reachable(img: Grid, width: nat, height: nat, p: Point) {
    exists path :: IsPath(img, width, height, path) && path[|path| - 1] == p
  }

  /** The pixel at `p` after the fill marked `visited`: its alpha is 0 if it was visited. */
  function ClearedPixel(img: Grid, visited: set<Point>, x: int, y: int): Pixel
    requires 0 <= y < |img| && 0 <= x < |img[y]|
  {
    if (x, y) in visited then img[y][x].(a := 0) else img[y][x]
  }

  function Cleared(img: Grid, visited: set<Point>): (r: Grid)
    ensures |r| == |img|
    ensures forall y :: 0 <= y < |r| ==> |r[y]| == |img[y]|
  {
    seq(|img|, y requires 0 <= y < |img| =>
      seq(|img[y]|, x requires 0 <= x < |img[y]| => ClearedPixel(img, visited, x, y)))
  }

  /** Every pixel of the image. */
  function Domain(width: nat, height: nat): set<Point> {
    set x: int, y: int | 0 <= x < width && 0 <= y < height :: (x, y)
  }

  /** Every visited pixel is white and joined to the border. */
  ghost predicate Sound(img: Grid, width: nat, height: nat, visited: set<Point>) {
    forall p :: p in visited ==> WhiteAt(img, p) && Reachable(img, width, height, p)
  }

  /** `n` needs no more work: it is not white, already visited, or waiting on the stack. */
  predicate Pending(img: Grid, visited: set<Point>, stack: seq<Point>, n: Point) {
    !WhiteAt(img, n) || n in visited || n in stack
  }

  /** Every white neighbour of a visited pixel is visited or waiting. */
  ghost predicate Closed(img: Grid, visited: set<Point>, stack: seq<Point>) {
    forall q, n :: q in visited && Adjacent(q, n) ==> Pending(img, visited, stack, n)
  }

  lemma ClearedNothing(img: Grid)
    ensures Cleared(img, {}) == img
  {
    var c := Cleared(img, {});
    forall y | 0 <= y < |img|
      ensures c[y] == img[y]
    {
    }
  }

  /** Clearing one more pixel is one alpha update. */
  lemma ClearOne(img: Grid, visited: set<Point>, x: int, y: int)
    requires 0 <= y < |img| && 0 <= x < |img[y]|
    ensures var out: Grid := Cleared(img, visited); var px: Pixel := out[y][x];
      out[y := out[y][x := px.(a := 0)]] == Cleared(img, visited + {(x, y)})
  {
    var out: Grid := Cleared(img, visited);
    var next: Grid := Cleared(img, visited + {(x, y)});
    var px: Pixel := out[y][x];
    var upd: Grid := out[y := out[y][x := px.(a := 0)]];
    assert forall j :: 0 <= j < |img| && j != y ==> upd[j] == next[j];
    assert upd[y] == next[y];
  }

  /** A white neighbour of a reachable pixel is reachable. */
  lemma ReachStep(img: Grid, width: nat, height: nat, s: Point, n: Point)
    requires Reachable(img, width, height, s) && Adjacent(s, n) && WhiteAt(img, n)
    ensures Reachable(img, width, height, n)
  {
    var path :| IsPath(img, width, height, path) && path[|path| - 1] == s;
    var longer := path + [n];
    assert longer[|longer| - 1] == n;
    assert IsPath(img, width, height, longer);
  }

  /** A white border pixel is reachable. */
  lemma ReachBorder(img: Grid, width: nat, height: nat, s: Point)
    requires WhiteAt(img, s) && OnBorder(width, height, s)
    ensures Reachable(img, width, height, s)
  {
    assert IsPath(img, width, height, [s]);
  }

  lemma DomainShrinks(d: set<Point>, visited: set<Point>, s: Point)
    requires s in d && s !in visited
    ensures |d - (visited + {s})| < |d - visited|
  {
    assert d - visited == (d - (visited + {s})) + {s};
  }

  /** Visiting a white pixel `s` and pushing its neighbours keeps every white neighbour of the visited pixels accounted for. */
  lemma ClosedAfterVisit(img: Grid, visited: set<Point>, stack: seq<Point>, s: Point)
    requires |stack| >= 1 && stack[|stack| - 1] == s
    requires Closed(img, visited, stack)
    ensures Closed(img, visited + {s}, stack[..|stack| - 1] + Neighbours(s))
  {
    var rest := stack[..|stack| - 1];
    var next := rest + Neighbours(s);
    forall q, n | q in visited + {s} && Adjacent(q, n)
      ensures Pending(img, visited + {s}, next, n)
    {
      if q == s {
        assert n in Neighbours(s);
      } else if n in stack && n !in visited + {s} {
        assert n in rest by {
          var i :| 0 <= i < |stack| && stack[i] == n;
          assert i != |stack| - 1;
          assert rest[i] == n;
        }
      }
    }
  }

  /** Dropping a popped point that needs no visit keeps the closure. */
  lemma ClosedAfterSkip(img: Grid, visited: set<Point>, stack: seq<Point>)
    requires |stack| >= 1
    requires Pending(img, visited, [], stack[|stack| - 1])
    requires Closed(img, visited, stack)
    ensures Closed(img, visited, stack[..|stack| - 1])
  {
    var rest := stack[..|stack| - 1];
    forall q, n | q in visited && Adjacent(q, n)
      ensures Pending(img, visited, rest, n)
    {
      if n in stack && n != stack[|stack| - 1] {
        var i :| 0 <= i < |stack| && stack[i] == n;
        assert rest[i] == n;
      }
    }
  }

  /** The same, for a single point. */
  lemma PendingAfterVisit(img: Grid, visited: set<Point>, stack: seq<Point>, s: Point, p: Point)
    requires |stack| >= 1 && stack[|stack| - 1] == s
    requires Pending(img, visited, stack, p)
    ensures Pending(img, visited + {s}, stack[..|stack| - 1] + Neighbours(s), p)
    ensures Pending(img, visited + {s}, stack[..|stack| - 1], p)
  {
    if p in stack && p != s {
      var i :| 0 <= i < |stack| && stack[i] == p;
      assert stack[..|stack| - 1][i] == p;
    }
  }

  lemma PendingAfterSkip(img: Grid, visited: set<Point>, stack: seq<Point>, p: Point)
    requires |stack| >= 1
    requires Pending(img, visited, [], stack[|stack| - 1])
    requires Pending(img, visited, stack, p)
    ensures Pending(img, visited, stack[..|stack| - 1], p)
  {
    if p in stack && p != stack[|stack| - 1] {
      var i :| 0 <= i < |stack| && stack[i] == p;
      assert stack[..|stack| - 1][i] == p;
    }
  }

  /** Every white point on the stack is joined to the border. */
  ghost predicate StackReachable(img: Grid, width: nat, height: nat, stack: seq<Point>) {
    forall i :: 0 <= i < |stack| && WhiteAt(img, stack[i]) ==> Reachable(img, width, height, stack[i])
  }

  lemma StackAfterSkip(img: Grid, width: nat, height: nat, stack: seq<Point>)
    requires |stack| >= 1 && StackReachable(img, width, height, stack)
    ensures StackReachable(img, width, height, stack[..|stack| - 1])
  {
    var rest := stack[..|stack| - 1];
    forall i | 0 <= i < |rest| && WhiteAt(img, rest[i])
      ensures Reachable(img, width, height, rest[i])
    {
      assert rest[i] == stack[i];
    }
  }

  lemma StackAfterVisit(img: Grid, width: nat, height: nat, stack: seq<Point>, p: Point)
    requires |stack| >= 1 && StackReachable(img, width, height, stack)
    requires Reachable(img, width, height, p)
    ensures StackReachable(img, width, height, stack[..|stack| - 1] + Neighbours(p))
  {
    StackAfterSkip(img, width, height, stack);
    var rest := stack[..|stack| - 1];
    var next := rest + Neighbours(p);
    forall i | 0 <= i < |next| && WhiteAt(img, next[i])
      ensures Reachable(img, width, height, next[i])
    {
      if i >= |rest| {
        assert next[i] == Neighbours(p)[i - |rest|];
        ReachStep(img, width, height, p, next[i]);
      } else {
        assert next[i] == rest[i];
      }
    }
  }

  /** The fill's bounds-and-colour test on the partly cleared image is the test on the original. */
  lemma WhiteTest(img: Grid, width: nat, height: nat, visited: set<Point>, x: int, y: int)
    requires Shaped(img, width, height)
    ensures (0 <= x < width && 0 <= y < height && IsWhite(Cleared(img, visited)[y][x])) <==> WhiteAt(img, (x, y))
  {
    if 0 <= y < height {
      assert |img[y]| == width;
      if 0 <= x < width {
        assert Cleared(img, visited)[y][x] == ClearedPixel(img, visited, x, y);
      }
    }
  }

  /**
   * `floodFill(startX, startY)`: pops points off a stack, skips those
   * outside the image, already visited or not white, and otherwise marks
   * the point visited, clears its alpha and pushes its four neighbours.
   */
  method Fill(img: Grid, width: nat, height: nat, out: Grid, visited: set<Point>, start: Point)
    returns (out': Grid, visited': set<Point>)
    requires Shaped(img, width, height)
    requires out == Cleared(img, visited)
    requires Sound(img, width, height, visited) && Closed(img, visited, [])
    requires WhiteAt(img, start) ==> OnBorder(width, height, start)
    ensures out' == Cleared(img, visited')
    ensures visited <= visited'
    ensures Sound(img, width, height, visited') && Closed(img, visited', [])
    ensures WhiteAt(img, start) ==> start in visited'
  {
    out', visited' := out, visited;
    var stack := [start];
    ghost var dom := Domain(width, height);
    assert visited' <= dom by {
      forall p | p in visited
        ensures p in Domain(width, height)
      {
        assert |img[p.1]| == width;
      }
    }
    assert StackReachable(img, width, height, stack) by {
      if WhiteAt(img, start) {
        ReachBorder(img, width, height, start);
      }
    }
    while |stack| > 0
      invariant visited <= visited' <= dom
      invariant out' == Cleared(img, visited')
      invariant Sound(img, width, height, visited')
      invariant StackReachable(img, width, height, stack)
      invariant Closed(img, visited', stack)
      invariant Pending(img, visited', stack, start)
      decreases |dom - visited'|, |stack|
    {
      var p := stack[|stack| - 1];
      var (x, y) := p;
      var rest := stack[..|stack| - 1];
      WhiteTest(img, width, height, visited', x, y);
      if x < 0 || x >= width || y < 0 || y >= height || p in visited' || !IsWhite(out'[y][x]) {
        ClosedAfterSkip(img, visited', stack);
        PendingAfterSkip(img, visited', stack, start);
        StackAfterSkip(img, width, height, stack);
        stack := rest;
      } else {
        assert Reachable(img, width, height, p);
        ClosedAfterVisit(img, visited', stack, p);
        PendingAfterVisit(img, visited', stack, p, start);
        StackAfterVisit(img, width, height, stack, p);
        assert p in dom;
        DomainShrinks(dom, visited', p);
        ClearOne(img, visited', x, y);
        var px: Pixel := out'[y][x];
        out' := out'[y := out'[y][x := px.(a := 0)]];
        visited' := visited' + {p};
        stack := rest + Neighbours(p);
      }
    }
  }

  /** Once the visited pixels are closed and hold every white border pixel, they hold every reachable pixel. */
  lemma {:induction false} ClosedHoldsReachable(img: Grid, width: nat, height: nat, visited: set<Point>, path: seq<Point>)
    requires Closed(img, visited, [])
    requires forall p :: WhiteAt(img, p) && OnBorder(width, height, p) ==> p in visited
    requires IsPath(img, width, height, path)
    ensures path[|path| - 1] in visited
    decreases |path|
  {
    if |path| > 1 {
      var init := path[..|path| - 1];
      assert IsPath(img, width, height, init);
      ClosedHoldsReachable(img, width, height, visited, init);
      assert Adjacent(path[|path| - 2], path[|path| - 1]);
    }
  }

  /** A fill from `p` has run: if `p` is white it is visited. */
  predicate Seeded(img: Grid, visited: set<Point>, p: Point) {
    WhiteAt(img, p) ==> p in visited
  }

  /** Fills have run from the first `n` pixels of row `row`. */
  predicate RowSeeded(img: Grid, visited: set<Point>, row: int, n: int) {
    forall i :: 0 <= i < n ==> Seeded(img, visited, (i, row))
  }

  /** Fills have run from the first `n` pixels of column `column`. */
  predicate ColumnSeeded(img: Grid, visited: set<Point>, column: int, n: int) {
    forall j :: 0 <= j < n ==> Seeded(img, visited, (column, j))
  }

  lemma SeededGrows(img: Grid, visited: set<Point>, visited': set<Point>, row: int, column: int, n: int, m: int)
    requires visited <= visited'
    ensures RowSeeded(img, visited, row, n) ==> RowSeeded(img, visited', row, n)
    ensures ColumnSeeded(img, visited, column, m) ==> ColumnSeeded(img, visited', column, m)
  {
  }

  /** After the fills from every border pixel, the visited pixels are exactly the reachable ones. */
  lemma FillsCoverBackground(img: Grid, width: nat, height: nat, visited: set<Point>)
    requires Shaped(img, width, height)
    requires Sound(img, width, height, visited) && Closed(img, visited, [])
    requires RowSeeded(img, visited, 0, width) && RowSeeded(img, visited, height - 1, width)
    requires ColumnSeeded(img, visited, 0, height) && ColumnSeeded(img, visited, width - 1, height)
    ensures forall y, x :: 0 <= y < height && 0 <= x < width ==>
      ((x, y) in visited <==> Reachable(img, width, height, (x, y)))
  {
    forall p | WhiteAt(img, p) && OnBorder(width, height, p)
      ensures p in visited
    {
      assert |img[p.1]| == width;
      assert Seeded(img, visited, p) by {
        if p.1 == 0 || p.1 == height - 1 {
          assert RowSeeded(img, visited, p.1, width);
        } else {
          assert ColumnSeeded(img, visited, p.0, height);
        }
      }
    }
    forall y, x | 0 <= y < height && 0 <= x < width
      ensures (x, y) in visited <==> Reachable(img, width, height, (x, y))
    {
      if Reachable(img, width, height, (x, y)) {
        var path :| IsPath(img, width, height, path) && path[|path| - 1] == (x, y);
        ClosedHoldsReachable(img, width, height, visited, path);
      }
    }
  }

  /** The first loop of `removeWhiteBackground`: fills from every pixel of the top and bottom rows. */
  method FillRows(img: Grid, width: nat, height: nat) returns (out: Grid, visited: set<Point>)
    requires Shaped(img, width, height)
    ensures out == Cleared(img, visited)
    ensures Sound(img, width, height, visited) && Closed(img, visited, [])
    ensures RowSeeded(img, visited, 0, width) && RowSeeded(img, visited, height - 1, width)
  {
    visited := {};
    out := img;
    ClearedNothing(img);
    var x := 0;
    while x < width
      invariant 0 <= x <= width
      invariant out == Cleared(img, visited)
      invariant Sound(img, width, height, visited) && Closed(img, visited, [])
      invariant RowSeeded(img, visited, 0, x) && RowSeeded(img, visited, height - 1, x)
    {
      ghost var before := visited;
      out, visited := Fill(img, width, height, out, visited, (x, 0));
      out, visited := Fill(img, width, height, out, visited, (x, height - 1));
      SeededGrows(img, before, visited, 0, 0, x, 0);
      SeededGrows(img, before, visited, height - 1, 0, x, 0);
      x := x + 1;
    }
  }

  /** The second loop: fills from every pixel of the left and right columns. */
  method FillColumns(img: Grid, width: nat, height: nat, out: Grid, visited: set<Point>)
    returns (out': Grid, visited': set<Point>)
    requires Shaped(img, width, height)
    requires out == Cleared(img, visited)
    requires Sound(img, width, height, visited) && Closed(img, visited, [])
    requires RowSeeded(img, visited, 0, width) && RowSeeded(img, visited, height - 1, width)
    ensures out' == Cleared(img, visited')
    ensures Sound(img, width, height, visited') && Closed(img, visited', [])
    ensures RowSeeded(img, visited', 0, width) && RowSeeded(img, visited', height - 1, width)
    ensures ColumnSeeded(img, visited', 0, height) && ColumnSeeded(img, visited', width - 1, height)
  {
    out', visited' := out, visited;
    var y := 0;
    while y < height
      invariant 0 <= y <= height
      invariant out' == Cleared(img, visited')
      invariant Sound(img, width, height, visited') && Closed(img, visited', [])
      invariant RowSeeded(img, visited', 0, width) && RowSeeded(img, visited', height - 1, width)
      invariant ColumnSeeded(img, visited', 0, y) && ColumnSeeded(img, visited', width - 1, y)
    {
      ghost var before := visited';
      out', visited' := Fill(img, width, height, out', visited', (0, y));
      out', visited' := Fill(img, width, height, out', visited', (width - 1, y));
      SeededGrows(img, before, visited', 0, 0, width, y);
      SeededGrows(img, before, visited', height - 1, width - 1, width, y);
      y := y + 1;
    }
  }

  /**
   * `removeWhiteBackground` on a decoded image: fill from every pixel of
   * the top and bottom rows, then from every pixel of the left and right
   * columns. A pixel ends with alpha 0 exactly when it was white and joined
   * to the border by white pixels; every other pixel, and every colour, is
   * unchanged.
   */
  method RemoveWhiteBackground(img: Grid, width: nat, height: nat) returns (out: Grid)
    requires Shaped(img, width, height)
    ensures Shaped(out, width, height)
    ensures forall y, x :: 0 <= y < height && 0 <= x < width ==>
      out[y][x] == if Reachable(img, width, height, (x, y)) then img[y][x].(a := 0) else img[y][x]
  {
    var visited;
    out, visited := FillRows(img, width, height);
    out, visited := FillColumns(img, width, height, out, visited);
    FillsCoverBackground(img, width, height, visited);
    forall y, x | 0 <= y < height && 0 <= x < width
      ensures out[y][x] == if Reachable(img, width, height, (x, y)) then img[y][x].(a := 0) else img[y][x]
    {
      assert |img[y]| == width;
      assert out[y][x] == ClearedPixel(img, visited, x, y);
    }
  }
}

=== FILE: hit_texture.dfy ===
/**
 * Hit detection for textures: the hit map packs, for every pixel of the
 * source image, whether its alpha reaches the threshold into the bits of
 * 32-bit words, and `hits` reads one bit back for a point given relative
 * to a sprite's position.
 */
module HitTexture {
  import opened Core

  type Word = bv32

  /** The smallest alpha that counts as a hit. */
  const Threshold: byte := 25

  /** Bit position `k` as the five-bit shift count `1 << k` uses. */
  function Shift(k: nat): bv5
    requires k < 32
  {
    if k == 0 then 0 else Shift(k - 1) + 1
  }

  lemma {:induction false} ShiftValue(k: nat)
    requires k < 32
    ensures Shift(k) as int == k
  {
    if k > 0 {
      ShiftValue(k - 1);
    }
  }

  lemma ShiftInjective(k: nat, j: nat)
    requires k < 32 && j < 32
    ensures Shift(k) == Shift(j) <==> k == j
  {
    ShiftValue(k);
    ShiftValue(j);
  }

  /** `(w & (1 << k)) !== 0` with a five-bit shift count. */
  predicate BitAt(w: Word, k: bv5) {
    w & (1 << k) != 0
  }

  /** `w | (1 << k)` with a five-bit shift count. */
  function WithBitAt(w: Word, k: bv5): Word {
    w | (1 << k)
  }

  /** Or-ing in bit `k` sets it and no other. */
  lemma SetBitRaw(w: Word, k: bv5, j: bv5)
    ensures (w | (1 << k)) & (1 << j) != 0 <==> w & (1 << j) != 0 || j == k
  {
  }

  lemma UnfoldBit(x: Word, j: bv5)
    ensures BitAt(x, j) == (x & (1 << j) != 0)
  {
  }

  lemma UnfoldWithBit(w: Word, k: bv5)
    ensures WithBitAt(w, k) == w | (1 << k)
  {
  }

  lemma SetBitAt(w: Word, k: bv5, j: bv5)
    ensures BitAt(WithBitAt(w, k), j) <==> BitAt(w, j) || j == k
  {
    var v := WithBitAt(w, k);
    UnfoldWithBit(w, k);
    UnfoldBit(v, j);
    UnfoldBit(w, j);
    SetBitRaw(w, k, j);
  }

  /** Bit `k` of `w`, as `(w & (1 << k)) !== 0` reads it. */
  predicate Bit(w: Word, k: nat)
    requires k < 32
  {
    BitAt(w, Shift(k))
  }

  /** `w | (1 << k)`: `w` with bit `k` set. */
  function WithBit(w: Word, k: nat): Word
    requires k < 32
  {
    WithBitAt(w, Shift(k))
  }

  /** Setting bit `k` leaves every other bit alone. */
  lemma SetBit(w: Word, k: nat, j: nat)
    requires k < 32 && j < 32
    ensures Bit(WithBit(w, k), j) <==> Bit(w, j) || j == k
  {
    ShiftInjective(k, j);
    SetBitAt(w, Shift(k), Shift(j));
  }

  /** Pixel `i` of the RGBA data is opaque enough to hit. */
  predicate Solid(data: seq<byte>, i: nat)
    requires 4 * i + 3 < |data|
  {
    data[4 * i + 3] >= Threshold
  }

  /** `Math.ceil(n / 32)`. */
  function Words(n: nat): nat {
    (n + 31) / 32
  }

  /** Exactly the solid pixels before `i` have their bits set in `hitmap`. */
  ghost predicate PackedUpTo(data: seq<byte>, hitmap: seq<Word>, i: nat) {
    forall j: nat :: j < 32 * |hitmap| ==> (Bit(hitmap[j / 32], j % 32) <==> j < i && 4 * j + 3 < |data| && Solid(data, j))
  }

  /**
   * `hitmap` is the hit map of the first `n` pixels of `data`: one bit per
   * pixel, pixel `j` at bit `j % 32` of word `j / 32`, set exactly for the
   * solid pixels, every bit past the last pixel clear.
   */
  ghost predicate IsHitMap(data: seq<byte>, n: nat, hitmap: seq<Word>) {
    4 * n <= |data| && |hitmap| == Words(n) && PackedUpTo(data, hitmap, n)
  }

  lemma PackedEmpty(data: seq<byte>, words: nat)
    ensures PackedUpTo(data, seq(words, _ => 0), 0)
  {
    forall j: nat | j < 32 * words
      ensures !Bit(seq(words, _ => 0)[j / 32], j % 32)
    {
    }
  }

  /** Two pixels in the same word share a bit only if they are the same pixel. */
  lemma SameWord(i: nat, j: nat)
    requires i / 32 == j / 32
    ensures i % 32 == j % 32 <==> i == j
  {
  }

  /** Setting the bit of a solid pixel `i` extends the packing by one pixel. */
  lemma PackSolid(data: seq<byte>, hitmap: seq<Word>, i: nat)
    requires PackedUpTo(data, hitmap, i) && i < 32 * |hitmap| && 4 * i + 3 < |data| && Solid(data, i)
    ensures PackedUpTo(data, hitmap[i / 32 := WithBit(hitmap[i / 32], i % 32)], i + 1)
  {
    var after := hitmap[i / 32 := WithBit(hitmap[i / 32], i % 32)];
    forall j: nat | j < 32 * |after|
      ensures Bit(after[j / 32], j % 32) <==> j < i + 1 && 4 * j + 3 < |data| && Solid(data, j)
    {
      var word, bit := j / 32, j % 32;
      if word == i / 32 {
        SetBit(hitmap[word], i % 32, bit);
        SameWord(i, j);
        assert after[word] == WithBit(hitmap[word], i % 32);
      } else {
        assert after[word] == hitmap[word];
        assert j != i;
      }
    }
  }

  /** Leaving the bit of a pixel `i` that is not solid clear extends the packing too. */
  lemma PackClear(data: seq<byte>, hitmap: seq<Word>, i: nat)
    requires PackedUpTo(data, hitmap, i) && 4 * i + 3 < |data| && !Solid(data, i)
    ensures PackedUpTo(data, hitmap, i + 1)
  {
  }

  /** `generateHitMap` over the `width * height` pixels the canvas returns. */
  method GenerateHitMap(data: seq<byte>, width: nat, height: nat) returns (hitmap: seq<Word>)
    requires |data| == 4 * (width * height)
    ensures IsHitMap(data, width * height, hitmap)
  {
    var n := width * height;
    hitmap := seq(Words(n), _ => 0);
    PackedEmpty(data, Words(n));
    var i := 0;
    while i < n
      invariant 0 <= i <= n
      invariant |hitmap| == Words(n)
      invariant PackedUpTo(data, hitmap, i)
    {
      if data[i * 4 + 3] >= Threshold {
        PackSolid(data, hitmap, i);
        hitmap := hitmap[i / 32 := WithBit(hitmap[i / 32], i % 32)];
      } else {
        PackClear(data, hitmap, i);
      }
      i := i + 1;
    }
  }

  /*
   * Reading the map.
   */

  /** Division by 32 truncated toward zero, as `(a / 32) | 0` truncates before wrapping. */
  function JsQuot32(a: int): (r: int)
    ensures a >= 0 ==> r == a / 32
    ensures a < 0 ==> r == -((-a) / 32)
  {
    if a >= 0 then a / 32 else -((-a) / 32)
  }

  /** JavaScript's `a % 32`: the remainder takes the sign of the dividend. */
  function JsRem32(a: int): (r: int)
    ensures -32 < r < 32
    ensures a >= 0 ==> r == a % 32
    ensures a == 32 * JsQuot32(a) + r
  {
    if a >= 0 then a % 32 else -((-a) % 32)
  }

  /** `| 0` on an integer: wrap-around to a signed 32-bit value. */
  function ToInt32(a: int): (r: int)
    ensures -0x8000_0000 <= r < 0x8000_0000
    ensures -0x8000_0000 <= a < 0x8000_0000 ==> r == a
  {
    var m := a % 0x1_0000_0000;
    if m >= 0x8000_0000 then m - 0x1_0000_0000 else m
  }

  /**
   * The bit test at the end of `hits`: word `(ind / 32) | 0`, bit
   * `ind % 32` (a negative shift count counts modulo 32); a word index
   * outside the map reads `undefined`, which tests false.
   */
  function HitIndex(hitmap: seq<Word>, ind: int): bool {
    var bit, word := JsRem32(ind), ToInt32(JsQuot32(ind));
    0 <= word < |hitmap| && Bit(hitmap[word], bit % 32)
  }

  /** Within the map, an index reads its own bit. */
  lemma HitIndexInside(hitmap: seq<Word>, ind: int)
    requires 0 <= ind < 32 * |hitmap| && ind < 0x10_0000_0000
    ensures HitIndex(hitmap, ind) <==> Bit(hitmap[ind / 32], ind % 32)
  {
  }

  /** Past the end of the map nothing hits. */
  lemma HitIndexPastEnd(hitmap: seq<Word>, ind: int)
    requires 32 * |hitmap| <= ind < 0x10_0000_0000
    ensures !HitIndex(hitmap, ind)
  {
  }

  /** Far enough below zero nothing hits. */
  lemma HitIndexFarBelow(hitmap: seq<Word>, ind: int)
    requires -0x10_0000_0000 < ind <= -32
    ensures !HitIndex(hitmap, ind)
  {
  }

  /** Just below zero, the truncated word index is 0 and the shift wraps: an index in `-31..-1` reads bit `ind + 32` of word 0. */
  lemma HitIndexJustBelow(hitmap: seq<Word>, ind: int)
    requires -32 < ind < 0 && |hitmap| > 0
    ensures HitIndex(hitmap, ind) <==> Bit(hitmap[0], ind + 32)
  {
  }

  /** Pixel `(px, py)` of a `width` by `height` image lies in the image's pixel range. */
  lemma PixelInside(width: nat, height: nat, px: nat, py: nat)
    requires px < width && py < height
    ensures px + py * width < width * height
  {
    var below := height - 1 - py;
    assert width * height == py * width + width + below * width;
  }

  /** Packing then reading back: a pixel inside the image hits exactly when it is solid. */
  lemma HitMapRoundTrip(data: seq<byte>, width: nat, height: nat, hitmap: seq<Word>, px: nat, py: nat)
    requires IsHitMap(data, width * height, hitmap)
    requires px < width && py < height && width * height < 0x10_0000_0000
    ensures px + py * width < width * height
    ensures HitIndex(hitmap, px + py * width) <==> Solid(data, px + py * width)
  {
    PixelInside(width, height, px, py);
    HitMapReads(data, width * height, hitmap, px + py * width);
  }

  /** A pixel of the map reads back as solid exactly when it is. */
  lemma HitMapReads(data: seq<byte>, n: nat, hitmap: seq<Word>, i: nat)
    requires IsHitMap(data, n, hitmap) && i < n < 0x10_0000_0000
    ensures HitIndex(hitmap, i) <==> Solid(data, i)
  {
    assert i < 32 * |hitmap|;
    HitIndexInside(hitmap, i);
  }

  /*
   * The texture and its cached map.
   */

  /** What `hits` reads of a texture: the frame origin and the source image. */
  datatype Texture = Texture(origX: int, origY: int, width: nat, height: nat, data: seq<byte>)

  /** A `HitTexture`: the texture and the hit map cached on first use. */
  datatype Hitter = Hitter(texture: Texture, cached: Option<seq<Word>>)

  predicate ValidTexture(t: Texture) {
    |t.data| == 4 * (t.width * t.height)
  }

  ghost predicate CacheValid(h: Hitter) {
    ValidTexture(h.texture)
    && (h.cached.Some? ==> IsHitMap(h.texture.data, h.texture.width * h.texture.height, h.cached.value))
  }

  /** `_getHitMap`: generates the map on first use and reuses it afterwards. */
  method GetHitMap(h: Hitter) returns (h': Hitter, hitmap: seq<Word>)
    requires CacheValid(h)
    ensures CacheValid(h') && h'.texture == h.texture
    ensures h'.cached == Some(hitmap)
    ensures h.cached.Some? ==> h' == h && hitmap == h.cached.value
    ensures IsHitMap(h.texture.data, h.texture.width * h.texture.height, hitmap)
  {
    if h.cached.Some? {
      h', hitmap := h, h.cached.value;
    } else {
      hitmap := GenerateHitMap(h.texture.data, h.texture.width, h.texture.height);
      h' := h.(cached := Some(hitmap));
    }
  }

  /** The column `hits` reads for point `x`: mirroring reflects it about the frame origin. */
  function Column(t: Texture, x: int, tx: int, mirror: bool): int {
    if mirror then t.origX - (x - tx) else t.origX + (x - tx)
  }

  /** The row `hits` reads for point `y`. */
  function Row(t: Texture, y: int, ty: int): int {
    t.origY + (y - ty)
  }

  /** The index `hits` tests for point `(x, y)` against a sprite at `(tx, ty)`, with resolution 1. */
  function HitsIndex(t: Texture, x: int, y: int, tx: int, ty: int, mirror: bool): int {
    Column(t, x, tx, mirror) + Row(t, y, ty) * t.width
  }

  /** `hits`: fetches the (cached) map and tests the point's bit. */
  method Hits(h: Hitter, x: int, y: int, tx: int, ty: int, mirror: bool) returns (h': Hitter, hit: bool)
    requires CacheValid(h)
    ensures CacheValid(h') && h'.texture == h.texture && h'.cached.Some?
    ensures h.cached.Some? ==> h' == h
    ensures hit == HitIndex(h'.cached.value, HitsIndex(h.texture, x, y, tx, ty, mirror))
  {
    var hitmap;
    h', hitmap := GetHitMap(h);
    hit := HitIndex(hitmap, HitsIndex(h.texture, x, y, tx, ty, mirror));
  }

  /** A point over a pixel of the texture's image hits exactly when that pixel is solid. */
  lemma HitsPixel(h: Hitter, x: int, y: int, tx: int, ty: int, mirror: bool)
    requires CacheValid(h) && h.cached.Some?
    requires 0 <= Column(h.texture, x, tx, mirror) < h.texture.width
    requires 0 <= Row(h.texture, y, ty) < h.texture.height
    requires h.texture.width * h.texture.height < 0x10_0000_0000
    ensures 0 <= HitsIndex(h.texture, x, y, tx, ty, mirror) < h.texture.width * h.texture.height
    ensures HitIndex(h.cached.value, HitsIndex(h.texture, x, y, tx, ty, mirror))
      <==> Solid(h.texture.data, HitsIndex(h.texture, x, y, tx, ty, mirror))
  {
    var t := h.texture;
    var px: nat, py: nat := Column(t, x, tx, mirror), Row(t, y, ty);
    HitMapRoundTrip(t.data, t.width, t.height, h.cached.value, px, py);
  }
}

=== FILE: members_csv.dfy ===
/**
 * The line splitter `parseMembersCsv` uses on each row of `Members.csv`:
 * fields are cut at commas outside double quotes, the quote characters
 * themselves are dropped, and every field is trimmed.
 */
module MembersCsv {
  import opened Text

  const Quote: char := '"'
  const Comma: char := ','

  /** The number of quote characters in `s`. */
  function Quotes(s: string): nat
    decreases |s|
  {
    if |s| == 0 then 0 else Quotes(s[..|s| - 1]) + (if s[|s| - 1] == Quote then 1 else 0)
  }

  /** After reading `s`, the splitter is inside a quoted stretch. */
  predicate InQuotes(s: string) {
    Quotes(s) % 2 == 1
  }

  /** Position `i` of `s` is a comma outside quotes, where a field ends. */
  predicate CutAt(s: string, i: int) {
    0 <= i < |s| && s[i] == Comma && !InQuotes(s[..i])
  }

  /** The number of positions where `s` is cut. */
  function Cuts(s: string): nat
    decreases |s|
  {
    if |s| == 0 then 0 else Cuts(s[..|s| - 1]) + (if CutAt(s, |s| - 1) then 1 else 0)
  }

  /**
   * The untrimmed fields of `s`: the text between cuts, read left to
   * right, with every quote character left out.
   */
  function RawFields(s: string): (r: seq<string>)
    ensures |r| >= 1
    decreases |s|
  {
    if |s| == 0 then [""]
    else
      var p, c := s[..|s| - 1], s[|s| - 1];
      var f := RawFields(p);
      if c == Quote then f
      else if c == Comma && !InQuotes(p) then f + [""]
      else f[..|f| - 1] + [f[|f| - 1] + [c]]
  }

  /** Every field trimmed. */
  function TrimAll(fields: seq<string>): (r: seq<string>)
    ensures |r| == |fields|
    ensures forall k :: 0 <= k < |r| ==> r[k] == Trim(fields[k])
  {
    seq(|fields|, k requires 0 <= k < |fields| => Trim(fields[k]))
  }

  lemma TrimAllSnoc(fields: seq<string>, f: string)
    ensures TrimAll(fields + [f]) == TrimAll(fields) + [Trim(f)]
  {
  }

  /** The fields of one CSV line, each trimmed. */
  function Fields(s: string): (r: seq<string>)
    ensures |r| == |RawFields(s)|
  {
    TrimAll(RawFields(s))
  }

  /**
   * The splitter's state after reading `p`: the fields completed so far,
   * trimmed, and the untrimmed field being read.
   */
  predicate Splitting(p: string, parts: seq<string>, current: string) {
    var f := RawFields(p);
    |f| == |parts| + 1 && f == f[..|parts|] + [current] && parts == TrimAll(f[..|parts|])
  }

  /** A quote character changes neither the fields nor the current field. */
  lemma SplitQuote(line: string, i: nat, parts: seq<string>, current: string)
    requires i < |line| && line[i] == Quote && Splitting(line[..i], parts, current)
    ensures Splitting(line[..i + 1], parts, current)
  {
    assert line[..i + 1] == line[..i] + [Quote];
    RawFieldsSnoc(line[..i], Quote);
  }

  /** A comma outside quotes completes the current field and starts an empty one. */
  lemma SplitCut(line: string, i: nat, parts: seq<string>, current: string)
    requires i < |line| && line[i] == Comma && !InQuotes(line[..i]) && Splitting(line[..i], parts, current)
    ensures Splitting(line[..i + 1], parts + [Trim(current)], "")
  {
    var p := line[..i];
    var f := RawFields(p);
    assert line[..i + 1] == p + [Comma];
    RawFieldsSnoc(p, Comma);
    var f' := RawFields(p + [Comma]);
    assert f' == f + [""];
    TrimAllSnoc(f[..|parts|], current);
    assert f[..|parts|] + [current] == f;
    assert f'[..|parts| + 1] == f;
  }

  /** Any other character lengthens the current field. */
  lemma SplitKeep(line: string, i: nat, parts: seq<string>, current: string)
    requires i < |line| && line[i] != Quote && !(line[i] == Comma && !InQuotes(line[..i]))
    requires Splitting(line[..i], parts, current)
    ensures Splitting(line[..i + 1], parts, current + [line[i]])
  {
    var p, c := line[..i], line[i];
    var f := RawFields(p);
    assert line[..i + 1] == p + [c];
    RawFieldsSnoc(p, c);
    var f' := RawFields(p + [c]);
    assert f' == f[..|parts|] + [current + [c]];
    assert f'[..|parts|] == f[..|parts|];
  }

  /** Reading one more character of `line` toggles being inside quotes exactly at a quote. */
  lemma InQuotesStep(line: string, i: nat)
    requires i < |line|
    ensures InQuotes(line[..i + 1]) == if line[i] == Quote then !InQuotes(line[..i]) else InQuotes(line[..i])
  {
    assert line[..i + 1] == line[..i] + [line[i]];
    InQuotesSnoc(line[..i], line[i]);
  }

  /** The splitting loop of `parseMembersCsv`. */
  method SplitCsvLine(line: string) returns (parts: seq<string>)
    ensures parts == Fields(line)
    ensures |parts| == Cuts(line) + 1
    ensures forall k :: 0 <= k < |parts| ==> IsTrimmed(parts[k]) && Quote !in parts[k]
  {
    parts := [];
    var current := "";
    var inQuotes := false;
    var i := 0;
    assert line[..0] == "";
    while i < |line|
      invariant 0 <= i <= |line|
      invariant inQuotes == InQuotes(line[..i])
      invariant Splitting(line[..i], parts, current)
    {
      var c := line[i];
      InQuotesStep(line, i);
      if c == Quote {
        SplitQuote(line, i, parts, current);
        inQuotes := !inQuotes;
      } else if c == Comma && !inQuotes {
        SplitCut(line, i, parts, current);
        parts := parts + [Trim(current)];
        current := "";
      } else {
        SplitKeep(line, i, parts, current);
        current := current + [c];
      }
      i := i + 1;
    }
    assert line[..i] == line;
    ghost var f := RawFields(line);
    TrimAllSnoc(f[..|parts|], current);
    parts := parts + [Trim(current)];
    FieldCount(line);
    forall k | 0 <= k < |parts|
      ensures Quote !in parts[k]
    {
      NoQuotesInFields(line, k);
    }
  }

  /** One field more than there are cuts. */
  lemma {:induction false} FieldCount(s: string)
    ensures |RawFields(s)| == Cuts(s) + 1
    decreases |s|
  {
    if |s| > 0 {
      var p := s[..|s| - 1];
      FieldCount(p);
      assert s[..|s| - 1] == p;
    }
  }

  /** No field holds a quote character. */
  lemma {:induction false} NoQuotesInRawFields(s: string, k: nat)
    requires k < |RawFields(s)|
    ensures Quote !in RawFields(s)[k]
    decreases |s|
  {
    if |s| > 0 {
      var p, c := s[..|s| - 1], s[|s| - 1];
      assert s == p + [c];
      RawFieldsSnoc(p, c);
      if k < |RawFields(p)| {
        NoQuotesInRawFields(p, k);
      }
    }
  }

  lemma NoQuotesInFields(s: string, k: nat)
    requires k < |Fields(s)|
    ensures Quote !in Fields(s)[k]
  {
    NoQuotesInRawFields(s, k);
  }

  /** How one more character changes the count of quotes. */
  lemma QuotesSnoc(p: string, c: char)
    ensures Quotes(p + [c]) == Quotes(p) + (if c == Quote then 1 else 0)
  {
    assert (p + [c])[..|p|] == p;
  }

  /** A quote character toggles being inside quotes; any other keeps it. */
  lemma InQuotesSnoc(p: string, c: char)
    ensures InQuotes(p + [c]) == if c == Quote then !InQuotes(p) else InQuotes(p)
  {
    QuotesSnoc(p, c);
  }

  /** How one more character changes the fields. */
  lemma RawFieldsSnoc(p: string, c: char)
    ensures var f := RawFields(p);
      RawFields(p + [c]) ==
        if c == Quote then f
        else if c == Comma && !InQuotes(p) then f + [""]
        else f[..|f| - 1] + [f[|f| - 1] + [c]]
  {
    assert (p + [c])[..|p|] == p;
  }

  /** Text without quote characters adds none. */
  lemma {:induction false} QuotesPlain(p: string, q: string)
    requires Quote !in q
    ensures Quotes(p + q) == Quotes(p)
    decreases |q|
  {
    if |q| > 0 {
      var q', c := q[..|q| - 1], q[|q| - 1];
      assert p + q == (p + q') + [c];
      assert c in q;
      QuotesPlain(p, q');
      QuotesSnoc(p + q', c);
    } else {
      assert p + q == p;
    }
  }

  /** `f` with `q` added to its last field. */
  function Lengthen(f: seq<string>, q: string): (r: seq<string>)
    requires |f| >= 1
    ensures |r| == |f|
  {
    f[..|f| - 1] + [f[|f| - 1] + q]
  }

  lemma LengthenStep(f: seq<string>, q: string, c: char)
    requires |f| >= 1
    ensures var g := Lengthen(f, q); Lengthen(f, q + [c]) == g[..|g| - 1] + [g[|g| - 1] + [c]]
  {
    var last := f[|f| - 1];
    assert (last + q) + [c] == last + (q + [c]);
  }

  /** One more plain character lengthens the last field. */
  lemma AppendPlainStep(p: string, q: string, c: char)
    requires c != Quote && !(c == Comma && !InQuotes(p + q))
    requires RawFields(p + q) == Lengthen(RawFields(p), q)
    ensures RawFields(p + (q + [c])) == Lengthen(RawFields(p), q + [c])
  {
    assert p + (q + [c]) == (p + q) + [c];
    RawFieldsSnoc(p + q, c);
    LengthenStep(RawFields(p), q, c);
  }

  /**
   * Text without quotes that either lies inside a quoted stretch or holds
   * no comma only lengthens the last field: a comma between quotes stays in
   * its field.
   */
  lemma {:induction false} AppendPlain(p: string, q: string)
    requires Quote !in q
    requires InQuotes(p) || Comma !in q
    ensures RawFields(p + q) == Lengthen(RawFields(p), q)
    decreases |q|
  {
    var f := RawFields(p);
    if |q| == 0 {
      assert p + q == p;
      assert f[|f| - 1] + q == f[|f| - 1];
      assert f == f[..|f| - 1] + [f[|f| - 1]];
    } else {
      var q', c := q[..|q| - 1], q[|q| - 1];
      assert q' + [c] == q;
      assert c in q && forall ch :: ch in q' ==> ch in q;
      AppendPlain(p, q');
      QuotesPlain(p, q');
      AppendPlainStep(p, q', c);
    }
  }

  /** A whole quoted field keeps everything between its quotes, commas included. */
  lemma QuotedField(x: string)
    requires Quote !in x
    ensures RawFields([Quote] + x + [Quote]) == [x]
  {
    var open := [Quote];
    assert "" + [Quote] == open;
    RawFieldsSnoc("", Quote);
    QuotesSnoc("", Quote);
    AppendPlain(open, x);
    assert "" + x == x;
    assert Lengthen([""], x) == [x];
    RawFieldsSnoc(open + x, Quote);
  }

  lemma {:induction false} JoinSnoc(fields: seq<string>, f: string, sep: char)
    requires |fields| >= 1
    ensures Join(fields + [f], sep) == Join(fields, sep) + [sep] + f
    decreases |fields|
  {
    if |fields| > 1 {
      JoinSnoc(fields[1..], f, sep);
      assert (fields + [f])[1..] == fields[1..] + [f];
    }
  }

  /** Plain fields, joined with commas, split back into themselves before trimming. */
  lemma {:induction false} RawFieldsJoin(fields: seq<string>)
    requires |fields| >= 1
    requires forall k :: 0 <= k < |fields| ==> Quote !in fields[k] && Comma !in fields[k]
    ensures RawFields(Join(fields, Comma)) == fields
    decreases |fields|
  {
    var last := fields[|fields| - 1];
    if |fields| == 1 {
      AppendPlain("", last);
      assert "" + last == last;
    } else {
      var init := fields[..|fields| - 1];
      RawFieldsJoin(init);
      NoQuotesInJoin(init);
      RawFieldsJoinStep(init, last);
      assert init + [last] == fields;
    }
  }

  /** One more plain field after a comma becomes one more field. */
  lemma RawFieldsJoinStep(init: seq<string>, last: string)
    requires |init| >= 1 && Quote !in Join(init, Comma) && RawFields(Join(init, Comma)) == init
    requires Quote !in last && Comma !in last
    ensures RawFields(Join(init + [last], Comma)) == init + [last]
  {
    JoinSnoc(init, last, Comma);
    var j := Join(init, Comma);
    QuotesPlain("", j);
    assert "" + j == j;
    RawFieldsSnoc(j, Comma);
    var cut := j + [Comma];
    AppendPlain(cut, last);
    var withEmpty := init + [""];
    assert withEmpty[..|withEmpty| - 1] == init;
    assert withEmpty[|withEmpty| - 1] + last == last;
    assert Lengthen(withEmpty, last) == init + [last];
    assert cut + last == Join(init + [last], Comma);
  }

  lemma {:induction false} NoQuotesInJoin(fields: seq<string>)
    requires |fields| >= 1
    requires forall k :: 0 <= k < |fields| ==> Quote !in fields[k]
    ensures Quote !in Join(fields, Comma)
    decreases |fields|
  {
    if |fields| > 1 {
      NoQuotesInJoin(fields[1..]);
    }
  }

  /** Round trip: trimmed fields without quotes or commas survive joining and splitting. */
  lemma FieldsJoin(fields: seq<string>)
    requires |fields| >= 1
    requires forall k :: 0 <= k < |fields| ==> Quote !in fields[k] && Comma !in fields[k] && IsTrimmed(fields[k])
    ensures Fields(Join(fields, Comma)) == fields
  {
    RawFieldsJoin(fields);
    forall k | 0 <= k < |fields|
      ensures Trim(fields[k]) == fields[k]
    {
      TrimTrimmed(fields[k]);
    }
    assert TrimAll(fields) == fields;
  }
}

=== FILE: ordered_maps.dfy ===
/**
 * A JavaScript `Map`: entries kept in insertion order with distinct keys.
 * `set` on a present key replaces its value in place; on a new key it appends.
 */
module OrderedMaps {
  import opened Core

  type OMap<K, V> = seq<(K, V)>

  predicate HasKey<K(==), V>(m: OMap<K, V>, k: K) {
    exists i :: 0 <= i < |m| && m[i].0 == k
  }

  predicate DistinctKeys<K(==), V>(m: OMap<K, V>) {
    forall i, j :: 0 <= i < j < |m| ==> m[i].0 != m[j].0
  }

  /** The two maps hold the same keys at the same positions. */
  predicate SameKeys<K(==), V>(a: OMap<K, V>, b: OMap<K, V>) {
    |a| == |b| && forall i :: 0 <= i < |a| ==> a[i].0 == b[i].0
  }

  /** The keys in iteration order. */
  function Keys<K, V>(m: OMap<K, V>): (ks: seq<K>)
    ensures |ks| == |m|
  {
    if |m| == 0 then [] else [m[0].0] + Keys(m[1..])
  }

  lemma {:induction false} KeysAt<K, V>(m: OMap<K, V>, i: nat)
    requires i < |m|
    ensures Keys(m)[i] == m[i].0
  {
    if i > 0 {
      KeysAt(m[1..], i - 1);
    }
  }

  lemma HasKeyTail<K, V>(m: OMap<K, V>, k: K)
    requires |m| > 0 && m[0].0 != k
    ensures HasKey(m, k) <==> HasKey(m[1..], k)
  {
    assert forall i :: 0 < i < |m| ==> m[i] == m[1..][i - 1];
  }

  lemma HasKeyCons<K, V>(m: OMap<K, V>, k: K)
    requires |m| > 0
    ensures HasKey(m, k) <==> m[0].0 == k || HasKey(m[1..], k)
  {
    if m[0].0 != k {
      HasKeyTail(m, k);
    }
  }

  /** `get`: the value stored under `k`, if `k` is present. */
  function Get<K(==), V>(m: OMap<K, V>, k: K): (r: Option<V>)
    ensures r.None? <==> !HasKey(m, k)
  {
    if |m| == 0 then None
    else if m[0].0 == k then Some(m[0].1)
    else
      HasKeyTail(m, k);
      Get(m[1..], k)
  }

  /** What `get` returns is stored under the key. */
  lemma {:induction false} GetSome<K, V>(m: OMap<K, V>, k: K) returns (i: nat)
    requires Get(m, k).Some?
    ensures i < |m| && m[i] == (k, Get(m, k).value)
  {
    if m[0].0 == k {
      i := 0;
    } else {
      var j := GetSome(m[1..], k);
      i := j + 1;
    }
  }

  /** Maps with the same keys hold the same keys. */
  lemma SameKeysHasKey<K, V>(a: OMap<K, V>, b: OMap<K, V>, k: K)
    requires SameKeys(a, b)
    ensures HasKey(a, k) <==> HasKey(b, k)
  {
    if HasKey(a, k) {
      var i :| 0 <= i < |a| && a[i].0 == k;
      assert b[i].0 == k;
    }
    if HasKey(b, k) {
      var i :| 0 <= i < |b| && b[i].0 == k;
      assert a[i].0 == k;
    }
  }

  /** Keys kept in place stay distinct. */
  lemma SameKeysDistinct<K, V>(a: OMap<K, V>, b: OMap<K, V>)
    requires SameKeys(a, b) && DistinctKeys(b)
    ensures DistinctKeys(a)
  {
    forall i, j | 0 <= i < j < |a|
      ensures a[i].0 != a[j].0
    {
      assert a[i].0 == b[i].0 && a[j].0 == b[j].0;
    }
  }

  /** With distinct keys, `get` finds the value of the one entry holding the key. */
  lemma {:induction false} GetDistinct<K, V>(m: OMap<K, V>, i: nat)
    requires DistinctKeys(m) && i < |m|
    ensures Get(m, m[i].0) == Some(m[i].1)
  {
    if i > 0 {
      GetDistinct(m[1..], i - 1);
    }
  }

  /** `set`: `k` now maps to `v`; keys keep their positions and a new key goes last. */
  function Set<K(==), V>(m: OMap<K, V>, k: K, v: V): (r: OMap<K, V>)
    ensures |r| == if HasKey(m, k) then |m| else |m| + 1
    ensures forall i :: 0 <= i < |m| ==> r[i].0 == m[i].0
    ensures !HasKey(m, k) ==> r[|m|] == (k, v)
    ensures Get(r, k) == Some(v)
  {
    if |m| == 0 then [(k, v)]
    else if m[0].0 == k then [(k, v)] + m[1..]
    else
      HasKeyTail(m, k);
      [m[0]] + Set(m[1..], k, v)
  }

  /** `set` on a key that is not present appends the entry. */
  lemma {:induction false} SetFresh<K, V>(m: OMap<K, V>, k: K, v: V)
    requires !HasKey(m, k)
    ensures Set(m, k, v) == m + [(k, v)]
  {
    if |m| > 0 {
      HasKeyTail(m, k);
      SetFresh(m[1..], k, v);
      assert m == [m[0]] + m[1..];
    }
  }

  /** After `set` the keys are the old ones and `k`. */
  lemma {:induction false} HasKeySet<K, V>(m: OMap<K, V>, k: K, v: V, k': K)
    ensures HasKey(Set(m, k, v), k') <==> HasKey(m, k') || k' == k
  {
    var r := Set(m, k, v);
    if |m| == 0 {
      assert r == [(k, v)];
      assert HasKey(r, k') <==> r[0].0 == k';
    } else if m[0].0 == k {
      assert r[1..] == m[1..];
      HasKeyCons(r, k');
      HasKeyCons(m, k');
    } else {
      HasKeyTail(m, k);
      assert r[1..] == Set(m[1..], k, v);
      HasKeySet(m[1..], k, v, k');
      HasKeyCons(r, k');
      HasKeyCons(m, k');
    }
  }

  /** `set` leaves the value of every other key alone. */
  lemma {:induction false} SetOther<K, V>(m: OMap<K, V>, k: K, v: V, k': K)
    requires k' != k
    ensures Get(Set(m, k, v), k') == Get(m, k')
  {
    if |m| > 0 && m[0].0 != k {
      HasKeyTail(m, k);
      SetOther(m[1..], k, v, k');
      assert Set(m, k, v)[1..] == Set(m[1..], k, v);
    }
    if |m| > 0 && m[0].0 == k {
      assert Set(m, k, v)[1..] == m[1..];
    }
  }

  /** `set` keeps the keys distinct. */
  lemma SetDistinct<K, V>(m: OMap<K, V>, k: K, v: V)
    requires DistinctKeys(m)
    ensures DistinctKeys(Set(m, k, v))
  {
    var r := Set(m, k, v);
    if HasKey(m, k) {
      assert SameKeys(r, m);
    } else {
      SetFresh(m, k, v);
      forall i | 0 <= i < |m|
        ensures r[i].0 != r[|m|].0
      {
        assert r[i] == m[i];
      }
    }
  }
}

=== FILE: origins_figure.dfy ===
/**
 * `dumpOriginsFigure`: pack the images and XML/binary files a dump step
 * found into a `.shroom` bundle, and `createOriginsMetadata`: read sprite
 * records off image names of the form `h_std_head_1_0_0`. The bundle is an
 * append-only list of named byte strings; its serialised form is not part
 * of this model.
 */
module OriginsFigure {
  import opened Core
  import opened Text
  import Paths
  import opened OrderedMaps

  /** One file added to a bundle. */
  datatype BundleEntry = BundleEntry(name: string, content: Bytes)

  /** The bundle written, and where. */
  datatype Written = Written(path: string, entries: seq<BundleEntry>)

  /** One `dumpOriginsFigure` call: the bundle written (if reading succeeded) and how it ended. */
  datatype FigureDump = FigureDump(written: Option<Written>, outcome: Outcome<string>)

  /**
   * Reading every path (`Promise.all` over `readFile`): all contents in
   * path order, or the error of a read that failed.
   */
  function ReadAll(paths: seq<string>, read: string -> Result<Bytes, string>): (r: Result<seq<Bytes>, string>)
    ensures r.Success? <==> forall i :: 0 <= i < |paths| ==> read(paths[i]).Success?
    ensures r.Success? ==> |r.value| == |paths| && forall i :: 0 <= i < |paths| ==> r.value[i] == read(paths[i]).value
    ensures r.Failure? ==> exists i :: 0 <= i < |paths| && read(paths[i]) == Failure(r.error)
  {
    if |paths| == 0 then Success([])
    else
      match read(paths[0])
      case Failure(e) => Failure(e)
      case Success(b) =>
        match ReadAll(paths[1..], read)
        case Failure(e) =>
          var i :| 0 <= i < |paths[1..]| && read(paths[1..][i]) == Failure(e);
          assert read(paths[i + 1]) == Failure(e);
          Failure(e)
        case Success(bs) =>
          assert forall i :: 1 <= i < |paths| ==> read(paths[i]) == read(paths[1..][i - 1]);
          Success([b] + bs)
  }

  /** The bundle entries for files read from `paths`: each named by the basename of its path. */
  function Entries(paths: seq<string>, contents: seq<Bytes>): (es: seq<BundleEntry>)
    requires |contents| == |paths|
    ensures |es| == |paths|
  {
    seq(|paths|, i requires 0 <= i < |paths| => BundleEntry(Paths.Basename(paths[i], ""), contents[i]))
  }

  const BundleSuffix: string := ".shroom"

  /**
   * `dumpOriginsFigure(baseName, dumpLocation, imagePaths, xmlPaths)`: all
   * images are read, then all XML/binary files; the bundle holds the images
   * in order and then the XML/binary files in order, and is written next to
   * the dump directory. `write` is what writing the bundle gives.
   */
  function DumpOriginsFigure(dumpLocation: string, imagePaths: seq<string>, xmlPaths: seq<string>,
                             read: string -> Result<Bytes, string>, write: Outcome<string>): (r: FigureDump)
    ensures r.written.Some? <==>
      (forall i :: 0 <= i < |imagePaths| ==> read(imagePaths[i]).Success?)
      && (forall i :: 0 <= i < |xmlPaths| ==> read(xmlPaths[i]).Success?)
    ensures r.written.Some? ==> r.written.value.path == dumpLocation + BundleSuffix
    ensures r.written.Some? ==>
      var es := r.written.value.entries;
      |es| == |imagePaths| + |xmlPaths|
      && (forall i :: 0 <= i < |imagePaths| ==>
            es[i] == BundleEntry(Paths.Basename(imagePaths[i], ""), read(imagePaths[i]).value))
      && (forall j :: 0 <= j < |xmlPaths| ==>
            es[|imagePaths| + j] == BundleEntry(Paths.Basename(xmlPaths[j], ""), read(xmlPaths[j]).value))
    ensures r.outcome.Pass? <==> r.written.Some? && write.Pass?
    ensures r.outcome.Fail? && r.written.None? ==>
      (exists i :: 0 <= i < |imagePaths| && read(imagePaths[i]) == Failure(r.outcome.error))
      || (exists j :: 0 <= j < |xmlPaths| && read(xmlPaths[j]) == Failure(r.outcome.error))
    ensures r.outcome.Fail? && r.written.Some? ==> r.outcome == write
  {
    match ReadAll(imagePaths, read)
    case Failure(e) => FigureDump(None, Fail(e))
    case Success(images) =>
      match ReadAll(xmlPaths, read)
      case Failure(e) => FigureDump(None, Fail(e))
      case Success(data) =>
        var entries := Entries(imagePaths, images) + Entries(xmlPaths, data);
        FigureDump(Some(Written(dumpLocation + BundleSuffix, entries)), write)
  }

  /** Files found in a dump directory enter the bundle under their own names. */
  lemma EntryNamesOfListing(dir: string, names: seq<string>, contents: seq<Bytes>)
    requires |contents| == |names|
    requires forall i :: 0 <= i < |names| ==> |names[i]| > 0 && '/' !in names[i]
    ensures var paths := seq(|names|, i requires 0 <= i < |names| => Paths.Join(dir, names[i]));
      forall i :: 0 <= i < |names| ==> Entries(paths, contents)[i].name == names[i]
  {
    var paths := seq(|names|, i requires 0 <= i < |names| => Paths.Join(dir, names[i]));
    forall i | 0 <= i < |names|
      ensures Entries(paths, contents)[i].name == names[i]
    {
      Paths.BasenameJoin(dir, names[i]);
    }
  }

  /*
   * Sprite records. The name (extension dropped) must match
   * `^([hs]+)_([^_]+)_([^_]+)_(\d+)_(\d+)_(\d+)$`. No group can hold an
   * underscore, so a match is exactly a split at underscores into six
   * pieces of the right shapes.
   */

  /** What `createOriginsMetadata` records for one sprite image. */
  datatype Sprite = Sprite(size: string, action: string, part: string, id: nat, direction: nat, frame: nat,
                           fileName: string, regX: int, regY: int)

  /** A run of `h` and `s` characters (`[hs]+`). */
  predicate IsSize(s: string) {
    |s| > 0 && forall i :: 0 <= i < |s| ==> s[i] == 'h' || s[i] == 's'
  }

  /** Six pieces that the sprite-name pattern matches group for group. */
  predicate SpriteShape(pieces: seq<string>) {
    |pieces| == 6
    && IsSize(pieces[0])
    && |pieces[1]| > 0 && '_' !in pieces[1]
    && |pieces[2]| > 0 && '_' !in pieces[2]
    && IsDigits(pieces[3]) && IsDigits(pieces[4]) && IsDigits(pieces[5])
  }

  /** The record for a name the pattern matched, split into its six groups. */
  function SpriteOf(pieces: seq<string>, fileName: string): Sprite
    requires SpriteShape(pieces)
  {
    Sprite(pieces[0], pieces[1], pieces[2], ParseNat(pieces[3]), ParseNat(pieces[4]), ParseNat(pieces[5]), fileName, 0, 0)
  }

  /** Matching a sprite name (`stem`) taken from the file `fileName`. */
  function ParseSpriteName(stem: string, fileName: string): (r: Option<Sprite>)
    ensures r.Some? ==> r.value.fileName == fileName && r.value.regX == 0 && r.value.regY == 0
    ensures r.Some? ==> IsSize(r.value.size) && |r.value.action| > 0 && |r.value.part| > 0
  {
    var pieces := Split(stem, '_');
    if SpriteShape(pieces) then Some(SpriteOf(pieces, fileName)) else None
  }

  /** Every name built from six pieces of the right shapes is matched, group for group. */
  lemma SpriteNameComplete(pieces: seq<string>, fileName: string)
    requires SpriteShape(pieces)
    ensures ParseSpriteName(Join(pieces, '_'), fileName) == Some(SpriteOf(pieces, fileName))
  {
    forall k | 0 <= k < |pieces|
      ensures '_' !in pieces[k]
    {
      if k == 0 || k >= 3 {
        if '_' in pieces[k] {
          var j :| 0 <= j < |pieces[k]| && pieces[k][j] == '_';
        }
      }
    }
    SplitJoin(pieces, '_');
  }

  /** Every matched name is six pieces of the right shapes joined by underscores. */
  lemma SpriteNameSound(stem: string, fileName: string) returns (pieces: seq<string>)
    requires ParseSpriteName(stem, fileName).Some?
    ensures SpriteShape(pieces) && Join(pieces, '_') == stem
    ensures ParseSpriteName(stem, fileName) == Some(SpriteOf(pieces, fileName))
  {
    pieces := Split(stem, '_');
  }

  /** The sprite a number spelled out in a name comes back as the number. */
  lemma SpriteNumbersRoundTrip(size: string, action: string, part: string, id: nat, direction: nat, frame: nat, fileName: string)
    requires IsSize(size) && |action| > 0 && '_' !in action && |part| > 0 && '_' !in part
    ensures ParseSpriteName(Join([size, action, part, NatToString(id), NatToString(direction), NatToString(frame)], '_'), fileName)
      == Some(Sprite(size, action, part, id, direction, frame, fileName, 0, 0))
  {
    var pieces := [size, action, part, NatToString(id), NatToString(direction), NatToString(frame)];
    SpriteNameComplete(pieces, fileName);
    ParseNatToString(id);
    ParseNatToString(direction);
    ParseNatToString(frame);
  }

  /** The name a sprite is keyed by: the basename with its extension dropped. */
  function Stem(path: string): string {
    Paths.Basename(path, Paths.Extname(path))
  }

  /** The sprite a path yields, if its name matches. */
  function SpriteAt(path: string): Option<Sprite> {
    ParseSpriteName(Stem(path), Paths.Basename(path, ""))
  }

  /** One image visited: the name it would be keyed by and the record it yields, if any. */
  type Row = (string, Option<Sprite>)

  /** The image at `path` as a row. */
  function RowOf(path: string): Row {
    (Stem(path), SpriteAt(path))
  }

  /** The table built from rows in order, a later row of the same name replacing an earlier one. */
  function Table(rows: seq<Row>): (m: OMap<string, Sprite>)
    decreases |rows|
  {
    if |rows| == 0 then []
    else
      var last := rows[|rows| - 1];
      var m := Table(rows[..|rows| - 1]);
      match last.1
      case None => m
      case Some(s) => Set(m, last.0, s)
  }

  /** The sprites table of the images, visited in order. */
  function Sprites(imagePaths: seq<string>): OMap<string, Sprite> {
    Table(seq(|imagePaths|, i requires 0 <= i < |imagePaths| => RowOf(imagePaths[i])))
  }

  /** The metadata object: its type tag, the base name, the sprites table and the creation time passed in. */
  datatype Metadata = Metadata(kind: string, baseName: string, sprites: OMap<string, Sprite>, created: string)

  /** `createOriginsMetadata(baseName, imagePaths, xmlPaths)` at time `now`; the XML/binary files are not looked at. */
  function CreateOriginsMetadata(baseName: string, imagePaths: seq<string>, now: string): (r: Metadata)
    ensures r.kind == "origins_figure" && r.baseName == baseName && r.created == now
  {
    Metadata("origins_figure", baseName, Sprites(imagePaths), now)
  }

  /** Row `row` yields a record keyed `key`. */
  predicate Names(row: Row, key: string) {
    row.0 == key && row.1.Some?
  }

  /** Looking up a name after one more row. */
  lemma TableSnoc(rows: seq<Row>, key: string)
    requires |rows| > 0 && !Names(rows[|rows| - 1], key)
    ensures Get(Table(rows), key) == Get(Table(rows[..|rows| - 1]), key)
  {
    var last := rows[|rows| - 1];
    if last.1.Some? {
      SetOther(Table(rows[..|rows| - 1]), last.0, last.1.value, key);
    }
  }

  /** A name is a key of the table exactly when some row of that name yields a record. */
  lemma {:induction false} TableHasKey(rows: seq<Row>, key: string)
    ensures Get(Table(rows), key).Some? <==> exists i :: 0 <= i < |rows| && Names(rows[i], key)
    decreases |rows|
  {
    if |rows| > 0 {
      var n := |rows| - 1;
      var init := rows[..n];
      if Names(rows[n], key) {
        assert Get(Table(rows), key).Some?;
      } else {
        TableHasKey(init, key);
        TableSnoc(rows, key);
        NamedBefore(rows, init, key);
      }
    }
  }

  /** When the last row does not name `key`, some row names it exactly when some earlier row does. */
  lemma NamedBefore(rows: seq<Row>, init: seq<Row>, key: string)
    requires |rows| > 0 && init == rows[..|rows| - 1] && !Names(rows[|rows| - 1], key)
    ensures (exists i :: 0 <= i < |rows| && Names(rows[i], key)) <==> (exists i :: 0 <= i < |init| && Names(init[i], key))
  {
    if exists i :: 0 <= i < |rows| && Names(rows[i], key) {
      var i :| 0 <= i < |rows| && Names(rows[i], key);
      assert init[i] == rows[i];
    }
  }

  /** The record stored under a name is that of the last row of that name that yields one. */
  lemma {:induction false} TableLast(rows: seq<Row>, key: string) returns (i: nat)
    requires Get(Table(rows), key).Some?
    ensures i < |rows| && Names(rows[i], key)
    ensures Get(Table(rows), key) == rows[i].1
    ensures forall j :: i < j < |rows| ==> !Names(rows[j], key)
    decreases |rows|
  {
    var n := |rows| - 1;
    var init := rows[..n];
    if Names(rows[n], key) {
      i := n;
    } else {
      TableSnoc(rows, key);
      i := TableLast(init, key);
      assert init[i] == rows[i];
      forall j | i < j < |rows|
        ensures !Names(rows[j], key)
      {
        if j < n {
          assert init[j] == rows[j];
          assert !Names(init[j], key);
        } else {
          assert j == n;
        }
      }
    }
  }

  /**
   * A name is a key of the sprites table exactly when some image of that
   * name matches, and its record is that of the last such image.
   */
  lemma SpritesLookup(imagePaths: seq<string>, key: string)
    ensures Get(Sprites(imagePaths), key).Some? <==>
      exists i :: 0 <= i < |imagePaths| && Stem(imagePaths[i]) == key && SpriteAt(imagePaths[i]).Some?
    ensures Get(Sprites(imagePaths), key).Some? ==>
      exists i :: 0 <= i < |imagePaths| && Stem(imagePaths[i]) == key
        && Get(Sprites(imagePaths), key) == SpriteAt(imagePaths[i])
        && forall j :: i < j < |imagePaths| ==> !(Stem(imagePaths[j]) == key && SpriteAt(imagePaths[j]).Some?)
  {
    var rows := seq(|imagePaths|, i requires 0 <= i < |imagePaths| => RowOf(imagePaths[i]));
    TableHasKey(rows, key);
    if Get(Sprites(imagePaths), key).Some? {
      var i := TableLast(rows, key);
      assert rows[i] == RowOf(imagePaths[i]);
      forall j | i < j < |imagePaths|
        ensures !(Stem(imagePaths[j]) == key && SpriteAt(imagePaths[j]).Some?)
      {
        assert rows[j] == RowOf(imagePaths[j]);
      }
    }
    if exists i :: 0 <= i < |imagePaths| && Stem(imagePaths[i]) == key && SpriteAt(imagePaths[i]).Some? {
      var i :| 0 <= i < |imagePaths| && Stem(imagePaths[i]) == key && SpriteAt(imagePaths[i]).Some?;
      assert Names(rows[i], key);
    }
  }
}

=== FILE: paths.dfy ===
/**
 * The POSIX flavour of Node's `path` functions the dump steps use:
 * `basename` (with and without a suffix), `extname`, `dirname` and a
 * two-argument `join`.
 */
module Paths {
  import opened Core
  import opened Text

  /** The index of the last `c` in `s`, if any. */
  function LastIndexOf(s: string, c: char): (r: Option<nat>)
    ensures r.None? <==> c !in s
    ensures r.Some? ==> r.value < |s| && s[r.value] == c && c !in s[r.value + 1..]
    decreases |s|
  {
    if |s| == 0 then None
    else if s[|s| - 1] == c then Some(|s| - 1)
    else
      match LastIndexOf(s[..|s| - 1], c)
      case None => None
      case Some(i) =>
        assert s[i + 1..] == s[..|s| - 1][i + 1..] + [s[|s| - 1]];
        Some(i)
  }

  /** `p` without its trailing slashes. */
  function StripTrailingSlashes(p: string): (r: string)
    ensures |r| <= |p| && r == p[..|r|]
    ensures |r| == 0 || r[|r| - 1] != '/'
    ensures forall i :: |r| <= i < |p| ==> p[i] == '/'
    decreases |p|
  {
    if |p| > 0 && p[|p| - 1] == '/' then StripTrailingSlashes(p[..|p| - 1]) else p
  }

  /** The last path component: the text after the last `/` once trailing slashes are ignored. */
  function LastComponent(p: string): (c: string)
    ensures '/' !in c
    ensures '/' !in p ==> c == p
  {
    var q := StripTrailingSlashes(p);
    match LastIndexOf(q, '/')
    case None => q
    case Some(i) => q[i + 1..]
  }

  /**
   * `path.basename(p, ext)`: the last component, with `ext` removed from
   * its end when it is literally (case-sensitively) there and is not the
   * whole component; a path equal to `ext` gives the empty string.
   */
  function Basename(p: string, ext: string): (r: string)
    ensures '/' !in r
    ensures p != ext ==> r + (if r == LastComponent(p) then "" else ext) == LastComponent(p)
  {
    if p == ext then ""
    else
      var c := LastComponent(p);
      if c != ext && EndsWith(c, ext) then c[..|c| - |ext|] else c
  }

  /**
   * `path.extname(p)`: the last component from its last dot on; empty when
   * the component has no dot, starts with its only dot, or is `..` (a
   * two-character component whose last dot is its second character).
   */
  function Extname(p: string): (r: string)
    ensures r == "" || r[0] == '.'
    ensures EndsWith(LastComponent(p), r)
    ensures |r| > 0 ==> '.' !in r[1..]
  {
    var c := LastComponent(p);
    match LastIndexOf(c, '.')
    case None => ""
    case Some(i) =>
      if i == 0 || (|c| == 2 && c[0] == '.') then ""
      else
        var r := c[i..];
        assert c[|c| - |r|..] == r && r[1..] == c[i + 1..];
        r
  }

  /**
   * The backwards scan of `path.dirname` from index `i` down to 1: the
   * index of the first slash met after a non-slash character, or -1.
   */
  function DirnameEnd(p: string, i: int, matchedSlash: bool): (e: int)
    requires i < |p|
    ensures e == -1 || (1 <= e <= i && p[e] == '/')
    decreases i
  {
    if i < 1 then -1
    else if p[i] == '/' then (if !matchedSlash then i else DirnameEnd(p, i - 1, matchedSlash))
    else DirnameEnd(p, i - 1, false)
  }

  /** `path.dirname(p)`. */
  function Dirname(p: string): (r: string)
    ensures |r| > 0
  {
    if |p| == 0 then "."
    else
      var hasRoot := p[0] == '/';
      var e := DirnameEnd(p, |p| - 1, true);
      if e == -1 then (if hasRoot then "/" else ".")
      else if hasRoot && e == 1 then "//"
      else p[..e]
  }

  /**
   * `path.join(a, b)` for the arguments the dump steps pass: empty
   * arguments and a `.` directory are dropped, the rest joined with `/`.
   */
  function Join(a: string, b: string): (r: string)
    ensures |r| > 0
  {
    if a == "" || a == "." then (if b == "" then "." else b)
    else if b == "" then a
    else a + "/" + b
  }

  lemma LastComponentJoin(d: string, n: string)
    requires |n| > 0 && '/' !in n
    ensures LastComponent(Join(d, n)) == n
  {
    var p := Join(d, n);
    if p != n {
      assert p == d + "/" + n;
      assert StripTrailingSlashes(p) == p by {
        assert p[|p| - 1] == n[|n| - 1];
      }
      assert p[|d|] == '/';
      assert p[|d| + 1..] == n;
      assert LastIndexOf(p, '/') == Some(|d|);
    }
  }

  /** The base name of a joined path is the name joined on. */
  lemma BasenameJoin(d: string, n: string)
    requires |n| > 0 && '/' !in n
    ensures Basename(Join(d, n), "") == n
  {
    LastComponentJoin(d, n);
  }

  /** A name that ends in `ext` (and is more than `ext`) loses exactly that suffix. */
  lemma BasenameStripsSuffix(d: string, n: string, ext: string)
    requires '/' !in n && n != ext && EndsWith(n, ext) && |n| > 0
    ensures Basename(Join(d, n), ext) + ext == n
  {
    LastComponentJoin(d, n);
    var p := Join(d, n);
    assert p != ext by {
      if p != n {
        assert |p| > |n|;
      }
    }
    assert n[..|n| - |ext|] + ext == n;
  }

  /** A name that does not end in `ext` comes back whole. */
  lemma BasenameKeepsOther(d: string, n: string, ext: string)
    requires '/' !in n && |n| > 0 && '/' !in ext && !EndsWith(n, ext)
    ensures Basename(Join(d, n), ext) == n
  {
    LastComponentJoin(d, n);
    var p := Join(d, n);
    assert p != ext by {
      if p != n {
        assert p[|d|] == '/';
      }
    }
  }

  /** A slash-free name that ends in `ext` is its base name followed by `ext`. */
  lemma BasenameStripsSuffixName(n: string, ext: string)
    requires '/' !in n && EndsWith(n, ext)
    ensures Basename(n, ext) + ext == n
  {
    if n != ext {
      assert n[..|n| - |ext|] + ext == n;
    }
  }

  /** A slash-free name that does not end in `ext` is its own base name. */
  lemma BasenameKeepsOtherName(n: string, ext: string)
    requires '/' !in n && !EndsWith(n, ext)
    ensures Basename(n, ext) == n
  {
    assert n != ext;
  }

  /** The directory a name was joined to comes back from `dirname`. */
  lemma DirnameJoin(d: string, n: string)
    requires |d| > 0 && d != "." && d[|d| - 1] != '/'
    requires |n| > 0 && '/' !in n
    ensures Dirname(Join(d, n)) == d
  {
    var p := d + "/" + n;
    assert Join(d, n) == p;
    DirnameScanName(p, |d|, |p| - 1);
    if d[0] == '/' {
      assert |d| > 1;
    }
  }

  /** Scanning back over a slash-free tail stops at the slash before it. */
  lemma {:induction false} DirnameScanName(p: string, k: nat, i: nat)
    requires 1 <= k <= i < |p| && p[k] == '/' && p[k - 1] != '/'
    requires forall j :: k < j < |p| ==> p[j] != '/'
    requires i > k
    ensures DirnameEnd(p, i, true) == k
    decreases i
  {
    DirnameScanFrom(p, k, i - 1);
  }

  lemma {:induction false} DirnameScanFrom(p: string, k: nat, i: nat)
    requires 1 <= k <= i < |p| && p[k] == '/'
    requires forall j :: k < j < |p| ==> p[j] != '/'
    ensures DirnameEnd(p, i, false) == k
    decreases i
  {
    if i > k {
      DirnameScanFrom(p, k, i - 1);
    }
  }

  /** A dotted extension is read back from the end of a name. */
  lemma ExtnameOf(d: string, stem: string, ext: string)
    requires |stem| > 0 && '/' !in stem
    requires |ext| > 1 && ext[0] == '.' && '/' !in ext && '.' !in ext[1..]
    ensures Extname(Join(d, stem + ext)) == ext
  {
    var n := stem + ext;
    assert '/' !in n by {
      assert forall j :: 0 <= j < |n| ==> n[j] == (if j < |stem| then stem[j] else ext[j - |stem|]);
    }
    LastComponentJoin(d, n);
    assert n[|stem|] == '.';
    assert n[|stem| + 1..] == ext[1..];
    assert LastIndexOf(n, '.') == Some(|stem|);
    assert n[|stem|..] == ext;
  }

  /** Joining non-empty names to one directory never makes two names meet. */
  lemma JoinInjective(d: string, a: string, b: string)
    requires |a| > 0 && |b| > 0 && Join(d, a) == Join(d, b)
    ensures a == b
  {
    if d != "" && d != "." {
      var p := Join(d, a);
      assert p == d + "/" + a && p[|d| + 1..] == a;
      assert p == d + "/" + b && p[|d| + 1..] == b;
    }
  }
}

=== FILE: projector_rays.dfy ===
/**
 * The ProjectorRays decompiler's manager: making sure the tool is there
 * (fetching and building it when it is not) and running it on one
 * Director file. Every file-system and subprocess observation the manager
 * makes is an input.
 */
module ProjectorRays {
  import opened Core
  import opened Text
  import Paths

  /** The manager's state: where the tool lives and whether it is known to work. */
  datatype Manager = Manager(toolPath: string, initialized: bool)

  /** `getInstance()` the first time: the tool directory under the working directory, not yet checked. */
  function NewManager(cwd: string): (m: Manager)
    ensures !m.initialized
  {
    Manager(Paths.Join(cwd, "ProjectorRays"), false)
  }

  /** The executable inside the tool directory. */
  function Executable(m: Manager): string {
    Paths.Join(m.toolPath, "projectorrays")
  }

  /**
   * What the environment answers during one setup: whether the executable
   * and the directory are there, and how each step would end (a step
   * that fails carries its error message). A directory that is not a git
   * repository can be cloned into twice, so the two clones are separate.
   */
  datatype Environment = Environment(
    executablePresent: bool,
    directoryPresent: bool,
    gitStatus: Outcome<string>,
    remove: Outcome<string>,
    firstClone: Outcome<string>,
    secondClone: Outcome<string>,
    brewVersion: Outcome<string>,
    install: Outcome<string>,
    make: Outcome<string>,
    builtExecutable: Outcome<string>)

  /** The steps of a setup that change the machine. */
  datatype Action = Remove | Clone | Install | Build

  /** One `ensureAvailable()`: the manager afterwards, what it did, and how it ended. */
  datatype Setup = Setup(manager: Manager, actions: seq<Action>, outcome: Outcome<string>)

  const SetupFailedPrefix: string := "ProjectorRays setup failed: "
  const HomebrewMissing: string := "Homebrew is required to install dependencies. Please install Homebrew first: https://brew.sh/"

  /** The first failing outcome, if any. */
  function Then(a: Outcome<string>, b: Outcome<string>): Outcome<string> {
    if a.Fail? then a else b
  }

  /**
   * Making sure the tool directory holds the repository: a valid one is
   * reused; an invalid one is removed and cloned again; a missing one is
   * cloned. A failure while replacing an invalid directory is caught by
   * the handler for a missing directory, which clones: when the removal
   * failed, that is the only clone; when the removal succeeded but the
   * re-clone failed, it is a second one.
   */
  function FetchRepository(env: Environment): (seq<Action>, Outcome<string>) {
    if !env.directoryPresent then ([Clone], env.firstClone)
    else if env.gitStatus.Pass? then ([], Pass)
    else if env.remove.Fail? then ([Remove, Clone], env.firstClone)
    else if env.firstClone.Fail? then ([Remove, Clone, Clone], env.secondClone)
    else ([Remove, Clone], Pass)
  }

  /**
   * After the repository: Homebrew must answer, the dependency install is
   * attempted and its failure or time-out ignored, then the build runs and
   * the executable must exist.
   */
  function BuildTool(env: Environment): (seq<Action>, Outcome<string>) {
    if env.brewVersion.Fail? then ([], Fail(HomebrewMissing))
    else ([Install, Build], Then(env.make, env.builtExecutable))
  }

  /** `ensureAvailable()`. */
  function EnsureAvailable(m: Manager, env: Environment): (r: Setup)
    ensures r.manager.toolPath == m.toolPath
    ensures r.manager.initialized <==> r.outcome.Pass?
    ensures r.outcome.Fail? ==> StartsWith(r.outcome.error, SetupFailedPrefix)
  {
    if m.initialized then Setup(m, [], Pass)
    else if env.executablePresent then Setup(m.(initialized := true), [], Pass)
    else
      var (fetched, fetchOutcome) := FetchRepository(env);
      if fetchOutcome.Fail? then Setup(m, fetched, Fail(SetupFailedPrefix + fetchOutcome.error))
      else
        var (built, buildOutcome) := BuildTool(env);
        if buildOutcome.Fail? then Setup(m, fetched + built, Fail(SetupFailedPrefix + buildOutcome.error))
        else Setup(m.(initialized := true), fetched + built, Pass)
  }

  /** Once the tool is known to work, setup does nothing whatever the environment says. */
  lemma EnsureAvailableInitialized(m: Manager, env: Environment)
    requires m.initialized
    ensures EnsureAvailable(m, env) == Setup(m, [], Pass)
  {
  }

  /** A successful setup is final: a second one does nothing. */
  lemma EnsureAvailableIdempotent(m: Manager, env: Environment, env': Environment)
    ensures var s := EnsureAvailable(m, env);
      s.outcome.Pass? ==> EnsureAvailable(s.manager, env') == Setup(s.manager, [], Pass)
  {
  }

  /** An executable already in place is used as it is: no clone, install or build. */
  lemma ExecutableFound(m: Manager, env: Environment)
    requires env.executablePresent
    ensures EnsureAvailable(m, env) == Setup(m.(initialized := true), [], Pass)
  {
  }

  /**
   * How the tool directory is handled: a valid repository is reused, a
   * missing directory is cloned, an invalid one is removed and cloned.
   */
  lemma RepositoryHandling(m: Manager, env: Environment)
    requires !m.initialized && !env.executablePresent
    ensures var a := EnsureAvailable(m, env).actions;
      (env.directoryPresent && env.gitStatus.Pass? ==> Clone !in a && Remove !in a)
      && (!env.directoryPresent ==> |a| >= 1 && a[0] == Clone && Remove !in a)
      && (env.directoryPresent && env.gitStatus.Fail? ==> |a| >= 2 && a[..2] == [Remove, Clone])
  {
  }

  /** Without Homebrew the setup fails with its own message, before installing or building. */
  lemma HomebrewRequired(m: Manager, env: Environment)
    requires !m.initialized && !env.executablePresent
    requires FetchRepository(env).1.Pass? && env.brewVersion.Fail?
    ensures EnsureAvailable(m, env).outcome == Fail(SetupFailedPrefix + HomebrewMissing)
    ensures Install !in EnsureAvailable(m, env).actions && Build !in EnsureAvailable(m, env).actions
  {
  }

  /** A failed or timed-out dependency install changes nothing: the build goes ahead. */
  lemma InstallIgnored(m: Manager, env: Environment, install: Outcome<string>)
    ensures EnsureAvailable(m, env.(install := install)) == EnsureAvailable(m, env)
  {
  }

  /** The tool becomes usable exactly when the executable is found, before or after a build. */
  lemma InitializedWhen(m: Manager, env: Environment)
    requires !m.initialized
    ensures EnsureAvailable(m, env).manager.initialized <==>
      env.executablePresent
      || (FetchRepository(env).1.Pass? && env.brewVersion.Pass? && env.make.Pass? && env.builtExecutable.Pass?)
  {
  }

  /*
   * Extraction
   */

  /** `path.resolve(p)` against the working directory `cwd`, without normalising. */
  function Resolve(cwd: string, p: string): (r: string)
    ensures StartsWith(p, "/") ==> r == p
  {
    if StartsWith(p, "/") then p else Paths.Join(cwd, p)
  }

  /** The shell command that decompiles `absIn` into `absOut`. */
  function Command(toolPath: string, absIn: string, absOut: string): string {
    "cd \"" + toolPath + "\" && ./projectorrays decompile \"" + absIn + "\" -o \"" + absOut + "\""
  }

  /** An entry of the output directory: its name and whether it is a regular file. */
  datatype Dirent = Dirent(name: string, isFile: bool)

  /** What one run of the tool gives: the command's outcome and what reading the output directory gives. */
  datatype Run = Run(command: Outcome<string>, outputListing: Option<seq<Dirent>>)

  /** `extractFile`'s answer. */
  datatype Extraction = Extraction(success: bool, extractedFiles: seq<string>)

  /** One `extractFile(inputPath, outputDir)`: the setup, the command run (if any), and the answer or the setup error. */
  datatype ExtractCall = ExtractCall(setup: Setup, command: Option<string>, result: Result<Extraction, string>)

  /** The regular files of a listing, joined to the directory, in listing order. */
  function RegularFiles(dir: string, entries: seq<Dirent>): (r: seq<string>)
    ensures |r| <= |entries|
    ensures |r| == 0 <==> forall i :: 0 <= i < |entries| ==> !entries[i].isFile
  {
    if |entries| == 0 then []
    else (if entries[0].isFile then [Paths.Join(dir, entries[0].name)] else []) + RegularFiles(dir, entries[1..])
  }

  /**
   * `extractFile(inputPath, outputDir)` run from `cwd`: a setup error
   * propagates; otherwise the tool runs and the answer lists the regular
   * files found in the output directory, succeeding when there is one.
   */
  function ExtractFile(m: Manager, env: Environment, run: Run, cwd: string, inputPath: string, outputDir: string): (r: ExtractCall)
    ensures r.setup == EnsureAvailable(m, env)
    ensures r.result.Failure? <==> r.setup.outcome.Fail?
    ensures r.result.Failure? ==> r.result.error == r.setup.outcome.error && r.command.None?
    ensures r.result.Success? ==>
      r.command == Some(Command(m.toolPath, Resolve(cwd, inputPath), Resolve(cwd, outputDir)))
    ensures r.result.Success? ==> (r.result.value.success <==> |r.result.value.extractedFiles| > 0)
  {
    var setup := EnsureAvailable(m, env);
    if setup.outcome.Fail? then ExtractCall(setup, None, Failure(setup.outcome.error))
    else
      var absIn, absOut := Resolve(cwd, inputPath), Resolve(cwd, outputDir);
      var command := Command(m.toolPath, absIn, absOut);
      var files := if run.command.Fail? || run.outputListing.None? then [] else RegularFiles(absOut, run.outputListing.value);
      var answer := if run.command.Pass? && |files| > 0 then Extraction(true, files) else Extraction(false, []);
      ExtractCall(setup, Some(command), Success(answer))
  }

  /**
   * After a good setup, extraction succeeds exactly when the command ran and
   * the output directory holds a regular file, and then lists exactly the
   * regular files; in every other case it answers `{false, []}`.
   */
  lemma ExtractFileOutcome(m: Manager, env: Environment, run: Run, cwd: string, inputPath: string, outputDir: string)
    requires EnsureAvailable(m, env).outcome.Pass?
    ensures var r := ExtractFile(m, env, run, cwd, inputPath, outputDir);
      var out := Resolve(cwd, outputDir);
      r.result.Success?
      && (r.result.value.success <==>
            run.command.Pass? && run.outputListing.Some?
            && exists i :: 0 <= i < |run.outputListing.value| && run.outputListing.value[i].isFile)
      && (r.result.value.success ==> r.result.value.extractedFiles == RegularFiles(out, run.outputListing.value))
      && (!r.result.value.success ==> r.result.value.extractedFiles == [])
  {
  }

  /** Each extracted path is a regular file of the output directory, joined to it. */
  lemma {:induction false} RegularFilesMembers(dir: string, entries: seq<Dirent>, p: string)
    ensures p in RegularFiles(dir, entries) <==>
      exists i :: 0 <= i < |entries| && entries[i].isFile && p == Paths.Join(dir, entries[i].name)
    decreases |entries|
  {
    if |entries| > 0 {
      RegularFilesMembers(dir, entries[1..], p);
      if exists i :: 0 <= i < |entries| && entries[i].isFile && p == Paths.Join(dir, entries[i].name) {
        var i :| 0 <= i < |entries| && entries[i].isFile && p == Paths.Join(dir, entries[i].name);
        if i > 0 {
          assert entries[1..][i - 1] == entries[i];
        }
      }
      if exists i :: 0 <= i < |entries[1..]| && entries[1..][i].isFile && p == Paths.Join(dir, entries[1..][i].name) {
        var i :| 0 <= i < |entries[1..]| && entries[1..][i].isFile && p == Paths.Join(dir, entries[1..][i].name);
        assert entries[i + 1] == entries[1..][i];
      }
    }
  }

  /** The command asks for `decompile`, with the input and output paths quoted. */
  lemma CommandShape(toolPath: string, absIn: string, absOut: string)
    ensures var c := Command(toolPath, absIn, absOut);
      StartsWith(c, "cd \"" + toolPath + "\" && ./projectorrays decompile \"")
      && EndsWith(c, "\" -o \"" + absOut + "\"")
      && Contains(c, " decompile \"" + absIn + "\" -o ")
  {
    var c := Command(toolPath, absIn, absOut);
    var head := "cd \"" + toolPath + "\" && ./projectorrays";
    var mid := " decompile \"" + absIn + "\" -o ";
    assert c == head + mid + "\"" + absOut + "\"";
    assert OccursAt(c, mid, |head|);
  }
}

=== FILE: text.dfy ===
/**
 * String helpers with the semantics of the JavaScript string methods the
 * pipeline uses: `trim`, `split` on one character, `indexOf`, `includes`,
 * `startsWith`, `endsWith`, `toLowerCase` and decimal `parseInt`.
 */
module Text {
  import opened Core

  /** The code points `String.prototype.trim` removes (ECMAScript WhiteSpace and LineTerminator). */
  predicate IsSpace(c: char) {
    var n := c as int;
    n == 0x09 || n == 0x0A || n == 0x0B || n == 0x0C || n == 0x0D || n == 0x20
    || n == 0xA0 || n == 0x1680 || (0x2000 <= n <= 0x200A) || n == 0x2028 || n == 0x2029
    || n == 0x202F || n == 0x205F || n == 0x3000 || n == 0xFEFF
  }

  predicate AllSpace(s: string) {
    forall i :: 0 <= i < |s| ==> IsSpace(s[i])
  }

  /** Neither end of `s` is white space: `trim` leaves it as it is. */
  predicate IsTrimmed(s: string) {
    |s| == 0 || (!IsSpace(s[0]) && !IsSpace(s[|s| - 1]))
  }

  /** How many white-space characters `s` starts with. */
  function LeadingSpaces(s: string): (n: nat)
    ensures n <= |s| && AllSpace(s[..n])
    ensures n < |s| ==> !IsSpace(s[n])
    decreases |s|
  {
    if |s| > 0 && IsSpace(s[0]) then
      var k := LeadingSpaces(s[1..]);
      assert s[..k + 1] == [s[0]] + s[1..][..k];
      k + 1
    else 0
  }

  /** How many white-space characters `s` ends with. */
  function TrailingSpaces(s: string): (n: nat)
    ensures n <= |s| && AllSpace(s[|s| - n..])
    ensures n < |s| ==> !IsSpace(s[|s| - n - 1])
    decreases |s|
  {
    if |s| > 0 && IsSpace(s[|s| - 1]) then
      var m := |s| - 1;
      var k := TrailingSpaces(s[..m]);
      TrailingStep(s, m, k);
      k + 1
    else 0
  }

  /** One more white-space character at the end of `s[..m]`. */
  lemma TrailingStep(s: string, m: nat, k: nat)
    requires m + 1 == |s| && IsSpace(s[m]) && k <= m
    requires AllSpace(s[..m][m - k..])
    requires k < m ==> !IsSpace(s[..m][m - k - 1])
    ensures AllSpace(s[m - k..])
    ensures k + 1 < |s| ==> !IsSpace(s[m - k - 1])
  {
    assert s[m - k..] == s[..m][m - k..] + [s[m]];
  }

  /** `trimStart`: `s` without its leading white space. */
  function TrimStart(s: string): (r: string)
    ensures |r| == 0 || !IsSpace(r[0])
  {
    s[LeadingSpaces(s)..]
  }

  /** `trimEnd`: `s` without its trailing white space. */
  function TrimEnd(s: string): (r: string)
    ensures |r| == 0 || !IsSpace(r[|r| - 1])
  {
    s[..|s| - TrailingSpaces(s)]
  }

  /** `r` is a slice of `s` with nothing but white space around it. */
  predicate SpaceFramed(s: string, r: string) {
    exists i :: 0 <= i <= |s| - |r| && r == s[i..i + |r|] && AllSpace(s[..i]) && AllSpace(s[i + |r|..])
  }

  /** `trim`: `s` without its leading and trailing white space. */
  function Trim(s: string): (r: string)
    ensures IsTrimmed(r)
    ensures |r| <= |s|
  {
    var t := TrimStart(s);
    var r := TrimEnd(t);
    assert |r| > 0 ==> r[0] == t[0];
    r
  }

  /** What `trim` gives is a slice of its input with nothing but white space around it. */
  lemma TrimFramed(s: string)
    ensures SpaceFramed(s, Trim(s))
  {
    var i := TrimAt(s);
    assert 0 <= i <= |s| - |Trim(s)|;
  }

  /** Where in `s` the text `trim` gives starts, with only white space before and after it. */
  lemma TrimAt(s: string) returns (i: nat)
    ensures i + |Trim(s)| <= |s| && Trim(s) == s[i..i + |Trim(s)|]
    ensures AllSpace(s[..i]) && AllSpace(s[i + |Trim(s)|..])
  {
    var t := TrimStart(s);
    var r := TrimEnd(t);
    i := |s| - |t|;
    SliceOfSuffix(s, i, |r|);
  }

  /** Cutting a suffix of `s` again is cutting `s`. */
  lemma SliceOfSuffix<T>(s: seq<T>, i: nat, k: nat)
    requires i + k <= |s|
    ensures s[i..][..k] == s[i..i + k] && s[i..][k..] == s[i + k..]
  {
  }

  /** `s` is its three pieces around the slice from `i` of length `k`. */
  lemma Reassemble<T>(s: seq<T>, i: nat, k: nat)
    requires i + k <= |s|
    ensures s == s[..i] + s[i..i + k] + s[i + k..]
  {
  }

  lemma RegroupFront<T>(w: seq<T>, a: seq<T>, r: seq<T>, b: seq<T>)
    ensures w + (a + r + b) == (w + a) + r + b
  {
  }

  lemma RegroupBack<T>(a: seq<T>, r: seq<T>, b: seq<T>, w: seq<T>)
    ensures (a + r + b) + w == a + r + (b + w)
  {
  }

  lemma AllSpaceAppend(a: string, b: string)
    requires AllSpace(a) && AllSpace(b)
    ensures AllSpace(a + b)
  {
  }

  /** A character inside an all-space prefix is white space. */
  lemma SpaceBefore(s: string, n: nat, j: int)
    requires n <= |s| && AllSpace(s[..n])
    ensures 0 <= j < n ==> IsSpace(s[j])
  {
    if 0 <= j < n {
      assert s[..n][j] == s[j];
    }
  }

  /** A character inside an all-space suffix is white space. */
  lemma SpaceFrom(s: string, n: nat, j: int)
    requires n <= |s| && AllSpace(s[n..])
    ensures n <= j < |s| ==> IsSpace(s[j])
  {
    if n <= j < |s| {
      assert s[n..][j - n] == s[j];
    }
  }

  /** `trimStart` is the one all-space cut whose rest does not start with white space. */
  lemma TrimStartUnique(w: string, x: string)
    requires AllSpace(w) && (|x| == 0 || !IsSpace(x[0]))
    ensures TrimStart(w + x) == x
  {
    var s := w + x;
    var r := TrimStart(s);
    var n := |s| - |r|;
    SpaceBefore(s, n, |w|);
    assert s[..|w|] == w;
    SpaceBefore(s, |w|, n);
    assert n == |w|;
    assert r == s[|w|..];
  }

  /** `trimEnd` is the one all-space cut whose rest does not end with white space. */
  lemma TrimEndUnique(x: string, w: string)
    requires AllSpace(w) && (|x| == 0 || !IsSpace(x[|x| - 1]))
    ensures TrimEnd(x + w) == x
  {
    var s := x + w;
    var r := TrimEnd(s);
    SpaceFrom(s, |r|, |x| - 1);
    assert s[|x|..] == w;
    SpaceFrom(s, |x|, |r| - 1);
    assert |r| == |x|;
    assert r == s[..|x|];
  }

  /** Trimming keeps every character from the first non-space one up to any later non-space one. */
  lemma TrimKeeps(s: string, k: nat, q: nat)
    requires k <= q < |s| && AllSpace(s[..k]) && !IsSpace(s[k]) && !IsSpace(s[q])
    ensures |Trim(s)| > q - k && Trim(s)[0] == s[k] && Trim(s)[q - k] == s[q]
  {
    var u := s[k..];
    assert s == s[..k] + u;
    TrimStartUnique(s[..k], u);
    var t := TrimEnd(u);
    SpaceFrom(u, |t|, q - k);
    assert u[q - k] == s[q];
  }

  /**
   * Cutting a line at a position `i` of the text `t` framed by white space
   * in it: what lies before and after the cut trims as the same cut of `t` does.
   */
  lemma FramedCut(s: string, a: nat, t: string, i: nat)
    requires a + |t| <= |s| && t == s[a..a + |t|] && AllSpace(s[..a]) && AllSpace(s[a + |t|..]) && i < |t|
    ensures s[a + i] == t[i] && s[..a + i] == s[..a] + t[..i]
    ensures Trim(s[..a + i]) == Trim(t[..i]) && Trim(s[a + i + 1..]) == Trim(t[i + 1..])
  {
    SliceAround(s, a, t, i);
    TrimSpaceLeft(s[..a], t[..i]);
    TrimSpaceRight(t[i + 1..], s[a + |t|..]);
  }

  /** Positions inside a slice `t` of `s` starting at `a`. */
  lemma SliceAround<T>(s: seq<T>, a: nat, t: seq<T>, i: nat)
    requires a + |t| <= |s| && t == s[a..a + |t|] && i < |t|
    ensures s[a + i] == t[i]
    ensures s[..a + i] == s[..a] + t[..i]
    ensures s[a + i + 1..] == t[i + 1..] + s[a + |t|..]
  {
  }

  /** Trimming text framed by white space gives back the text. */
  lemma TrimSpaces(w1: string, x: string, w2: string)
    requires AllSpace(w1) && AllSpace(w2) && IsTrimmed(x)
    ensures Trim(w1 + x + w2) == x
  {
    AppendAssoc(w1, x, w2);
    if |x| == 0 {
      AppendEmpty(w1);
      AllSpaceAppend(w1, w2);
      TrimStartUnique(w1 + w2, x);
      AppendEmpty(w1 + w2);
    } else {
      assert (x + w2)[0] == x[0];
      TrimStartUnique(w1, x + w2);
      TrimEndUnique(x, w2);
    }
  }

  /** `trim` leaves text without white space at either end as it is. */
  lemma TrimTrimmed(s: string)
    requires IsTrimmed(s)
    ensures Trim(s) == s
  {
    TrimSpaces([], s, []);
    assert [] + s + [] == s;
  }

  /** White space in front does not change what `trim` gives. */
  lemma TrimSpaceLeft(w: string, x: string)
    requires AllSpace(w)
    ensures Trim(w + x) == Trim(x)
  {
    var i := TrimAt(x);
    var r := Trim(x);
    Reassemble(x, i, |r|);
    RegroupFront(w, x[..i], r, x[i + |r|..]);
    AllSpaceAppend(w, x[..i]);
    TrimSpaces(w + x[..i], r, x[i + |r|..]);
  }

  /** White space behind does not change what `trim` gives. */
  lemma TrimSpaceRight(x: string, w: string)
    requires AllSpace(w)
    ensures Trim(x + w) == Trim(x)
  {
    var i := TrimAt(x);
    var r := Trim(x);
    Reassemble(x, i, |r|);
    RegroupBack(x[..i], r, x[i + |r|..], w);
    AllSpaceAppend(x[i + |r|..], w);
    TrimSpaces(x[..i], r, x[i + |r|..] + w);
  }

  /** `indexOf` for one character: the first position of `c`, if any. */
  function IndexOf(s: string, c: char): (r: Option<nat>)
    ensures r.None? <==> c !in s
    ensures r.Some? ==> r.value < |s| && s[r.value] == c && c !in s[..r.value]
  {
    if |s| == 0 then None
    else if s[0] == c then Some(0)
    else
      match IndexOf(s[1..], c)
      case None => None
      case Some(i) =>
        assert s[..i + 1] == [s[0]] + s[1..][..i];
        Some(i + 1)
  }

  /** The first occurrence is the one `IndexOf` finds. */
  lemma IndexOfFirst(s: string, c: char, k: nat)
    requires k < |s| && s[k] == c && c !in s[..k]
    ensures IndexOf(s, c) == Some(k)
  {
    assert s[k] in s;
  }

  /** Taking the first character off a concatenation. */
  lemma ConsConcat(pre: string, rest: string)
    requires |pre| > 0
    ensures (pre + rest)[0] == pre[0] && (pre + rest)[1..] == pre[1..] + rest
    ensures [pre[0]] + (pre[1..] + rest) == pre + rest
  {
  }

  /** `sub` occurs in `s` starting at position `i`. */
  predicate OccursAt(s: string, sub: string, i: int) {
    0 <= i <= |s| - |sub| && s[i..i + |sub|] == sub
  }

  /** `includes`: `sub` occurs somewhere in `s`. */
  predicate Contains(s: string, sub: string) {
    exists i | 0 <= i <= |s| - |sub| :: OccursAt(s, sub, i)
  }

  predicate StartsWith(s: string, prefix: string) {
    |prefix| <= |s| && s[..|prefix|] == prefix
  }

  predicate EndsWith(s: string, suffix: string) {
    |suffix| <= |s| && s[|s| - |suffix|..] == suffix
  }

  /** Text framed by a head and a foot starts with the head and ends with the foot. */
  lemma Framed(head: string, body: string, foot: string)
    ensures StartsWith(head + body + foot, head) && EndsWith(head + body + foot, foot)
    ensures (head + body + foot)[|head|..|head| + |body|] == body
  {
    assert (head + body + foot)[..|head|] == head;
    assert (head + body + foot)[|head + body|..] == foot;
  }

  /** Occurrence is transitive: whatever occurs in a part of `s` occurs in `s`. */
  lemma ContainsTransitive(s: string, mid: string, sub: string)
    requires Contains(s, mid) && Contains(mid, sub)
    ensures Contains(s, sub)
  {
    var i: int :| 0 <= i <= |s| - |mid| && OccursAt(s, mid, i);
    var j: int :| 0 <= j <= |mid| - |sub| && OccursAt(mid, sub, j);
    var a, b := s[i + j..i + j + |sub|], mid[j..j + |sub|];
    forall k | 0 <= k < |sub|
      ensures a[k] == b[k]
    {
      assert mid[j + k] == s[i + j + k];
    }
    assert a == b;
    assert OccursAt(s, sub, i + j);
  }

  /** The middle of a concatenation occurs in it. */
  lemma ContainsInfix(a: string, b: string, c: string)
    ensures Contains(a + b + c, b)
  {
    assert (a + b + c)[|a|..|a| + |b|] == b;
    assert OccursAt(a + b + c, b, |a|);
  }

  /** The concatenation of `blocks`, in order. */
  function Concat(blocks: seq<string>): (r: string)
    ensures |blocks| > 0 ==> r == blocks[0] + Concat(blocks[1..])
  {
    if |blocks| == 0 then "" else blocks[0] + Concat(blocks[1..])
  }

  /** Every block occurs in the concatenation. */
  lemma {:induction false} ConcatContains(blocks: seq<string>, i: nat)
    requires i < |blocks|
    ensures Contains(Concat(blocks), blocks[i])
    decreases |blocks|
  {
    var head, rest := blocks[0], Concat(blocks[1..]);
    assert Concat(blocks) == "" + head + rest;
    if i == 0 {
      ContainsInfix("", head, rest);
    } else {
      ConcatContains(blocks[1..], i - 1);
      assert blocks[1..][i - 1] == blocks[i];
      ContainsInfix(head, rest, "");
      assert head + rest + "" == head + rest;
      ContainsTransitive(Concat(blocks), rest, blocks[i]);
    }
  }

  /** The first position at or after `from` where `sub` occurs (`indexOf` with a string argument). */
  function FindFrom(s: string, sub: string, from: nat): (r: Option<nat>)
    ensures r.Some? ==> from <= r.value && OccursAt(s, sub, r.value)
    ensures r.Some? ==> forall j :: from <= j < r.value ==> !OccursAt(s, sub, j)
    ensures r.None? ==> forall j :: from <= j ==> !OccursAt(s, sub, j)
    decreases |s| + 1 - from
  {
    if from + |sub| > |s| then None
    else if OccursAt(s, sub, from) then Some(from)
    else FindFrom(s, sub, from + 1)
  }

  /** `replace` with a string pattern: only the first occurrence of `sub` is replaced. */
  function ReplaceFirst(s: string, sub: string, rep: string): (r: string)
    ensures !Contains(s, sub) ==> r == s
  {
    match FindFrom(s, sub, 0)
    case None => s
    case Some(i) => s[..i] + rep + s[i + |sub|..]
  }

  /** Joins `parts` with the separator `sep` between consecutive parts (`Array.prototype.join`). */
  function Join(parts: seq<string>, sep: char): string
    requires |parts| >= 1
  {
    if |parts| == 1 then parts[0] else parts[0] + [sep] + Join(parts[1..], sep)
  }

  /** Joining from part `i` on: part `i`, the separator, and the join of the rest. */
  lemma JoinTail(parts: seq<string>, sep: char, i: nat)
    requires i + 1 < |parts|
    ensures Join(parts[i..], sep) == parts[i] + [sep] + Join(parts[i + 1..], sep)
  {
    assert parts[i..][1..] == parts[i + 1..];
  }

  /** `split` on one character: the maximal `sep`-free pieces, in order. */
  function Split(s: string, sep: char): (parts: seq<string>)
    ensures |parts| >= 1
    ensures forall k :: 0 <= k < |parts| ==> sep !in parts[k]
    ensures Join(parts, sep) == s
    decreases |s|
  {
    match IndexOf(s, sep)
    case None => [s]
    case Some(i) =>
      var rest := Split(s[i + 1..], sep);
      assert s == s[..i] + [sep] + s[i + 1..];
      [s[..i]] + rest
  }

  /** Splitting undoes joining whenever no part holds the separator. */
  lemma {:induction false} SplitJoin(parts: seq<string>, sep: char)
    requires |parts| >= 1
    requires forall k :: 0 <= k < |parts| ==> sep !in parts[k]
    ensures Split(Join(parts, sep), sep) == parts
    decreases |parts|
  {
    var s := Join(parts, sep);
    if |parts| == 1 {
      assert IndexOf(s, sep).None?;
    } else {
      var p, tail := parts[0], Join(parts[1..], sep);
      assert s == p + [sep] + tail;
      AroundSeparator(p, sep, tail);
      IndexOfFirst(s, sep, |p|);
      assert Split(s, sep) == [p] + Split(tail, sep);
      SplitJoin(parts[1..], sep);
      assert parts == [p] + parts[1..];
    }
  }

  /** The pieces around a separator placed between `p` and `t`. */
  lemma AroundSeparator(p: string, c: char, t: string)
    ensures var s := p + [c] + t; s[..|p|] == p && s[|p|] == c && s[|p| + 1..] == t
  {
  }

  /** ASCII `toLowerCase`: upper-case Latin letters become lower case, everything else stays. */
  function LowerChar(c: char): char {
    if 'A' <= c <= 'Z' then (c as int + 32) as char else c
  }

  function ToLower(s: string): (r: string)
    ensures |r| == |s|
    ensures forall i :: 0 <= i < |s| ==> r[i] == LowerChar(s[i])
  {
    seq(|s|, i requires 0 <= i < |s| => LowerChar(s[i]))
  }

  /** Text with no capital letter is its own lower case. */
  lemma ToLowerNoCapitals(s: string)
    requires forall i :: 0 <= i < |s| ==> !('A' <= s[i] <= 'Z')
    ensures ToLower(s) == s
  {
    assert forall i :: 0 <= i < |s| ==> ToLower(s)[i] == s[i];
  }

  /** Lower-casing twice is lower-casing once. */
  lemma ToLowerIdempotent(s: string)
    ensures ToLower(ToLower(s)) == ToLower(s)
  {
    assert forall i :: 0 <= i < |s| ==> LowerChar(LowerChar(s[i])) == LowerChar(s[i]);
  }

  predicate IsDigit(c: char) {
    '0' <= c <= '9'
  }

  /** A non-empty run of ASCII digits (the regular-expression class `\d+`). */
  predicate IsDigits(s: string) {
    |s| > 0 && forall i :: 0 <= i < |s| ==> IsDigit(s[i])
  }

  function DigitValue(c: char): nat
    requires IsDigit(c)
  {
    c as int - '0' as int
  }

  /** The decimal value of a run of digits (`parseInt` on `\d+`). */
  function ParseNat(s: string): nat
    requires forall i :: 0 <= i < |s| ==> IsDigit(s[i])
  {
    if |s| == 0 then 0 else ParseNat(s[..|s| - 1]) * 10 + DigitValue(s[|s| - 1])
  }

  /** The decimal spelling of `n` without leading zeros (`String(n)`). */
  function NatToString(n: nat): (r: string)
    ensures IsDigits(r)
  {
    if n < 10 then [('0' as int + n) as char]
    else NatToString(n / 10) + [('0' as int + n % 10) as char]
  }

  /** Reading back the decimal spelling of a number gives the number. */
  lemma {:induction false} ParseNatToString(n: nat)
    ensures ParseNat(NatToString(n)) == n
  {
    var s := NatToString(n);
    if n >= 10 {
      ParseNatToString(n / 10);
      assert s[..|s| - 1] == NatToString(n / 10);
    }
  }

  /** `String(i)` for an integer. */
  function IntToString(i: int): string {
    if i < 0 then "-" + NatToString(-i) else NatToString(i)
  }
}
